=== FILE: README.md ===
# Swarm coordination core in Dafny

This project models the three coordination engines of a robot-swarm
controller:

- **Consensus manager.** A Raft-style engine. It builds the communication
  topology, checks whether the leader is healthy, runs leader elections
  (candidate ranking, vote collection, majority, promotion), replicates state
  to reachable followers and reports the health of the consensus.
- **Task distributor.** Robots bid for tasks. The distributor runs a
  single-task auction, or a batch assignment over a cost matrix using the
  greedy "simplified Hungarian" matcher. It keeps the task pool and the
  allocation counter up to date and reports workload and utilisation
  statistics.
- **Formation controller.** It finds each robot's neighbours within the
  perception radius and steers the headings of a formation with the flocking
  rules. It scores formation quality (cohesion, alignment, separation) and
  creates leader-follower, line, grid and free formations. It also reports
  per-formation statistics.

The fleet is a `seq<Robot>` keyed by id, with the robots in the order the
original dictionaries iterate. Every operation is a pure function: it returns
the new state together with the report.

Some inputs come from computations the model does not reproduce. These are
parameters:

- Great-circle distance: `Formation.Distance`.
- Per robot/task energy, distance and time estimates: `Bidding.Geo`.
- The flocking force components and the atan2 headings: `Flocking.Steering`.
- The random vote and acknowledgement outcomes: the `yes` and `acks` sets.
- The heartbeat age.
- The random four-digit formation id suffix.

Modules:

| module | file | models |
|---|---|---|
| `Swarm` | swarm.dfy | robot and task records, generic sequence helpers |
| `Topology` | topology.dfy | adjacency lists, breadth-first reachability |
| `Consensus` | consensus.dfy | leader health, elections, replication, status |
| `Bidding` | bidding.dfy | bid calculation |
| `Matching` | matching.dfy | the greedy cost-matrix matcher |
| `Distribution` | distributor.dfy | auctions, batch assignment, allocation, statistics |
| `Angles` | angles.dfy | shortest angle difference, heading wrap-around |
| `Formation` | formation.dfy | controller state, membership, neighbours |
| `Flocking` | flocking.dfy | the flocking update |
| `FormationQuality` | quality.dfy | quality metrics |
| `Structures` | structures.dfy | formation creation and layouts |
| `FormationStatistics` | statistics.dfy | formation statistics |

## Model

| member | source | states |
|---|---|---|
| Consensus.NewCluster | mocks/consensus_manager_mock.py:37-92 | the fleet, leader, term and election count are taken over from the snapshot; the topology has one entry per robot id, and under each id the robots some edge joins it to, in either direction; the election timeout is the configured one, 5 seconds by default; no split-brain incidents have been recorded yet |
| Topology.BuildTopology | mocks/consensus_manager_mock.py:67-92 | there is an adjacency list for exactly the known robot ids, and b is listed under a exactly when some edge joins a and b in either direction |
| Topology.TopologySymmetric | mocks/consensus_manager_mock.py:80-90 | the links are undirected: if b is a neighbour of a, then a is a neighbour of b |
| Topology.ReachableIff | mocks/consensus_manager_mock.py:328-361 | the breadth-first search answers true exactly when both robots are known and a path of topology links leads from one to the other |
| Topology.BfsSound | mocks/consensus_manager_mock.py:340-361 | a robot the search reports as reached lies at the end of a path from the start |
| Topology.BfsComplete | mocks/consensus_manager_mock.py:340-361 | when the search finishes without reaching the target, no path to the target exists |
| Topology.ReachableEndpoints | mocks/consensus_manager_mock.py:340-346 | a known robot reaches itself; an unknown endpoint is never reachable |
| Consensus.Majority | mocks/consensus_manager_mock.py:215-217 | the majority is the smallest count of more than half the fleet, and never more than the fleet |
| Consensus.QuorumsIntersect | mocks/consensus_manager_mock.py:215-217 | two sets of robots that each reach the majority share a robot |
| Consensus.CheckLeaderHealth | mocks/consensus_manager_mock.py:94-141 | no leader is reported exactly when the leader id is missing, empty or unknown; otherwise the connected flag is the leader's, the operational flag holds iff it is working or idle, the heartbeat flag holds iff the heartbeat is younger than the timeout, healthy is the conjunction of the three, and the reason given is the first failed check, in the order connection, status, heartbeat |
| Consensus.LeaderHealthReason | mocks/consensus_manager_mock.py:115-139 | for a known leader, each reason is reported exactly when its check is the first to fail on the leader's record: disconnected; connected but neither working nor idle; connected and operational but with a heartbeat at least the timeout old |
| Consensus.HealthyForYoungerHeartbeat | mocks/consensus_manager_mock.py:115-119 | a leader found healthy is found healthy, with the same report, for any younger heartbeat |
| Consensus.TopCandidate | mocks/consensus_manager_mock.py:168-210 | there is no candidate exactly when no robot is connected, working, idle or charging, and at least 40 % charged; otherwise the chosen candidate has the highest priority, and is the first in fleet order on a tie |
| Consensus.PriorityBounds | mocks/consensus_manager_mock.py:177-183 | for battery in [0, 100], any uptime and at most the fleet as neighbours, the priority lies in [0, 1], and full battery, 12 hours of uptime and the whole fleet as neighbours give exactly 1 |
| Consensus.PriorityMonotone | mocks/consensus_manager_mock.py:177-183 | more battery, uptime or neighbours never lowers a robot's priority, and strictly more battery strictly raises it (the battery carries half the weight and is never capped) |
| Consensus.BallotsSize | mocks/consensus_manager_mock.py:284-317 | every robot other than the candidate is recorded exactly once, in one of the three lists, and no list repeats a robot |
| Consensus.BallotsClassify | mocks/consensus_manager_mock.py:284-317 | a robot does not respond exactly when it is disconnected or cannot reach the candidate; a responding robot votes for the candidate exactly when it is in the yes-set |
| Consensus.VoteBuckets | mocks/consensus_manager_mock.py:266-326 | the candidate votes for itself first; each other robot lands in exactly one bucket; unreachable robots never answer; the vote count lies between 1 and the fleet size |
| Consensus.PromoteAllRoles | mocks/consensus_manager_mock.py:225-239 | after promotion the winner is the only leader, every other robot is a follower, and all of them carry the new term |
| Consensus.TriggerElection | mocks/consensus_manager_mock.py:162-264 | the term and the election count go up by one; no viable candidate exactly when no robot qualifies; the winner has at least a majority of votes and a failed candidate fewer; the reported tally is the ballot of the fleet for the winner, its vote count is the number of robots that voted for it, and the new fleet is the old one with those voters promoted under the new term; the robots and the leader are unchanged unless someone is elected |
| Consensus.ElectionCountsYesVotes | mocks/consensus_manager_mock.py:213-217 | the vote count reported for the candidate, elected or not, is one (its own vote) plus the number of robots that are connected, reach it, and are in the yes-set |
| Consensus.ElectionSupporters | mocks/consensus_manager_mock.py:266-326 | after an election, a robot is among the recorded voters exactly when it is the winner or it is a connected robot that reaches the winner and says yes |
| Consensus.ElectionPicksTopCandidate | mocks/consensus_manager_mock.py:200-217 | the robot standing in the election is a candidate of maximal priority, and it is elected exactly when its votes reach the majority |
| Consensus.ElectionInstallsOneLeader | mocks/consensus_manager_mock.py:225-239 | after an election the fleet keeps its ids, the winner is one of them and is the only leader, and every robot has the new term |
| Consensus.ElectionVoteBounds | mocks/consensus_manager_mock.py:266-326 | the reported vote count lies between 1 and the fleet size |
| Consensus.ElectionHealsLeadership | mocks/consensus_manager_mock.py:225-239 | after a successful election the status report sees exactly one leader and no split brain |
| Consensus.Replicate | mocks/consensus_manager_mock.py:382-409 | every follower of the leader is put in exactly one list: replicated when it is reachable and acknowledges, failed otherwise; the lists hold only such followers |
| Consensus.ReplicateState | mocks/consensus_manager_mock.py:363-424 | without a known leader nothing is replicated; otherwise the replicated and failed lists are exactly the ones the follower-by-follower replication produces, a follower is replicated to exactly when it is reachable from the leader and acknowledges, and the update is committed exactly when the replicas plus the leader reach the majority |
| Consensus.CountRoles | mocks/consensus_manager_mock.py:434-447 | the connected leaders, followers, candidates and the disconnected robots together account for the whole fleet |
| Consensus.GetConsensusStatus | mocks/consensus_manager_mock.py:426-474 | a split brain means more than one connected leader and is recorded as an incident; the health score is the share of the four factors that hold; the level is healthy for 3 or 4, warning for 2 and critical for fewer |
| Bidding.CalculateBid | mocks/task_distributor_mock.py:62-207 | a bid exists exactly when the robot has the right type, enough battery, is working or idle, is connected and fits the energy budget; it carries the robot's id, the energy, distance and time estimates, the four component scores (distance score, charge fraction, workload score, priority score) and their weighted value |
| Bidding.BidValue | mocks/task_distributor_mock.py:173-193 | an admitted bid is worth 0.4 times the distance score plus 0.3 times the charge fraction plus 0.2 times the workload score plus 0.1 times the priority score |
| Bidding.DistanceScore | mocks/task_distributor_mock.py:173 | the distance score is 1 - d/5 below 5 km and 0 from 5 km on, always in [0, 1] |
| Bidding.WorkloadScore | mocks/task_distributor_mock.py:179-183 | an idle robot scores 1; a busy one scores 1 minus its task progress as a fraction, in [0, 1] for progress in range |
| Bidding.PriorityScore | mocks/task_distributor_mock.py:186-187 | the priority score is in [0.5, 1], and is 0.5 exactly for a priority that is neither medium nor high |
| Bidding.PriorityScores | mocks/task_distributor_mock.py:186-187 | low, medium and high score 0.5, 0.75 and 1.0, in increasing order, and any other priority scores like low |
| Bidding.BidInUnitRange | mocks/task_distributor_mock.py:173-193 | for readings in their ranges, every score component and the weighted bid lie in [0, 1] |
| Bidding.NearerBidsHigher | mocks/task_distributor_mock.py:173-193 | with the same energy, a nearer task never gets a lower bid, and gets a strictly higher one inside the 5 km range |
| Distribution.BestBidder | mocks/task_distributor_mock.py:241-245 | no winner exactly when nobody may bid; otherwise the winner's bid is maximal, and the winner is the first robot in fleet order among the top bids |
| Distribution.RunAuction | mocks/task_distributor_mock.py:209-271 | without bids nothing changes; otherwise the best bidder takes the task with no progress, no other robot changes, the task is marked allocated to it, and the report counts every eligible robot's bid |
| Distribution.AuctionPool | mocks/task_distributor_mock.py:415-419 | won plus unbid auctions equal the open tasks; the pool keeps its length; closed tasks are untouched and each open task is either left as it was or allocated to a robot |
| Distribution.AuctionPoolCounts | mocks/task_distributor_mock.py:415-419 | the auctions move exactly as many tasks from open to allocated as were won |
| Distribution.AuctionPoolPrefix | mocks/task_distributor_mock.py:415-419 | auctioning a pool and then looking at its first m tasks gives the same tasks as auctioning only those m: a later auction never changes an earlier task |
| Distribution.AuctionPoolTurn | mocks/task_distributor_mock.py:415-419 | the j-th task ends up exactly as the single auction for it, run against the fleet the earlier auctions left, settles it: allocated when it was open and someone won, unchanged otherwise; the fleet moves on to that auction's fleet exactly in the won case |
| Distribution.CostMatrix | mocks/task_distributor_mock.py:294-310 | one row per task and one column per robot, each entry the robot's cost for the task |
| Distribution.CostReflectsBid | mocks/task_distributor_mock.py:299-309 | a cost below 999 means the robot may bid; for readings in range, such costs lie in [0, 1] and the converse holds |
| Matching.AllCandidates | mocks/task_distributor_mock.py:368-374 | the candidates are exactly the eligible cells of the matrix, listed row by row |
| Matching.SortByCost | mocks/task_distributor_mock.py:376-377 | the candidates are permuted into cost order, keeping row-major order among equal costs (a stable sort) |
| Matching.ScanCovers | mocks/task_distributor_mock.py:378-384 | after the greedy scan of a sorted list, every candidate's task or robot is taken by a candidate no more costly |
| Matching.SimplifiedHungarian | mocks/task_distributor_mock.py:349-391 | the matching is one-to-one; every match is an eligible cell with its cost; every eligible cell is blocked by a match at no greater cost on its task or its robot |
| Matching.MatchingIsInjective | mocks/task_distributor_mock.py:378-384 | two different tasks never get the same robot |
| Matching.MatchingIsMaximal | mocks/task_distributor_mock.py:378-384 | an eligible task left unmatched has each of its eligible robots matched to another task |
| Distribution.MatchBatchEligible | mocks/task_distributor_mock.py:314-321 | every matched robot may bid for its task |
| Distribution.HungarianAssignment | mocks/task_distributor_mock.py:273-347 | each matched task is marked allocated to an eligible robot, which takes it on; unmatched tasks and robots are untouched; the assignments map holds every task id; the cost total and assigned count match the matching |
| Distribution.HungarianOneTaskPerRobot | mocks/task_distributor_mock.py:314-334 | no robot is assigned two tasks of the batch |
| Distribution.HungarianLeavesNoIdleBidder | mocks/task_distributor_mock.py:378-389 | a task left unassigned has no idle eligible robot: each one took another task it bids at least as high for |
| Distribution.HungarianNoBetterPair | mocks/task_distributor_mock.py:378-389 | for any eligible robot and task, either the task went to a robot bidding at least as much, or the robot went to a task it bids at least as much for |
| Distribution.HungarianCostBounds | mocks/task_distributor_mock.py:336-345 | the total cost lies between 0 and the number of tasks assigned, which never exceeds the batch |
| Distribution.BatchPoolCounts | mocks/task_distributor_mock.py:421-424 | writing the batch back moves exactly the assigned tasks from open to allocated |
| Distribution.AllocateTasks | mocks/task_distributor_mock.py:393-443 | no open tasks and an unknown method are reported without changes; otherwise every open task is processed, allocated plus failed equals processed, success means something was allocated, and the counter and the pool move by the number allocated; Distribution.AllocateTasksRunsAllocator ties each branch to its allocator |
| Distribution.AllocateTasksRunsAllocator | mocks/task_distributor_mock.py:415-424 | with open tasks, the auction method yields exactly the fleet, pool and counter of the per-task auctions and reports their won and unbid counts; the batch method yields exactly the batch assignment's fleet, its tasks written back into the pool, and its assigned count |
| Distribution.AllocateByAuction | mocks/task_distributor_mock.py:415-419 | the new state is the auction round's fleet and pool with the counter raised by the number won; the report gives success iff anything was won, the open tasks processed, won and unbid; exactly the won tasks move from open to allocated |
| Distribution.AllocateTasksAsWritten | mocks/task_distributor_mock.py:434-441 | in batch mode the original reports one task allocated and none failed, whatever the batch did |
| Distribution.AsWrittenBatchCounts | mocks/task_distributor_mock.py:421-441 | as written, a batch reports one task allocated and none failed, while the counter and the allocated tasks of the pool grow by the number the batch really assigned |
| Distribution.AsWrittenOvercounts | mocks/task_distributor_mock.py:440 | with no robots and one open task, the original claims one allocation while no task was allocated |
| Distribution.CountWorkload | mocks/task_distributor_mock.py:459-471 | idle, working and overloaded robots are counted by their predicates and account for the whole fleet |
| Distribution.StatusDistribution | mocks/task_distributor_mock.py:453-456 | the keys are exactly the statuses that occur, each with its number of tasks |
| Distribution.Utilization | mocks/task_distributor_mock.py:474-475 | utilisation is the share of robots that are not idle, in [0, 1], and 0 for an empty fleet |
| Distribution.AveragePriority | mocks/task_distributor_mock.py:478-479 | the average priority times the pool size is the sum of the tasks' priority weights (low 1, medium 2, high 3, anything else 1); it lies between 1 and 3 for a non-empty pool and is 0 for an empty one |
| Distribution.GetAllocationStatistics | mocks/task_distributor_mock.py:445-491 | the counts cover the whole fleet and pool; the workload is the count by status and utilisation is its non-idle share, in [0, 1]; the average priority is the mean priority weight; the status distribution is the per-status task count; the level is optimal above 0.7, good above 0.5 and underutilised otherwise |
| Angles.AngleDifference | mocks/formation_controller_mock.py:87-105 | the difference lies in [-180, 180] and equals angle2 - angle1 when that already does |
| Angles.AngleDifferenceTurns | mocks/formation_controller_mock.py:97-105 | the normalised difference points the same way as angle2 - angle1: they differ by whole turns |
| Angles.AngleDifferenceUnique | mocks/formation_controller_mock.py:97-105 | the result is the unique representative in (-180, 180], except that -180 may stand for 180 |
| Angles.Wrap360 | mocks/formation_controller_mock.py:336 | a heading reduced modulo 360 lies in [0, 360) |
| Angles.Wrap360Turns | mocks/formation_controller_mock.py:336 | the reduced heading points the same way as the original |
| Angles.Wrap360Unique | mocks/formation_controller_mock.py:336 | it is the only direction-equivalent value in [0, 360) |
| Angles.Wrap360Idempotent | mocks/formation_controller_mock.py:336 | reducing twice is reducing once, and headings already in range are kept |
| Formation.Neighbours | mocks/formation_controller_mock.py:122-149 | the neighbours are exactly the other, connected robots within 50 m, each with its distance |
| Formation.GetNeighbors | mocks/formation_controller_mock.py:107-149 | an unknown robot id has no answer (the original raises); otherwise some index k holds the first robot with the id, and the answer lists exactly the other, connected robots that robot sees within the perception radius, each with its distance from it |
| Formation.FlockmatesIff | mocks/formation_controller_mock.py:303-313 | a robot has formation neighbours exactly when some robot of the same formation is a neighbour |
| Formation.MemberIndices | mocks/formation_controller_mock.py:283-287 | the formation's robots are exactly the connected robots carrying its id, in fleet order |
| Flocking.NewHeading | mocks/formation_controller_mock.py:324-338 | a large enough force gives a heading in [0, 360); otherwise the heading is kept |
| Flocking.SteeredHeadingTurns | mocks/formation_controller_mock.py:332-336 | the new heading is the old heading turned by the blended adjustment, up to whole turns |
| Flocking.SteadyWhenAligned | mocks/formation_controller_mock.py:324-336 | a robot already pointing along the force and the mean heading keeps its heading |
| Flocking.SteerMember | mocks/formation_controller_mock.py:302-360 | only the steered robot changes, and only its heading; it is skipped, and reports nothing, exactly when it has no formation neighbour; otherwise its new heading is the heading rule applied to the steering of its formation neighbours, and the report entry carries its id, their number and that heading |
| Flocking.FlockTouchesOnlyMembers | mocks/formation_controller_mock.py:303-313 | robots outside the formation are never changed |
| Flocking.FlockReportsFlockmates | mocks/formation_controller_mock.py:312-313 | one update is reported per member with a formation neighbour |
| Flocking.FlockSteersMember | mocks/formation_controller_mock.py:302-350 | each member is steered while its own record is still unchanged, against the fleet as the members before it left it, and its record and report entry from that step are the ones the fold ends with |
| Flocking.UpdateIsFlock | mocks/formation_controller_mock.py:299-360 | an update that goes ahead steers the members one after another in fleet order and reports their entries in that order |
| Flocking.UpdateFlocking | mocks/formation_controller_mock.py:267-373 | fewer than two members changes nothing and reports the count; otherwise only member headings change, robots without formation neighbours are kept, the update counter goes up by one, and the quality is taken over the updated members |
| Flocking.FlockingKeepsMembers | mocks/formation_controller_mock.py:350 | a flocking update does not change which robots belong to the formation |
| FormationQuality.Quality | mocks/formation_controller_mock.py:375-444 | fewer than two robots score zero; otherwise the mean distance is taken to the centre of mass, cohesion is 1 minus that distance over the 50 m radius (never below 0), alignment is 1 minus the heading variance over 180 squared (never below 0), the collisions are the close pairs, the pairs are n(n-1)/2 and positive, separation is the share of pairs that do not collide, every score is in [0, 1], and overall weighs the scores 0.35, 0.30 and 0.35 |
| FormationQuality.CollisionFreeIff | mocks/formation_controller_mock.py:416-428 | no collision is counted exactly when every pair is at least 2 m apart |
| FormationQuality.PairCountFormula | mocks/formation_controller_mock.py:419-426 | the double loop visits n(n-1)/2 pairs |
| FormationQuality.SeparationPerfectIff | mocks/formation_controller_mock.py:430 | separation is 1 exactly when no pair is within collision range |
| FormationQuality.Separation | mocks/formation_controller_mock.py:430 | for at most as many collisions as pairs, separation is the share of pairs that do not collide, lies in [0, 1], and is 1 exactly when nothing collides |
| FormationQuality.CohesionPerfectIff | mocks/formation_controller_mock.py:395-408 | cohesion is 1 exactly when every robot stands on the centre of mass, and 0 once the mean distance reaches the perception radius |
| FormationQuality.AlignedWhenHeadingsAgree | mocks/formation_controller_mock.py:410-413 | robots that share one heading have alignment 1 |
| FormationQuality.VarianceOfEqual | mocks/formation_controller_mock.py:412 | equal values have zero variance |
| FormationQuality.VarianceNonNeg | mocks/formation_controller_mock.py:412 | a variance is never negative |
| Structures.Upper | mocks/formation_controller_mock.py:459 | upper-casing keeps the length and maps each character |
| Structures.UpperIdempotent | mocks/formation_controller_mock.py:459 | upper-cased text has no lower-case letters, so upper-casing again changes nothing |
| Structures.DecimalRoundTrip | mocks/formation_controller_mock.py:459 | the decimal rendering of the suffix reads back as the same number |
| Structures.DecimalFourDigits | mocks/formation_controller_mock.py:459 | a suffix drawn from 1000..9999 takes four digits |
| Structures.FormationIdParts | mocks/formation_controller_mock.py:459 | the id starts with "FORMATION-", continues with the upper-cased type, and ends in the suffix's four digits |
| Structures.FormationIdInjective | mocks/formation_controller_mock.py:459 | for one type, different suffixes give different ids |
| Structures.ValidIds | mocks/formation_controller_mock.py:462 | the valid ids are the requested ids that are known, and only those; an empty request gives none |
| Structures.ValidIdsSingle | mocks/formation_controller_mock.py:462 | a single requested id is kept exactly when the fleet knows it |
| Structures.ValidIdsSnoc | mocks/formation_controller_mock.py:462 | appending one id to the request appends it to the valid ids exactly when it is known |
| Structures.ValidIdsAppend | mocks/formation_controller_mock.py:462 | the valid ids of a concatenated request are the valid ids of its parts, in order: the filter keeps request order and repeats |
| Structures.ValidIdsAllKnown | mocks/formation_controller_mock.py:462 | when every requested id is known, the valid ids are the request itself, in order |
| Structures.ValidIdsDistinct | mocks/formation_controller_mock.py:462 | filtering keeps requested ids distinct |
| Structures.ChooseLeader | mocks/formation_controller_mock.py:472-474 | the leader is the requested one when it is non-empty and valid, and otherwise the first valid robot |
| Structures.CeilSqrt | mocks/formation_controller_mock.py:523 | the column count is the least c with c*c at least n |
| Structures.GridFitsSquare | mocks/formation_controller_mock.py:523-526 | every robot's row and column fall inside the cols-by-cols square |
| Structures.GridTargetsInjective | mocks/formation_controller_mock.py:524-535 | different grid positions get different targets |
| Structures.LineTargetsInjective | mocks/formation_controller_mock.py:508-516 | different line positions get different targets |
| Structures.LeaderFollowerPlanAsWritten | mocks/formation_controller_mock.py:477-504 | the leader sits at the origin with position 0, and each follower takes its own index in the robot list |
| Structures.AsWrittenFollowerTakesLeaderTarget | mocks/formation_controller_mock.py:494 | with robots a and b and leader b, follower a gets position 0 and the origin target, the same as the leader |
| Structures.FollowerRank | mocks/formation_controller_mock.py:494 | each follower gets a place in line between 1 and the number of followers |
| Structures.FollowerRanksDistinct | mocks/formation_controller_mock.py:494 | two different followers never share a place in line |
| Structures.LeaderFollowerPlan | mocks/formation_controller_mock.py:477-504 | the leader sits at the origin; followers line up behind it at 5 m spacing, by rank |
| Structures.PlansAgreeWhenLeaderFirst | mocks/formation_controller_mock.py:494 | when the leader is the first robot, the corrected plan and the original coincide |
| Structures.Plan | mocks/formation_controller_mock.py:471-549 | every robot gets a slot in the new formation; free formations have no targets and the others all have one; outside leader-follower the position is the robot's index; the leader-follower places are the original's or the corrected ones, as the layout says; the targets of each layout are stated by Structures.PlanLine, Structures.PlanGrid and Structures.PlanLeaderFollower |
| Structures.PlanLine | mocks/formation_controller_mock.py:506-519 | in a line the i-th robot is sent to (5 i, 0); in a leader-follower formation the leader gets position 0 and the origin |
| Structures.PlanGrid | mocks/formation_controller_mock.py:521-538 | in a grid with ceil(sqrt(n)) columns, which is positive, the i-th robot is sent to (5 (i mod cols), 5 (i div cols)) |
| Structures.PlanLeaderFollower | mocks/formation_controller_mock.py:491-504 | in a leader-follower formation a follower gets the line slot of its rank behind the leader (corrected) or of its index in the robot list (original), that is position r and target (5 r, 0) |
| Structures.LinePlan | mocks/formation_controller_mock.py:506-519 | n slots with position i and target (5 i, 0) |
| Structures.GridPlan | mocks/formation_controller_mock.py:521-538 | n slots with position i and target (5 (i mod cols), 5 (i div cols)) |
| Structures.PlanPlacesDistinct | mocks/formation_controller_mock.py:471-538 | in a structured formation of distinct robots, no two robots share a target or a position: always with the corrected layout, and with the original's when the leader is listed first or the formation is not leader-follower |
| Structures.Assign | mocks/formation_controller_mock.py:477-549 | robots not in the formation are untouched; each one in it gets its slot, the last one assigned winning for repeated ids |
| Structures.CreateFormation | mocks/formation_controller_mock.py:446-558 | fewer than two known robots are refused with the minimum of 2 and nothing changes; otherwise the report gives the id, the type, the valid robots and their count, and a leader exactly for leader-follower; only the listed robots change, and only their formation slot (with layout AsWritten this is the original controller) |
| Structures.CreatedPlaces | mocks/formation_controller_mock.py:471-549 | each listed robot gets the slot the chosen layout plans for it |
| Structures.CreatedPlacesDistinct | mocks/formation_controller_mock.py:471-538 | in a created structured formation of distinct robots, no two robots share a target: with the corrected layout always, with the original's outside leader-follower or when no leader is named |
| Structures.AsWrittenCreateCollides | mocks/formation_controller_mock.py:477-504 | the original controller, asked for a leader-follower formation of robots a and b led by b, sends both robots to the origin with position 0 |
| FormationStatistics.FormationIds | mocks/formation_controller_mock.py:568-575 | the formations listed are exactly the non-empty ids some robot carries, each once |
| FormationStatistics.Group | mocks/formation_controller_mock.py:568-575 | a formation's group is exactly the robots carrying its id |
| FormationStatistics.GroupEmptyIff | mocks/formation_controller_mock.py:568-575 | a group is empty exactly when no robot carries the id |
| FormationStatistics.GroupsPartition | mocks/formation_controller_mock.py:595 | the group sizes sum to the number of robots carrying a non-empty formation id |
| FormationStatistics.Average | mocks/formation_controller_mock.py:584-591 | the averages are all 0 without formations; otherwise each is in [0, 1], the average overall is the weighted sum of the average scores, and FormationStatistics.AverageIsMean shows each is the mean of its score |
| FormationStatistics.AverageIsMean | mocks/formation_controller_mock.py:584-591 | for at least one formation, each average times the number of formations is the sum of that score over the formations: the averages are the means |
| FormationStatistics.SumOverall | mocks/formation_controller_mock.py:589 | averaging the overall scores equals weighting the averaged scores |
| FormationStatistics.GetFormationStatistics | mocks/formation_controller_mock.py:560-606 | one entry per formation id carried, with its group size (at least 1) and its quality; the total in formation is the number of robots carrying an id; the average is the average of the listed formations' qualities, in [0, 1]; the counters pass through |

## Left out

- Rounding. `round(...)` is left out; all values are exact reals. Most rounded values are only reported. The bid value is the exception: see the next line.
- Distribution.BestBidder: compares exact bids, while the original sorts the auction on bids rounded to three decimals (mocks/task_distributor_mock.py:197 and 242). Two bids less than 0.0005 apart can tie in the original and not here, so on such a near-tie the winner may differ. The same holds for Distribution.RunAuction, and for Matching.SortByCost and Distribution.HungarianAssignment, whose costs are taken from the rounded bids (mocks/task_distributor_mock.py:305).
- Floating point. Reals stand in for Python floats throughout.
- Trigonometry. Great-circle distance, bearing, atan2, square roots and the separation, alignment and cohesion force formulas are not modelled. They are the `Distance` and `Steering` parameters, with only their ranges assumed.
- Energy, distance and time estimates for a robot/task pair. These are the `Geo` parameter.
- Randomness. The votes, the replication acknowledgements and the formation id suffix are random in the original. They are parameters: the `yes` and `acks` sets and `suffix`. The election duration (`duration_seconds`, drawn between 1.5 and 3.0 seconds, mocks/consensus_manager_mock.py:241) is only reported and is not modelled.
- Clock. Reading ISO timestamps is not modelled; the leader heartbeat age is a parameter.
- Output. Printing, JSON output and the test drivers at the end of each file are left out.
- Truncated lists. The reported lists cut to their first entries (`updates[:5]` and similar) are reported whole.
- Extra formation fields. The `distance_to_target_m` and `alignment_error_deg` slot fields are reported but not used.
- Flocking update records. Apart from the new heading, the fields of each update record come from the steering forces and are not modelled.
- Replication echo. The state update echoed in the replication report is not modelled.
- Per-task results. The per-task result list of an allocation is not modelled; the report keeps the counts.
- `heartbeat_interval` is read from the configuration but never used, so it is not modelled.
- Structures.CeilSqrt: the column count `ceil(sqrt(n))` is computed on integers. This matches the float computation for every fleet small enough to represent exactly.
- Structures.Upper: upper-cases ASCII letters only; Python's `str.upper` also maps other alphabets.
- Distribution.HungarianAssignment: requires distinct task ids. The original looks tasks up by id and would conflate duplicates. Distribution.AllocateTasks and Distribution.AllocateTasksAsWritten ask this of the open tasks in batch mode only.
- Structures.CreatedPlacesDistinct: promised for the corrected layout; for the original's it holds outside leader-follower or when no leader is named, and Structures.AsWrittenCreateCollides shows it failing otherwise.
- Consensus.ElectionVoteBounds: requires distinct robot ids, which the original's id-keyed dictionaries guarantee. The same holds for the other members requiring `UniqueIds`.
- Distribution.HungarianCostBounds: does not state that the assigned count is at most the fleet size.
- FormationQuality.AlignedWhenHeadingsAgree: proves one direction only (equal headings give alignment 1). The converse needs the variance to vanish only for equal values, which is not proved.
- FormationQuality.Quality: the early return for fewer than two robots has no detail, as in the original, which reports only the four scores.
- FormationStatistics.GetFormationStatistics: groups every robot carrying a formation id, disconnected ones included, as the original does. A flocking update takes connected robots only.
- Distribution.AllocateByBatch: a helper with no contract of its own; what it yields is stated by Distribution.AllocateTasksRunsAllocator and Distribution.AllocateTasks.

## Findings

| source | as written | input that shows it | evidently intended | confidence | as-written member | corrected member |
|---|---|---|---|---|---|---|
| mocks/task_distributor_mock.py:440 | in batch mode `tasks_allocated` counts the successful batch results (one batch, so 1) and `tasks_failed` counts the failed ones | no robots and one open task: nothing is assigned, yet the report says 1 allocated and 0 failed | count the tasks the batch assigned, and report the rest as failed | high (not executed) | Distribution.AllocateTasksAsWritten, Distribution.AsWrittenOvercounts | Distribution.AllocateTasks |
| mocks/formation_controller_mock.py:494 | a follower's place in line is its index in the robot list | robots ["a", "b"] with leader "b": follower "a" gets position 0 and target (0, 0), the same as the leader | followers fill the places 1, 2, … behind the leader | high (not executed) | Structures.LeaderFollowerPlanAsWritten, Structures.AsWrittenFollowerTakesLeaderTarget, Structures.AsWrittenCreateCollides | Structures.LeaderFollowerPlan, Structures.FollowerRank, Structures.PlanPlacesDistinct, Structures.CreatedPlacesDistinct |

=== FILE: angles.dfy ===
/** Heading arithmetic of the formation controller: the shortest signed turn
    between two headings, and the wrap of a heading into [0, 360). */
module Angles {

  /** k whole turns, in degrees. */
  function Turns(k: int): real {
    360.0 * k as real
  }

  /** x and y name the same direction: they differ by whole turns. */
  ghost predicate SameDirection(x: real, y: real) {
    exists k: int :: x == y + Turns(k)
  }

  /** Subtracts whole turns while the value is above 180. */
  function WrapDown(x: real): (r: real)
    ensures r <= 180.0
    ensures x > 180.0 ==> r > -180.0
    ensures x <= 180.0 ==> r == x
    decreases x.Floor
  {
    if x > 180.0 then WrapDown(x - 360.0) else x
  }

  /** Adds whole turns while the value is below -180. */
  function WrapUp(x: real): (r: real)
    ensures r >= -180.0
    ensures x <= 180.0 ==> r <= 180.0
    ensures x >= -180.0 ==> r == x
    decreases (-x).Floor
  {
    if x < -180.0 then WrapUp(x + 360.0) else x
  }

  lemma {:induction false} WrapDownTurns(x: real)
    ensures SameDirection(WrapDown(x), x)
    decreases x.Floor
  {
    if x > 180.0 {
      WrapDownTurns(x - 360.0);
      var k: int :| WrapDown(x - 360.0) == x - 360.0 + Turns(k);
      assert WrapDown(x) == x + Turns(k - 1);
    } else {
      assert WrapDown(x) == x + Turns(0);
    }
  }

  lemma {:induction false} WrapUpTurns(x: real)
    ensures SameDirection(WrapUp(x), x)
    decreases (-x).Floor
  {
    if x < -180.0 {
      WrapUpTurns(x + 360.0);
      var k: int :| WrapUp(x + 360.0) == x + 360.0 + Turns(k);
      assert WrapUp(x) == x + Turns(k + 1);
    } else {
      assert WrapUp(x) == x + Turns(0);
    }
  }

  /** The signed turn from heading a1 to heading a2, brought into [-180, 180]
      by whole turns: first down while above 180, then up while below -180. */
  function AngleDifference(a1: real, a2: real): (d: real)
    ensures -180.0 <= d <= 180.0
    ensures -180.0 <= a2 - a1 <= 180.0 ==> d == a2 - a1
  {
    WrapUp(WrapDown(a2 - a1))
  }

  /** The turn differs from a2 - a1 by a whole number of turns. */
  lemma AngleDifferenceTurns(a1: real, a2: real)
    ensures SameDirection(AngleDifference(a1, a2), a2 - a1)
  {
    var x := a2 - a1;
    WrapDownTurns(x);
    WrapUpTurns(WrapDown(x));
    var k: int :| WrapDown(x) == x + Turns(k);
    var j: int :| WrapUp(WrapDown(x)) == WrapDown(x) + Turns(j);
    assert AngleDifference(a1, a2) == x + Turns(k + j);
  }

  /** Two values of [-180, 180] naming the same direction are equal, unless
      they are -180 and 180. */
  lemma SameDirectionInHalfTurn(d: real, e: real)
    requires -180.0 <= d <= 180.0 && -180.0 <= e <= 180.0
    requires SameDirection(d, e)
    ensures d == e || (d == -e && (e == 180.0 || e == -180.0))
  {
    var k: int :| d == e + Turns(k);
    assert -1 <= k <= 1;
  }

  /** The turn is the only value of (-180, 180] that names the direction of
      a2 - a1; the value -180 is the one alternative, for a half turn. */
  lemma AngleDifferenceUnique(a1: real, a2: real, e: real)
    requires -180.0 < e <= 180.0 && SameDirection(e, a2 - a1)
    ensures AngleDifference(a1, a2) == e || (e == 180.0 && AngleDifference(a1, a2) == -180.0)
  {
    var d := AngleDifference(a1, a2);
    AngleDifferenceTurns(a1, a2);
    var k: int :| d == a2 - a1 + Turns(k);
    var j: int :| e == a2 - a1 + Turns(j);
    assert d == e + Turns(k - j);
    SameDirectionInHalfTurn(d, e);
  }

  /** Python's float modulo by 360: the remainder carries the sign of the
      divisor, so every heading lands in [0, 360). */
  function Wrap360(x: real): (r: real)
    ensures 0.0 <= r < 360.0
  {
    x - 360.0 * (x / 360.0).Floor as real
  }

  lemma Wrap360Turns(x: real)
    ensures SameDirection(Wrap360(x), x)
  {
    assert Wrap360(x) == x + Turns(-(x / 360.0).Floor);
  }

  /** The wrapped heading is the one value of [0, 360) naming the direction of x;
      in particular wrapping is the identity on [0, 360) and is idempotent. */
  lemma Wrap360Unique(x: real, e: real)
    requires 0.0 <= e < 360.0 && SameDirection(e, x)
    ensures Wrap360(x) == e
  {
    Wrap360Turns(x);
    var k: int :| Wrap360(x) == x + Turns(k);
    var j: int :| e == x + Turns(j);
    assert Wrap360(x) == e + Turns(k - j);
    assert k - j == 0;
  }

  lemma Wrap360Idempotent(x: real)
    ensures Wrap360(Wrap360(x)) == Wrap360(x)
    ensures 0.0 <= x < 360.0 ==> Wrap360(x) == x
  {
    assert SameDirection(Wrap360(x), Wrap360(x) + 0.0) by {
      assert Wrap360(x) == Wrap360(x) + Turns(0);
    }
    Wrap360Unique(Wrap360(x), Wrap360(x));
    if 0.0 <= x < 360.0 {
      assert x == x + Turns(0);
      Wrap360Unique(x, x);
    }
  }
}

=== FILE: bidding.dfy ===
/** The shared bid-scoring rule of the task distributor: which robots may bid
    for a task, and the weighted score of a bid.  Great-circle distance, travel
    time and energy are computed outside the model and supplied per
    (robot, task) pair as an Estimate. */
module Bidding {
  import opened Swarm

  /** Travel distance (km), energy (kWh) and duration (minutes) of doing a task. */
  datatype Estimate = Estimate(distanceKm: NonNeg, energyKwh: real, minutes: real)

  /** The geometry and energy oracle. */
  type Geo = (RobotId, TaskId) -> Estimate

  datatype Components = Components(distance: real, battery: real, workload: real, priority: real)

  datatype Bid = Bid(robotId: RobotId, value: real, costKwh: real, minutes: real,
                     distanceKm: real, parts: Components)

  /** low 0.5, medium 0.75, high 1.0; anything else counts as low. */
  function PriorityScore(p: Priority): (s: real)
    ensures 0.5 <= s <= 1.0
    ensures s == 0.5 <==> !(p.Medium? || p.High?)
  {
    match p
    case Low => 0.5
    case Medium => 0.75
    case High => 1.0
    case OtherPriority(_) => 0.5
  }

  /** Full score within 0 km, falling linearly to nothing at 5 km. */
  function DistanceScore(d: NonNeg): (s: real)
    ensures 0.0 <= s <= 1.0
    ensures d < 5.0 ==> s == 1.0 - d / 5.0
    ensures d >= 5.0 ==> s == 0.0
  {
    Max(0.0, 1.0 - d / 5.0)
  }

  /** An idle robot scores 1; a busy one scores the part of its task still to do. */
  function WorkloadScore(a: Option<Assignment>): (s: real)
    ensures a.None? ==> s == 1.0
    ensures a.Some? && 0.0 <= a.value.progress <= 100.0 ==> 0.0 <= s <= 1.0
    ensures a.Some? ==> s + a.value.progress / 100.0 == 1.0
  {
    match a
    case None => 1.0
    case Some(x) => 1.0 - x.progress / 100.0
  }

  function Weighted(c: Components): real {
    c.distance * 0.4 + c.battery * 0.3 + c.workload * 0.2 + c.priority * 0.1
  }

  /** The task's energy fits in 80 % of a 10 kWh battery at the robot's charge. */
  predicate WithinEnergy(r: Robot, e: Estimate) {
    e.energyKwh <= r.battery / 100.0 * 10.0 * 0.8
  }

  /** The five conditions under which a robot may bid for a task. */
  predicate CanBid(r: Robot, t: Task, e: Estimate) {
    && r.kind == t.robotType
    && r.battery >= t.minBattery
    && (r.operational == Working || r.operational == Idle)
    && r.connected
    && WithinEnergy(r, e)
  }

  /** A robot's bid for a task, or None when it may not bid: wrong type, too
      little charge, not working or idle, disconnected, or over the energy budget. */
  function CalculateBid(r: Robot, t: Task, e: Estimate): (b: Option<Bid>)
    ensures b.Some? <==> CanBid(r, t, e)
    ensures b.Some? ==> b.value.robotId == r.id && b.value.minutes == e.minutes
    ensures b.Some? ==>
      && b.value.parts == Components(DistanceScore(e.distanceKm), r.battery / 100.0,
                                     WorkloadScore(r.assignment), PriorityScore(t.priority))
      && b.value.value == Weighted(b.value.parts)
      && b.value.costKwh == e.energyKwh && b.value.distanceKm == e.distanceKm
  {
    if r.kind != t.robotType then None
    else if r.battery < t.minBattery then None
    else if !(r.operational == Working || r.operational == Idle) then None
    else if !r.connected then None
    else if e.energyKwh > r.battery / 100.0 * 10.0 * 0.8 then None
    else
      var parts := Components(DistanceScore(e.distanceKm), r.battery / 100.0,
                              WorkloadScore(r.assignment), PriorityScore(t.priority));
      Some(Bid(r.id, Weighted(parts), e.energyKwh, e.minutes, e.distanceKm, parts))
  }

  /** Charge and task progress are percentages. */
  predicate InRange(r: Robot) {
    && 0.0 <= r.battery <= 100.0
    && (r.assignment.Some? ==> 0.0 <= r.assignment.value.progress <= 100.0)
  }

  /** For a robot whose percentages are in range, every component of its bid,
      and the bid itself, lies in [0, 1]. */
  lemma BidInUnitRange(r: Robot, t: Task, e: Estimate)
    requires InRange(r)
    ensures var b := CalculateBid(r, t, e);
      b.Some? ==>
        && 0.0 <= b.value.parts.distance <= 1.0
        && 0.0 <= b.value.parts.battery <= 1.0
        && 0.0 <= b.value.parts.workload <= 1.0
        && 0.5 <= b.value.parts.priority <= 1.0
        && 0.0 <= b.value.value <= 1.0
  {
  }

  /** Of two otherwise identical situations, the nearer robot bids at least as
      much, and strictly more while the farther one is still inside 5 km. */
  lemma NearerBidsHigher(r: Robot, t: Task, e1: Estimate, e2: Estimate)
    requires e1.distanceKm <= e2.distanceKm && e1.energyKwh == e2.energyKwh
    requires CanBid(r, t, e1)
    ensures CalculateBid(r, t, e1).Some? && CalculateBid(r, t, e2).Some?
    ensures CalculateBid(r, t, e2).value.value <= CalculateBid(r, t, e1).value.value
    ensures e1.distanceKm < e2.distanceKm < 5.0 ==>
      CalculateBid(r, t, e2).value.value < CalculateBid(r, t, e1).value.value
  {
  }

  /** The four priority levels score 0.5, 0.75 and 1.0, rising with the
      priority, and an unrecognised level scores like low. */
  lemma PriorityScores(other: string)
    ensures PriorityScore(Low) == 0.5 && PriorityScore(Medium) == 0.75 && PriorityScore(High) == 1.0
    ensures PriorityScore(OtherPriority(other)) == PriorityScore(Low)
    ensures PriorityScore(Low) < PriorityScore(Medium) < PriorityScore(High)
  {
  }

  /** An admitted bid is worth 40 % distance score, 30 % charge fraction,
      20 % workload score and 10 % priority score. */
  lemma BidValue(r: Robot, t: Task, e: Estimate)
    requires CanBid(r, t, e)
    ensures CalculateBid(r, t, e).Some?
    ensures CalculateBid(r, t, e).value.value ==
      0.4 * DistanceScore(e.distanceKm) + 0.3 * (r.battery / 100.0)
      + 0.2 * WorkloadScore(r.assignment) + 0.1 * PriorityScore(t.priority)
  {
  }
}

=== FILE: consensus.dfy ===
/** The Raft-style consensus manager: leader health, leader election with a
    majority quorum, log replication, and the cluster status report.
    Random vote and replication outcomes are supplied as sets of robot ids. */
module Consensus {
  import opened Swarm
  import opened Topology

  /** The manager's state: the fleet keyed by id, the known leader and term,
      counters, the communication topology and the election timeout (seconds). */
  datatype Cluster = Cluster(
    robots: seq<Robot>,
    leader: Option<RobotId>,
    term: int,
    electionCount: int,
    splitBrainIncidents: nat,
    topology: Adjacency,
    electionTimeout: real)

  /** The manager built from a snapshot: the fleet, leader, term and election
      count are taken over as they are, the topology lists for every robot
      the robots an edge joins it to, and the election timeout defaults to 5 s. */
  function NewCluster(robots: seq<Robot>, leader: Option<RobotId>, term: int, electionCount: int,
                      edges: seq<Edge>, electionTimeout: Option<real>): (c: Cluster)
    ensures c.robots == robots && c.leader == leader
    ensures c.term == term && c.electionCount == electionCount
    ensures c.topology.Keys == set r | r in robots :: r.id
    ensures forall a, b :: a in c.topology ==> (b in c.topology[a] <==> Linked(edges, a, b))
    ensures electionTimeout.Some? ==> c.electionTimeout == electionTimeout.value
    ensures electionTimeout.None? ==> c.electionTimeout == 5.0
    ensures c.splitBrainIncidents == 0
  {
    var adj := BuildTopology(Ids(robots), edges);
    assert adj.Keys == set r | r in robots :: r.id by {
      forall x | x in adj.Keys ensures x in set r | r in robots :: r.id {
        var i :| 0 <= i < |Ids(robots)| && Ids(robots)[i] == x;
        assert robots[i] in robots;
      }
      forall x | x in set r | r in robots :: r.id ensures x in adj.Keys {
        var r :| r in robots && r.id == x;
        var i :| 0 <= i < |robots| && robots[i] == r;
        assert Ids(robots)[i] == x;
      }
    }
    Cluster(robots, leader, term, electionCount, 0, adj,
            match electionTimeout case Some(t) => t case None => 5.0)
  }

  // ---------------------------------------------------------------- quorum

  /** The quorum size: the least number of robots that is more than half of n. */
  function Majority(n: nat): (m: nat)
    ensures 2 * m > n
    ensures 2 * (m - 1) <= n
    ensures n > 0 ==> m <= n
  {
    n / 2 + 1
  }

  /** Two quorums drawn from the same fleet always share a robot, which is why
      at most one leader can win a given term. */
  lemma QuorumsIntersect(fleet: set<RobotId>, a: set<RobotId>, b: set<RobotId>)
    requires a <= fleet && b <= fleet
    requires |a| >= Majority(|fleet|) && |b| >= Majority(|fleet|)
    ensures a * b != {}
  {
    if a * b == {} {
      assert |a + b| == |a| + |b| - |a * b|;
      assert a + b <= fleet;
      SubsetCard(a + b, fleet);
    }
  }

  lemma SubsetCard(s: set<RobotId>, t: set<RobotId>)
    requires s <= t
    ensures |s| <= |t|
  {
    assert t == s + (t - s);
  }

  // ---------------------------------------------------------- leader health

  datatype HealthReason = LeaderDisconnected | LeaderNotOperational | HeartbeatTimeout

  datatype LeaderHealth =
    | NoLeader
    | Checked(leaderId: RobotId, healthy: bool, connected: bool, operational: bool,
              heartbeatRecent: bool, reason: Option<HealthReason>)

  /** The recorded leader, when it names a robot of the fleet. */
  function LeaderIndex(c: Cluster): Option<nat> {
    if c.leader.None? || c.leader.value == "" then None else Find(c.robots, c.leader.value)
  }

  /** Is the current leader alive?  The heartbeat age (seconds since the
      leader's last heartbeat) is an input. */
  function CheckLeaderHealth(c: Cluster, heartbeatAge: real): (h: LeaderHealth)
    ensures h.NoLeader? <==> c.leader.None? || c.leader.value == "" || c.leader.value !in Ids(c.robots)
    ensures h.Checked? ==> LeaderIndex(c).Some? && h.leaderId == c.robots[LeaderIndex(c).value].id
    ensures h.Checked? ==>
      var r := c.robots[LeaderIndex(c).value];
      && h.connected == r.connected
      && (h.operational <==> r.operational == Working || r.operational == Idle)
      && (h.heartbeatRecent <==> heartbeatAge < c.electionTimeout)
    ensures h.Checked? ==> (h.healthy <==> h.connected && h.operational && h.heartbeatRecent)
    ensures h.Checked? ==> (h.reason.None? <==> h.healthy)
    ensures h.Checked? && !h.connected ==> h.reason == Some(LeaderDisconnected)
    ensures h.Checked? && h.connected && !h.operational ==> h.reason == Some(LeaderNotOperational)
    ensures h.Checked? && h.connected && h.operational && !h.heartbeatRecent ==>
      h.reason == Some(HeartbeatTimeout)
  {
    match LeaderIndex(c)
    case None => NoLeader
    case Some(k) =>
      var r := c.robots[k];
      var connected := r.connected;
      var operational := r.operational == Working || r.operational == Idle;
      var recent := heartbeatAge < c.electionTimeout;
      var healthy := connected && operational && recent;
      var reason :=
        if healthy then None
        else if !connected then Some(LeaderDisconnected)
        else if !operational then Some(LeaderNotOperational)
        else Some(HeartbeatTimeout);
      Checked(r.id, healthy, connected, operational, recent, reason)
  }

  /** The reason reported for an unhealthy leader is read off its record:
      disconnection first, then a status other than working or idle, then a
      stale heartbeat. */
  lemma LeaderHealthReason(c: Cluster, heartbeatAge: real)
    requires LeaderIndex(c).Some?
    ensures var h := CheckLeaderHealth(c, heartbeatAge);
      var r := c.robots[LeaderIndex(c).value];
      var operational := r.operational == Working || r.operational == Idle;
      && h.Checked?
      && (h.reason == Some(LeaderDisconnected) <==> !r.connected)
      && (h.reason == Some(LeaderNotOperational) <==> r.connected && !operational)
      && (h.reason == Some(HeartbeatTimeout) <==>
            r.connected && operational && heartbeatAge >= c.electionTimeout)
  {
  }

  /** A leader judged healthy stays healthy for any younger heartbeat. */
  lemma HealthyForYoungerHeartbeat(c: Cluster, age: real, younger: real)
    requires younger <= age
    ensures var h := CheckLeaderHealth(c, age);
      h.Checked? && h.healthy ==> CheckLeaderHealth(c, younger) == h
  {
  }

  // -------------------------------------------------------------- election

  /** Connected, in a working, idle or charging state, and at least 40 % charged. */
  predicate IsCandidate(r: Robot) {
    && r.connected
    && (r.operational == Working || r.operational == Idle || r.operational == Charging)
    && r.battery >= 40.0
  }

  function Min(a: real, b: real): real {
    if a <= b then a else b
  }

  /** Candidate ranking: half battery, 30 % uptime (saturating at 12 h),
      20 % share of the fleet listed as neighbours. */
  function CandidatePriority(r: Robot, total: nat): real
    requires total > 0
  {
    (r.battery / 100.0) * 0.5 + Min(r.uptimeHours / 12.0, 1.0) * 0.3
      + (|r.neighbors| as real / total as real) * 0.2
  }

  /** A fraction with a positive denominator grows with its numerator and
      stays in [0, 1] while the numerator does not exceed the denominator. */
  lemma ShareBounds(a: nat, b: nat, total: nat)
    requires total > 0 && a <= b
    ensures 0.0 <= a as real / total as real <= b as real / total as real
    ensures b <= total ==> b as real / total as real <= 1.0
  {
    var t := total as real;
    DivNonNeg(a as real, t);
    DivMonotone(a as real, b as real, t);
    if b <= total {
      DivAtMostOne(b as real, t);
    }
  }

  lemma DivNonNeg(x: real, t: real)
    requires x >= 0.0 && t > 0.0
    ensures x / t >= 0.0
  {
  }

  lemma DivMonotone(x: real, y: real, t: real)
    requires x <= y && t > 0.0
    ensures x / t <= y / t
  {
  }

  lemma DivAtMostOne(x: real, t: real)
    requires x <= t && t > 0.0
    ensures x / t <= 1.0
  {
  }

  lemma DivSelf(t: real)
    requires t != 0.0
    ensures t / t == 1.0
  {
    assert t * (1.0 / t) == 1.0;
  }

  /** For a reading with battery in [0, 100], non-negative uptime and no more
      listed neighbours than robots, the priority lies in [0, 1]; a full
      battery, 12 hours of uptime and every robot listed give exactly 1. */
  lemma PriorityBounds(r: Robot, total: nat)
    requires total > 0
    requires 0.0 <= r.battery <= 100.0 && r.uptimeHours >= 0.0 && |r.neighbors| <= total
    ensures 0.0 <= CandidatePriority(r, total) <= 1.0
    ensures r.battery == 100.0 && r.uptimeHours >= 12.0 && |r.neighbors| == total ==>
      CandidatePriority(r, total) == 1.0
  {
    ShareBounds(|r.neighbors|, |r.neighbors|, total);
    if r.battery == 100.0 && r.uptimeHours >= 12.0 && |r.neighbors| == total {
      DivSelf(total as real);
      assert Min(r.uptimeHours / 12.0, 1.0) == 1.0;
    }
  }

  /** More battery, more uptime and more listed neighbours never lower the
      priority, and strictly more battery raises it. */
  lemma PriorityMonotone(r: Robot, s: Robot, total: nat)
    requires total > 0
    requires r.battery <= s.battery && r.uptimeHours <= s.uptimeHours && |r.neighbors| <= |s.neighbors|
    ensures CandidatePriority(r, total) <= CandidatePriority(s, total)
    ensures r.battery < s.battery ==> CandidatePriority(r, total) < CandidatePriority(s, total)
  {
    ShareBounds(|r.neighbors|, |s.neighbors|, total);
  }

  function Candidates(rs: seq<Robot>): seq<Robot> {
    Filter(rs, IsCandidate)
  }

  function Priorities(cands: seq<Robot>, total: nat): (ps: seq<real>)
    requires total > 0
    ensures |ps| == |cands|
    ensures forall i :: 0 <= i < |cands| ==> ps[i] == CandidatePriority(cands[i], total)
  {
    seq(|cands|, i requires 0 <= i < |cands| => CandidatePriority(cands[i], total))
  }

  /** Position, in the candidate list, of the robot that starts the election:
      one of highest priority, the earliest among equals. */
  function TopCandidate(rs: seq<Robot>): (k: Option<nat>)
    ensures k.None? <==> forall r :: r in rs ==> !IsCandidate(r)
    ensures k.Some? ==> |rs| > 0 && k.value < |Candidates(rs)|
    ensures k.Some? ==> IsCandidate(Candidates(rs)[k.value]) && Candidates(rs)[k.value] in rs
    ensures k.Some? ==> forall q :: q in rs && IsCandidate(q) ==>
      CandidatePriority(q, |rs|) <= CandidatePriority(Candidates(rs)[k.value], |rs|)
    ensures k.Some? ==> forall i :: 0 <= i < k.value ==>
      CandidatePriority(Candidates(rs)[i], |rs|) < CandidatePriority(Candidates(rs)[k.value], |rs|)
  {
    var cands := Candidates(rs);
    if |cands| == 0 then
      None
    else
      assert cands[0] in cands;
      var ps := Priorities(cands, |rs|);
      var k := ArgMax(ps);
      assert cands[k] in cands;
      assert forall q :: q in rs && IsCandidate(q) ==>
        CandidatePriority(q, |rs|) <= CandidatePriority(cands[k], |rs|) by {
        forall q | q in rs && IsCandidate(q)
          ensures CandidatePriority(q, |rs|) <= CandidatePriority(cands[k], |rs|)
        {
          assert q in cands;
          var i :| 0 <= i < |cands| && cands[i] == q;
          assert ps[i] <= ps[k];
        }
      }
      Some(k)
  }

  /** Where every robot's vote went.  The candidate itself is not listed in
      these buckets: it votes for itself. */
  datatype Tally = Tally(votedFor: seq<RobotId>, votedAgainst: seq<RobotId>, noResponse: seq<RobotId>)

  /** A voter answers only if it is connected and can reach the candidate. */
  predicate Responds(topo: Adjacency, r: Robot, candidate: RobotId) {
    r.connected && IsReachable(topo, r.id, candidate)
  }

  /** The ballots of every robot other than the candidate, in fleet order.
      A responding robot votes yes exactly when it is in the oracle set yes. */
  function Ballots(rs: seq<Robot>, candidate: RobotId, topo: Adjacency, yes: set<RobotId>): Tally {
    if |rs| == 0 then Tally([], [], [])
    else
      var t := Ballots(rs[..|rs| - 1], candidate, topo, yes);
      var r := rs[|rs| - 1];
      if r.id == candidate then t
      else if !Responds(topo, r, candidate) then Tally(t.votedFor, t.votedAgainst, t.noResponse + [r.id])
      else if r.id in yes then Tally(t.votedFor + [r.id], t.votedAgainst, t.noResponse)
      else Tally(t.votedFor, t.votedAgainst + [r.id], t.noResponse)
  }

  lemma IdsSnoc(rs: seq<Robot>)
    requires |rs| > 0
    ensures Ids(rs) == Ids(rs[..|rs| - 1]) + [rs[|rs| - 1].id]
  {
    assert Ids(rs)[..|rs| - 1] == Ids(rs[..|rs| - 1]);
  }

  /** Dropping the last record keeps ids distinct, and its id was not used before. */
  lemma UniqueSnoc(rs: seq<Robot>)
    requires |rs| > 0 && UniqueIds(rs)
    ensures UniqueIds(rs[..|rs| - 1])
    ensures rs[|rs| - 1].id !in Ids(rs[..|rs| - 1])
  {
  }

  /** Every ballot names a robot of the fleet other than the candidate, and the
      three lists together are as long as the number of such robots. */
  lemma {:induction false} BallotsSize(rs: seq<Robot>, candidate: RobotId, topo: Adjacency, yes: set<RobotId>)
    requires UniqueIds(rs)
    ensures var t := Ballots(rs, candidate, topo, yes);
      && (forall x :: x in t.votedFor || x in t.votedAgainst || x in t.noResponse ==>
            x in Ids(rs) && x != candidate)
      && |t.votedFor| + |t.votedAgainst| + |t.noResponse| == |rs| - (if candidate in Ids(rs) then 1 else 0)
      && Distinct(t.votedFor) && Distinct(t.votedAgainst) && Distinct(t.noResponse)
  {
    if |rs| > 0 {
      var init := rs[..|rs| - 1];
      UniqueSnoc(rs);
      IdsSnoc(rs);
      BallotsSize(init, candidate, topo, yes);
    }
  }

  /** Each robot other than the candidate lands in the bucket its connectivity
      and the oracle decide. */
  lemma {:induction false} BallotsClassify(rs: seq<Robot>, candidate: RobotId, topo: Adjacency,
                                           yes: set<RobotId>, i: nat)
    requires UniqueIds(rs)
    requires i < |rs| && rs[i].id != candidate
    ensures var t := Ballots(rs, candidate, topo, yes);
      && (rs[i].id in t.noResponse <==> !Responds(topo, rs[i], candidate))
      && (rs[i].id in t.votedFor <==> Responds(topo, rs[i], candidate) && rs[i].id in yes)
      && (rs[i].id in t.votedAgainst <==> Responds(topo, rs[i], candidate) && rs[i].id !in yes)
  {
    var init := rs[..|rs| - 1];
    UniqueSnoc(rs);
    BallotsSize(init, candidate, topo, yes);
    if i < |rs| - 1 {
      assert rs[i] == init[i];
      assert Ids(init)[i] == rs[i].id;
      BallotsClassify(init, candidate, topo, yes, i);
    } else {
      assert rs[i].id !in Ids(init);
    }
  }

  /** The full vote: the candidate's own vote first, then the ballots. */
  function Vote(rs: seq<Robot>, candidate: RobotId, topo: Adjacency, yes: set<RobotId>): Tally {
    var b := Ballots(rs, candidate, topo, yes);
    Tally([candidate] + b.votedFor, b.votedAgainst, b.noResponse)
  }

  /** The candidate is counted once, every other robot lands in exactly one
      bucket, unreachable or disconnected robots never answer, and so the vote
      count lies between 1 and the fleet size. */
  lemma VoteBuckets(rs: seq<Robot>, candidate: RobotId, topo: Adjacency, yes: set<RobotId>)
    requires UniqueIds(rs) && candidate in Ids(rs)
    ensures var t := Vote(rs, candidate, topo, yes);
      && Distinct(t.votedFor)
      && t.votedFor[0] == candidate
      && candidate !in t.votedAgainst && candidate !in t.noResponse
      && (forall i :: 0 <= i < |rs| && rs[i].id != candidate ==>
            Held(rs[i].id in t.votedFor) + Held(rs[i].id in t.votedAgainst)
              + Held(rs[i].id in t.noResponse) == 1)
      && (forall i :: 0 <= i < |rs| && !Responds(topo, rs[i], candidate) && rs[i].id != candidate ==>
            rs[i].id in t.noResponse)
      && 1 <= |t.votedFor| <= |rs|
  {
    var b := Ballots(rs, candidate, topo, yes);
    var t := Vote(rs, candidate, topo, yes);
    BallotsSize(rs, candidate, topo, yes);
    forall i | 0 <= i < |rs| && rs[i].id != candidate
      ensures Held(rs[i].id in t.votedFor) + Held(rs[i].id in t.votedAgainst)
              + Held(rs[i].id in t.noResponse) == 1
      ensures !Responds(topo, rs[i], candidate) ==> rs[i].id in t.noResponse
    {
      BallotsClassify(rs, candidate, topo, yes, i);
    }
    assert candidate !in b.votedFor;
    assert Distinct(t.votedFor) by {
      forall i, j | 0 <= i < j < |t.votedFor| ensures t.votedFor[i] != t.votedFor[j] {
        if i == 0 {
          assert t.votedFor[j] == b.votedFor[j - 1];
        } else {
          assert t.votedFor[i] == b.votedFor[i - 1] && t.votedFor[j] == b.votedFor[j - 1];
        }
      }
    }
  }

  /** A robot other than the candidate that answers and says yes. */
  predicate VotesYes(topo: Adjacency, candidate: RobotId, yes: set<RobotId>, r: Robot) {
    r.id != candidate && Responds(topo, r, candidate) && r.id in yes
  }

  /** The yes ballots are as many as the fleet's records that answer the
      candidate and are in the yes-set. */
  lemma {:induction false} BallotsCountYes(rs: seq<Robot>, candidate: RobotId, topo: Adjacency, yes: set<RobotId>)
    ensures |Ballots(rs, candidate, topo, yes).votedFor| == Count(rs, q => VotesYes(topo, candidate, yes, q))
  {
    if |rs| > 0 {
      BallotsCountYes(rs[..|rs| - 1], candidate, topo, yes);
    }
  }

  datatype ElectionResult =
    | NoViableCandidates(term: int)
    | Elected(leader: RobotId, term: int, votes: nat, total: nat, majority: nat, tally: Tally)
    | NoMajority(candidate: RobotId, term: int, votes: nat, total: nat, majority: nat)

  datatype Election = Election(cluster: Cluster, result: ElectionResult)

  /** A robot's record after the election is won. */
  function Promote(r: Robot, winner: RobotId, supporters: seq<RobotId>, term: int): Robot {
    if r.id == winner then r.(role := Leader, votedFor := Some(winner), term := term)
    else r.(role := Follower,
            votedFor := if r.id in supporters then Some(winner) else r.votedFor,
            term := term)
  }

  function PromoteAll(rs: seq<Robot>, winner: RobotId, supporters: seq<RobotId>, term: int): (out: seq<Robot>)
    ensures |out| == |rs|
    ensures forall i :: 0 <= i < |rs| ==> out[i] == Promote(rs[i], winner, supporters, term)
  {
    seq(|rs|, i requires 0 <= i < |rs| => Promote(rs[i], winner, supporters, term))
  }

  /** One election attempt.  The term advances on every attempt; the top
      candidate wins when its vote count reaches the quorum, and only then do
      the leader and the robots' roles change.  The yes-set is the vote oracle. */
  function TriggerElection(c: Cluster, yes: set<RobotId>): (e: Election)
    ensures e.cluster.term == c.term + 1 && e.result.term == c.term + 1
    ensures e.cluster.electionCount == c.electionCount + 1
    ensures e.cluster.topology == c.topology && e.cluster.electionTimeout == c.electionTimeout
    ensures e.result.NoViableCandidates? <==> forall r :: r in c.robots ==> !IsCandidate(r)
    ensures !e.result.Elected? ==> e.cluster.leader == c.leader && e.cluster.robots == c.robots
    ensures e.result.Elected? ==> e.cluster.leader == Some(e.result.leader)
    ensures e.result.Elected? || e.result.NoMajority? ==>
      e.result.majority == Majority(|c.robots|) && e.result.total == |c.robots|
    ensures e.result.Elected? ==> e.result.votes >= e.result.majority
    ensures e.result.NoMajority? ==> e.result.votes < e.result.majority
    ensures e.result.Elected? ==>
      && e.result.tally == Vote(c.robots, e.result.leader, c.topology, yes)
      && e.result.votes == |e.result.tally.votedFor|
      && e.cluster.robots == PromoteAll(c.robots, e.result.leader, e.result.tally.votedFor, c.term + 1)
    ensures e.result.NoMajority? ==>
      e.result.votes == |Vote(c.robots, e.result.candidate, c.topology, yes).votedFor|
  {
    var newTerm := c.term + 1;
    var c1 := c.(term := newTerm, electionCount := c.electionCount + 1);
    match TopCandidate(c.robots)
    case None => Election(c1, NoViableCandidates(newTerm))
    case Some(k) =>
      var candidate := Candidates(c.robots)[k].id;
      var tally := Vote(c.robots, candidate, c.topology, yes);
      var votes := |tally.votedFor|;
      var majority := Majority(|c.robots|);
      if votes >= majority then
        Election(c1.(leader := Some(candidate),
                     robots := PromoteAll(c.robots, candidate, tally.votedFor, newTerm)),
                 Elected(candidate, newTerm, votes, |c.robots|, majority, tally))
      else
        Election(c1, NoMajority(candidate, newTerm, votes, |c.robots|, majority))
  }

  /** The robot that stands is an eligible candidate whose priority is at least
      every other eligible robot's; it wins exactly when its votes reach the
      quorum. */
  lemma ElectionPicksTopCandidate(c: Cluster, yes: set<RobotId>)
    ensures var e := TriggerElection(c, yes);
      e.result.Elected? || e.result.NoMajority? ==>
        var who := if e.result.Elected? then e.result.leader else e.result.candidate;
        exists r :: r in c.robots && r.id == who && IsCandidate(r) &&
          forall q :: q in c.robots && IsCandidate(q) ==>
            CandidatePriority(q, |c.robots|) <= CandidatePriority(r, |c.robots|)
    ensures var e := TriggerElection(c, yes);
      e.result.Elected? || e.result.NoMajority? ==>
        (e.result.Elected? <==> e.result.votes >= Majority(|c.robots|))
  {
    var e := TriggerElection(c, yes);
    if e.result.Elected? || e.result.NoMajority? {
      var k := TopCandidate(c.robots).value;
      var r := Candidates(c.robots)[k];
      assert r in c.robots && IsCandidate(r);
    }
  }

  /** The votes counted for the standing robot are its own plus one per other
      robot that answers it and is in the yes-set. */
  lemma ElectionCountsYesVotes(c: Cluster, yes: set<RobotId>)
    ensures var e := TriggerElection(c, yes);
      e.result.Elected? || e.result.NoMajority? ==>
        var who := if e.result.Elected? then e.result.leader else e.result.candidate;
        e.result.votes == 1 + Count(c.robots, q => VotesYes(c.topology, who, yes, q))
  {
    var e := TriggerElection(c, yes);
    if e.result.Elected? || e.result.NoMajority? {
      var who := if e.result.Elected? then e.result.leader else e.result.candidate;
      BallotsCountYes(c.robots, who, c.topology, yes);
    }
  }

  /** In a fleet keyed by id, the robots whose vote record is set to the
      winner are the winner itself and the robots that answered it yes. */
  lemma ElectionSupporters(c: Cluster, yes: set<RobotId>)
    requires UniqueIds(c.robots)
    ensures var e := TriggerElection(c, yes);
      e.result.Elected? ==> forall i :: 0 <= i < |c.robots| ==>
        (c.robots[i].id in e.result.tally.votedFor <==>
           c.robots[i].id == e.result.leader || VotesYes(c.topology, e.result.leader, yes, c.robots[i]))
  {
    var e := TriggerElection(c, yes);
    if e.result.Elected? {
      forall i | 0 <= i < |c.robots| && c.robots[i].id != e.result.leader
        ensures c.robots[i].id in e.result.tally.votedFor <==> VotesYes(c.topology, e.result.leader, yes, c.robots[i])
      {
        BallotsClassify(c.robots, e.result.leader, c.topology, yes, i);
      }
    }
  }

  /** Promotion makes exactly the winner leader and everybody else follower,
      hands every robot the new term and keeps ids in place. */
  lemma PromoteAllRoles(rs: seq<Robot>, winner: RobotId, supporters: seq<RobotId>, term: int)
    ensures var out := PromoteAll(rs, winner, supporters, term);
      && Ids(out) == Ids(rs)
      && (forall i :: 0 <= i < |rs| ==>
            && (out[i].role == Leader <==> out[i].id == winner)
            && (out[i].role != Leader ==> out[i].role == Follower)
            && out[i].term == term)
  {
    var out := PromoteAll(rs, winner, supporters, term);
    assert forall i :: 0 <= i < |rs| ==> Ids(out)[i] == Ids(rs)[i];
  }

  /** After a won election exactly the winner is leader, every other robot is a
      follower, and every robot carries the new term. */
  lemma ElectionInstallsOneLeader(c: Cluster, yes: set<RobotId>)
    ensures var e := TriggerElection(c, yes);
      e.result.Elected? ==>
        && Ids(e.cluster.robots) == Ids(c.robots)
        && e.result.leader in Ids(c.robots)
        && (forall i :: 0 <= i < |c.robots| ==>
              && (e.cluster.robots[i].role == Leader <==> e.cluster.robots[i].id == e.result.leader)
              && (e.cluster.robots[i].role != Leader ==> e.cluster.robots[i].role == Follower)
              && e.cluster.robots[i].term == c.term + 1)
  {
    var e := TriggerElection(c, yes);
    if e.result.Elected? {
      var k := TopCandidate(c.robots).value;
      var r := Candidates(c.robots)[k];
      var tally := Vote(c.robots, r.id, c.topology, yes);
      assert e.cluster.robots == PromoteAll(c.robots, r.id, tally.votedFor, c.term + 1);
      PromoteAllRoles(c.robots, r.id, tally.votedFor, c.term + 1);
      assert r in c.robots;
      var i :| 0 <= i < |c.robots| && c.robots[i] == r;
      assert Ids(c.robots)[i] == e.result.leader;
    }
  }

  /** Between 1 and N votes are ever counted for the standing candidate. */
  lemma ElectionVoteBounds(c: Cluster, yes: set<RobotId>)
    requires UniqueIds(c.robots)
    ensures var e := TriggerElection(c, yes);
      && (e.result.Elected? ==> 1 <= e.result.votes <= |c.robots|)
      && (e.result.NoMajority? ==> 1 <= e.result.votes <= |c.robots|)
  {
    var e := TriggerElection(c, yes);
    if e.result.Elected? || e.result.NoMajority? {
      var k := TopCandidate(c.robots).value;
      var r := Candidates(c.robots)[k];
      assert r in c.robots;
      var i :| 0 <= i < |c.robots| && c.robots[i] == r;
      assert Ids(c.robots)[i] == r.id;
      VoteBuckets(c.robots, r.id, c.topology, yes);
    }
  }

  // ----------------------------------------------------------- replication

  datatype Replication =
    | ReplicationNoLeader
    | Replicated(leader: RobotId, replicatedTo: seq<RobotId>, failedTo: seq<RobotId>,
                 majority: nat, committed: bool)

  /** A connected robot other than the leader whose role is follower. */
  predicate IsFollowerOf(r: Robot, leader: RobotId) {
    r.id != leader && r.role == Follower && r.connected
  }

  /** AppendEntries outcome per follower, in fleet order: an entry lands when
      the follower is reachable from the leader and is in the oracle set acks. */
  function Replicate(rs: seq<Robot>, leader: RobotId, topo: Adjacency, acks: set<RobotId>)
    : (out: (seq<RobotId>, seq<RobotId>))
    ensures forall x :: x in out.0 ==>
      IsReachable(topo, leader, x) && x in acks && exists r :: r in rs && r.id == x && IsFollowerOf(r, leader)
    ensures forall x :: x in out.1 ==>
      !(IsReachable(topo, leader, x) && x in acks) && exists r :: r in rs && r.id == x && IsFollowerOf(r, leader)
    ensures forall r :: r in rs && IsFollowerOf(r, leader) ==>
      (if IsReachable(topo, leader, r.id) && r.id in acks then r.id in out.0 else r.id in out.1)
    ensures |out.0| + |out.1| == Count(rs, r => IsFollowerOf(r, leader))
  {
    if |rs| == 0 then ([], [])
    else
      var prev := Replicate(rs[..|rs| - 1], leader, topo, acks);
      var r := rs[|rs| - 1];
      assert forall q :: q in rs <==> q in rs[..|rs| - 1] || q == r;
      if !IsFollowerOf(r, leader) then prev
      else if IsReachable(topo, leader, r.id) && r.id in acks then (prev.0 + [r.id], prev.1)
      else (prev.0, prev.1 + [r.id])
  }

  /** Replicates a state update from the leader.  Without a leader in the fleet
      it fails; otherwise the entry commits when the leader plus the followers
      that acknowledged reach the quorum.  The ack-set is the success oracle. */
  function ReplicateState(c: Cluster, acks: set<RobotId>): (r: Replication)
    ensures r.ReplicationNoLeader? <==> c.leader.None? || c.leader.value !in Ids(c.robots)
    ensures r.Replicated? ==> r.leader == c.leader.value && r.majority == Majority(|c.robots|)
    ensures r.Replicated? ==> (r.committed <==> |r.replicatedTo| + 1 >= Majority(|c.robots|))
    ensures r.Replicated? ==> forall x :: x in r.replicatedTo ==>
      IsReachable(c.topology, r.leader, x) && x in acks
    ensures r.Replicated? ==> forall q :: q in c.robots && IsFollowerOf(q, r.leader) ==>
      (q.id in r.replicatedTo || q.id in r.failedTo)
    ensures r.Replicated? ==> forall x :: x in r.replicatedTo || x in r.failedTo ==>
      exists q :: q in c.robots && q.id == x && IsFollowerOf(q, r.leader)
    ensures r.Replicated? ==> forall x :: !(x in r.replicatedTo && x in r.failedTo)
    ensures r.Replicated? ==> forall q :: q in c.robots && IsFollowerOf(q, r.leader) ==>
      (q.id in r.replicatedTo <==> IsReachable(c.topology, r.leader, q.id) && q.id in acks)
    ensures r.Replicated? ==> (r.replicatedTo, r.failedTo) == Replicate(c.robots, r.leader, c.topology, acks)
  {
    if c.leader.None? || c.leader.value !in Ids(c.robots) then ReplicationNoLeader
    else
      var leader := c.leader.value;
      var out := Replicate(c.robots, leader, c.topology, acks);
      var majority := Majority(|c.robots|);
      Replicated(leader, out.0, out.1, majority, |out.0| + 1 >= majority)
  }

  // ---------------------------------------------------------------- status

  datatype RoleCounts = RoleCounts(leaders: nat, followers: nat, candidates: nat, disconnected: nat)

  predicate ActingLeader(r: Robot) { r.connected && r.role == Leader }
  predicate ActingCandidate(r: Robot) { r.connected && r.role == Candidate }
  predicate Disconnected(r: Robot) { !r.connected }

  /** Robots by role, counting disconnected robots separately whatever their role. */
  function CountRoles(rs: seq<Robot>): (k: RoleCounts)
    ensures k.leaders + k.followers + k.candidates + k.disconnected == |rs|
    ensures k.leaders == Count(rs, ActingLeader)
    ensures k.candidates == Count(rs, ActingCandidate)
    ensures k.disconnected == Count(rs, Disconnected)
  {
    if |rs| == 0 then RoleCounts(0, 0, 0, 0)
    else
      var k := CountRoles(rs[..|rs| - 1]);
      var r := rs[|rs| - 1];
      if !r.connected then k.(disconnected := k.disconnected + 1)
      else match r.role
        case Leader => k.(leaders := k.leaders + 1)
        case Follower => k.(followers := k.followers + 1)
        case Candidate => k.(candidates := k.candidates + 1)
  }

  datatype HealthFactors = HealthFactors(hasLeader: bool, noSplitBrain: bool,
                                         highConnectivity: bool, noCandidates: bool)

  function Held(b: bool): nat { if b then 1 else 0 }

  function FactorsHeld(f: HealthFactors): nat {
    Held(f.hasLeader) + Held(f.noSplitBrain) + Held(f.highConnectivity) + Held(f.noCandidates)
  }

  datatype Level = Healthy | Warning | Critical

  datatype ConsensusStatus = ConsensusStatus(
    term: int, leader: Option<RobotId>, total: nat, counts: RoleCounts, splitBrain: bool,
    splitBrainIncidents: nat, electionCount: int, healthScore: real, factors: HealthFactors,
    level: Level)

  /** The status report; a split brain (several connected leaders) is also
      recorded as an incident in the manager. */
  function GetConsensusStatus(c: Cluster): (out: (Cluster, ConsensusStatus))
    ensures var s := out.1;
      && (s.splitBrain <==> Count(c.robots, ActingLeader) > 1)
      && (s.factors.hasLeader <==> Count(c.robots, ActingLeader) == 1)
      && (s.factors.noCandidates <==> Count(c.robots, ActingCandidate) == 0)
      && (s.factors.highConnectivity <==>
            5 * Count(c.robots, Disconnected) < |c.robots|)
      && 0.0 <= s.healthScore <= 1.0
      && s.healthScore * 4.0 == FactorsHeld(s.factors) as real
      && (s.level == Healthy <==> FactorsHeld(s.factors) >= 3)
      && (s.level == Warning <==> FactorsHeld(s.factors) == 2)
      && (s.level == Critical <==> FactorsHeld(s.factors) <= 1)
    ensures out.0 == c.(splitBrainIncidents :=
      c.splitBrainIncidents + (if out.1.splitBrain then 1 else 0))
  {
    var k := CountRoles(c.robots);
    var split := k.leaders > 1;
    var c1 := if split then c.(splitBrainIncidents := c.splitBrainIncidents + 1) else c;
    var f := HealthFactors(k.leaders == 1, !split,
                           (k.disconnected as real) < (|c.robots| as real) * 0.2,
                           k.candidates == 0);
    var score := FactorsHeld(f) as real / 4.0;
    var level := if score >= 0.75 then Healthy else if score >= 0.5 then Warning else Critical;
    (c1, ConsensusStatus(c.term, c.leader, |c.robots|, k, split, c1.splitBrainIncidents,
                         c.electionCount, score, f, level))
  }

  lemma {:induction false} CountOne(rs: seq<Robot>, p: Robot -> bool, k: nat)
    requires k < |rs| && p(rs[k])
    requires forall i :: 0 <= i < |rs| && i != k ==> !p(rs[i])
    ensures Count(rs, p) == 1
  {
    var init := rs[..|rs| - 1];
    if k < |rs| - 1 {
      CountOne(init, p, k);
    } else {
      CountNone(init, p);
    }
  }

  lemma {:induction false} CountNone(rs: seq<Robot>, p: Robot -> bool)
    requires forall i :: 0 <= i < |rs| ==> !p(rs[i])
    ensures Count(rs, p) == 0
  {
    if |rs| > 0 {
      CountNone(rs[..|rs| - 1], p);
    }
  }

  /** Right after a won election the status report sees exactly one leader and
      no split brain. */
  lemma ElectionHealsLeadership(c: Cluster, yes: set<RobotId>)
    requires UniqueIds(c.robots)
    ensures var e := TriggerElection(c, yes);
      e.result.Elected? ==>
        var s := GetConsensusStatus(e.cluster).1;
        s.factors.hasLeader && !s.splitBrain
  {
    var e := TriggerElection(c, yes);
    if e.result.Elected? {
      ElectionInstallsOneLeader(c, yes);
      var rs := e.cluster.robots;
      var k := TopCandidate(c.robots).value;
      var r := Candidates(c.robots)[k];
      assert r in c.robots && IsCandidate(r);
      var i :| 0 <= i < |c.robots| && c.robots[i] == r;
      assert rs[i] == Promote(r, r.id, e.result.tally.votedFor, c.term + 1);
      CountOne(rs, ActingLeader, i);
    }
  }
}

=== FILE: distributor.dfy ===
/** The task distributor: sealed-bid auctions task by task, a batch assignment
    over a tasks-by-robots cost matrix, the driver that allocates every open
    task of the pool with one of the two, and the allocation statistics. */
module Distribution {
  import opened Swarm
  import opened Bidding
  import opened Matching

  /** The distributor's state: the fleet keyed by id, the task pool, and the
      running count of tasks it has handed out. */
  datatype Distributor = Distributor(robots: seq<Robot>, pool: seq<Task>, tasksAllocated: nat)

  /** The bid a robot makes for a task, given the geometry oracle. */
  function BidOf(r: Robot, t: Task, geo: Geo): Option<Bid> {
    CalculateBid(r, t, geo(r.id, t.id))
  }

  predicate Eligible(r: Robot, t: Task, geo: Geo) {
    CanBid(r, t, geo(r.id, t.id))
  }

  /** The robot takes the task on, with no progress yet. */
  function Allocate(r: Robot, t: Task, minutes: real): Robot {
    r.(assignment := Some(Assignment(t.id, t.taskType, t.priority, 0.0, minutes)))
  }

  function MarkAllocated(t: Task, id: RobotId): Task {
    t.(status := "allocated", allocatedTo := Some(id))
  }

  /** The robot a descending stable sort of the fleet's bids puts first: the
      highest bid, the earliest robot in fleet order on a tie; None without bids. */
  function BestBidder(rs: seq<Robot>, t: Task, geo: Geo): (w: Option<nat>)
    ensures w.None? <==> forall i :: 0 <= i < |rs| ==> !Eligible(rs[i], t, geo)
    ensures w.Some? ==> w.value < |rs| && Eligible(rs[w.value], t, geo)
    ensures w.Some? ==> forall i :: 0 <= i < |rs| && Eligible(rs[i], t, geo) ==>
      BidOf(rs[i], t, geo).value.value <= BidOf(rs[w.value], t, geo).value.value
    ensures w.Some? ==> forall i :: 0 <= i < w.value && Eligible(rs[i], t, geo) ==>
      BidOf(rs[i], t, geo).value.value < BidOf(rs[w.value], t, geo).value.value
  {
    if |rs| == 0 then None
    else
      var n := |rs| - 1;
      var prev := BestBidder(rs[..n], t, geo);
      assert forall i :: 0 <= i < n ==> rs[..n][i] == rs[i];
      if !Eligible(rs[n], t, geo) then prev
      else if prev.None? then Some(n)
      else if BidOf(rs[n], t, geo).value.value > BidOf(rs[prev.value], t, geo).value.value then Some(n)
      else prev
  }

  datatype AuctionOutcome =
    | NoBids
    | Won(winner: nat, bid: Bid, bidsReceived: nat)

  datatype Auction = Auction(robots: seq<Robot>, task: Task, outcome: AuctionOutcome)

  /** One auction: every robot that may bid does; without bids nothing
      changes; otherwise the highest bid wins, the winner takes the task on
      with its estimated duration, and the task is marked allocated to it. */
  function RunAuction(rs: seq<Robot>, t: Task, geo: Geo): (a: Auction)
    ensures |a.robots| == |rs|
    ensures a.outcome.NoBids? <==> forall i :: 0 <= i < |rs| ==> !Eligible(rs[i], t, geo)
    ensures a.outcome.NoBids? ==> a.robots == rs && a.task == t
    ensures a.outcome.Won? ==>
      var w := a.outcome.winner;
      && w < |rs| && Eligible(rs[w], t, geo) && BidOf(rs[w], t, geo) == Some(a.outcome.bid)
      && a.robots[w].assignment == Some(Assignment(t.id, t.taskType, t.priority, 0.0, geo(rs[w].id, t.id).minutes))
      && a.robots[w].(assignment := rs[w].assignment) == rs[w]
      && (forall i :: 0 <= i < |rs| && i != w ==> a.robots[i] == rs[i])
      && a.task.status == "allocated" && a.task.allocatedTo == Some(rs[w].id)
      && a.task.(status := t.status, allocatedTo := t.allocatedTo) == t
      && a.outcome.bidsReceived == Count(rs, r => Eligible(r, t, geo))
      && (forall i :: 0 <= i < |rs| && Eligible(rs[i], t, geo) ==>
            BidOf(rs[i], t, geo).value.value <= a.outcome.bid.value)
      && (forall i :: 0 <= i < w && Eligible(rs[i], t, geo) ==>
            BidOf(rs[i], t, geo).value.value < a.outcome.bid.value)
  {
    match BestBidder(rs, t, geo)
    case None => Auction(rs, t, NoBids)
    case Some(w) =>
      var b := BidOf(rs[w], t, geo).value;
      Auction(rs[w := Allocate(rs[w], t, b.minutes)], MarkAllocated(t, rs[w].id),
              Won(w, b, Count(rs, r => Eligible(r, t, geo))))
  }

  predicate IsOpen(t: Task) { t.status == "open" }
  predicate IsAllocated(t: Task) { t.status == "allocated" }

  /** The state after auctioning the open tasks of a pool one after another,
      with how many auctions were won and how many drew no bids. */
  datatype Round = Round(robots: seq<Robot>, pool: seq<Task>, won: nat, unbid: nat)

  /** Auctions every open task of the pool in pool order; each auction sees
      the fleet as the earlier ones left it. */
  function AuctionPool(rs: seq<Robot>, pool: seq<Task>, geo: Geo): (x: Round)
    ensures |x.robots| == |rs| && |x.pool| == |pool|
    ensures x.won + x.unbid == Count(pool, IsOpen)
    ensures forall j :: 0 <= j < |pool| && !IsOpen(pool[j]) ==> x.pool[j] == pool[j]
    ensures forall j :: 0 <= j < |pool| && IsOpen(pool[j]) ==>
      x.pool[j] == pool[j] || (IsAllocated(x.pool[j]) && x.pool[j].allocatedTo.Some?)
  {
    if |pool| == 0 then Round(rs, [], 0, 0)
    else
      var n := |pool| - 1;
      var prev := AuctionPool(rs, pool[..n], geo);
      assert pool == pool[..n] + [pool[n]];
      CountSnoc(pool[..n], pool[n], IsOpen);
      if !IsOpen(pool[n]) then Round(prev.robots, prev.pool + [pool[n]], prev.won, prev.unbid)
      else
        var a := RunAuction(prev.robots, pool[n], geo);
        if a.outcome.NoBids? then Round(prev.robots, prev.pool + [pool[n]], prev.won, prev.unbid + 1)
        else Round(a.robots, prev.pool + [a.task], prev.won + 1, prev.unbid)
  }

  /** The last task of the pool is settled by one auction against the fleet
      as the earlier auctions left it: a won auction replaces the task and
      the fleet by the auction's, anything else keeps both. */
  lemma AuctionPoolLast(rs: seq<Robot>, pool: seq<Task>, geo: Geo)
    requires |pool| > 0
    ensures var n := |pool| - 1;
      var prev := AuctionPool(rs, pool[..n], geo);
      var x := AuctionPool(rs, pool, geo);
      var a := RunAuction(prev.robots, pool[n], geo);
      && x.pool == prev.pool + [x.pool[n]]
      && (if IsOpen(pool[n]) && a.outcome.Won?
          then x.pool[n] == a.task && x.robots == a.robots && x.won == prev.won + 1
          else x.pool[n] == pool[n] && x.robots == prev.robots && x.won == prev.won)
  {
  }

  /** The last task either stays as it was or is an open task that became
      allocated, and the won count moves with it. */
  lemma AuctionPoolLastSettles(rs: seq<Robot>, pool: seq<Task>, geo: Geo)
    requires |pool| > 0
    ensures var n := |pool| - 1;
      var prev := AuctionPool(rs, pool[..n], geo);
      var x := AuctionPool(rs, pool, geo);
      && x.pool[..n] == prev.pool
      && ((x.pool[n] == pool[n] && x.won == prev.won)
          || (IsOpen(pool[n]) && IsAllocated(x.pool[n]) && x.won == prev.won + 1))
  {
  }

  /** Each won auction turns one open task of the pool into an allocated one. */
  lemma {:induction false} AuctionPoolCounts(rs: seq<Robot>, pool: seq<Task>, geo: Geo)
    ensures Count(AuctionPool(rs, pool, geo).pool, IsAllocated)
         == Count(pool, IsAllocated) + AuctionPool(rs, pool, geo).won
    ensures Count(AuctionPool(rs, pool, geo).pool, IsOpen)
         == Count(pool, IsOpen) - AuctionPool(rs, pool, geo).won
  {
    if |pool| > 0 {
      var n := |pool| - 1;
      var p := pool[..n];
      var prev := AuctionPool(rs, p, geo);
      var x := AuctionPool(rs, pool, geo);
      AuctionPoolLastSettles(rs, pool, geo);
      SettledCounts(pool, x.pool, x.won - prev.won);
      AuctionPoolCounts(rs, p, geo);
    }
  }

  /** Settling the last task of a pool moves the counts by one allocation
      exactly when that task went from open to allocated. */
  lemma SettledCounts(whole: seq<Task>, after: seq<Task>, step: int)
    requires |whole| > 0 && |after| == |whole|
    requires var n := |whole| - 1;
      (after[n] == whole[n] && step == 0) || (IsOpen(whole[n]) && IsAllocated(after[n]) && step == 1)
    ensures var n := |whole| - 1;
      Count(after, IsAllocated) - Count(whole, IsAllocated)
        == Count(after[..n], IsAllocated) - Count(whole[..n], IsAllocated) + step
    ensures var n := |whole| - 1;
      Count(after, IsOpen) - Count(whole, IsOpen)
        == Count(after[..n], IsOpen) - Count(whole[..n], IsOpen) - step
  {
    var n := |whole| - 1;
    if step == 1 {
      OpenNotAllocated(whole[n]);
      OpenNotAllocated(after[n]);
    }
  }

  /** The two statuses exclude each other. */
  lemma OpenNotAllocated(t: Task)
    ensures !(IsOpen(t) && IsAllocated(t))
  {
    if IsOpen(t) {
      assert t.status[0] == 'o';
    }
  }

  /** Later auctions never touch the tasks already settled. */
  lemma {:induction false} AuctionPoolPrefix(rs: seq<Robot>, pool: seq<Task>, geo: Geo, m: nat)
    requires m <= |pool|
    ensures AuctionPool(rs, pool, geo).pool[..m] == AuctionPool(rs, pool[..m], geo).pool
    decreases |pool|
  {
    if m == |pool| {
      assert pool[..m] == pool;
    } else {
      var n := |pool| - 1;
      var p := pool[..n];
      AuctionPoolLastSettles(rs, pool, geo);
      assert p[..m] == pool[..m];
      AuctionPoolPrefix(rs, p, geo, m);
    }
  }

  /** The j-th task of the pool ends as the auction of it against the fleet
      the auctions of the tasks before it left: allocated to that auction's
      winner when it was open and drew a bid, unchanged otherwise; and the
      fleet moves on to the auction's when it is won. */
  lemma AuctionPoolTurn(rs: seq<Robot>, pool: seq<Task>, geo: Geo, j: nat)
    requires j < |pool|
    ensures var prev := AuctionPool(rs, pool[..j], geo);
      var a := RunAuction(prev.robots, pool[j], geo);
      var next := AuctionPool(rs, pool[..j + 1], geo);
      && AuctionPool(rs, pool, geo).pool[j] == (if IsOpen(pool[j]) && a.outcome.Won? then a.task else pool[j])
      && next.robots == (if IsOpen(pool[j]) && a.outcome.Won? then a.robots else prev.robots)
  {
    var q := pool[..j + 1];
    AuctionPoolPrefix(rs, pool, geo, j + 1);
    AuctionPoolLast(rs, q, geo);
    assert q[..j] == pool[..j] && q[j] == pool[j];
    assert AuctionPool(rs, pool, geo).pool[j] == AuctionPool(rs, q, geo).pool[j];
  }

  /** Cost of giving a task to a robot: one minus its bid, or the ineligible
      marker when it may not bid. */
  function Cost(r: Robot, t: Task, geo: Geo): real {
    match BidOf(r, t, geo)
    case None => Ineligible
    case Some(b) => 1.0 - b.value
  }

  /** Rows are tasks, columns are robots in fleet order. */
  function CostMatrix(rs: seq<Robot>, tasks: seq<Task>, geo: Geo): (costs: seq<seq<real>>)
    ensures |costs| == |tasks| && Rectangular(costs, |rs|)
    ensures forall j, i :: 0 <= j < |tasks| && 0 <= i < |rs| ==> costs[j][i] == Cost(rs[i], tasks[j], geo)
  {
    seq(|tasks|, j requires 0 <= j < |tasks| =>
      seq(|rs|, i requires 0 <= i < |rs| => Cost(rs[i], tasks[j], geo)))
  }

  /** An entry below the marker always comes from a bid; for a robot whose
      percentages are in range the converse holds too, the cost lies in
      [0, 1], and a cheaper entry is a higher bid. */
  lemma CostReflectsBid(r: Robot, t: Task, geo: Geo)
    ensures Cost(r, t, geo) < Ineligible ==> Eligible(r, t, geo)
    ensures InRange(r) && Eligible(r, t, geo) ==> 0.0 <= Cost(r, t, geo) <= 1.0
    ensures InRange(r) ==> (Cost(r, t, geo) < Ineligible <==> Eligible(r, t, geo))
  {
    if InRange(r) {
      BidInUnitRange(r, t, geo(r.id, t.id));
    }
  }

  predicate TaskIdsDistinct(tasks: seq<Task>) {
    forall j, k :: 0 <= j < k < |tasks| ==> tasks[j].id != tasks[k].id
  }

  /** Number of task rows below n that the matching serves. */
  function AssignedCount(g: Greedy, n: nat): (k: nat)
    ensures k <= n
  {
    if n == 0 then 0 else AssignedCount(g, n - 1) + (if n - 1 in g.byTask then 1 else 0)
  }

  /** Total cost of the matched entries in task rows below n. */
  function MatchedCost(g: Greedy, n: nat): real {
    if n == 0 then 0.0 else MatchedCost(g, n - 1) + (if n - 1 in g.byTask then g.byTask[n - 1].cost else 0.0)
  }

  /** The result of a batch assignment: the updated fleet and tasks, the
      matching of task rows to robot columns, and what the batch reports. */
  datatype Batch = Batch(robots: seq<Robot>, tasks: seq<Task>, matching: Greedy,
                         assignments: map<TaskId, Option<RobotId>>, totalCost: real, tasksAssigned: nat)

  /** A matching read off the cost matrix of a fleet and a batch. */
  predicate MatchesMatrix(g: Greedy, rs: seq<Robot>, tasks: seq<Task>, geo: Geo) {
    && Consistent(g)
    && (forall j :: j in g.byTask ==>
          && j < |tasks| && g.byTask[j].robot < |rs|
          && g.byTask[j].cost == Cost(rs[g.byTask[j].robot], tasks[j], geo)
          && g.byTask[j].cost < Ineligible)
  }

  /** Every matched robot takes its task on; the others are left alone. */
  function ApplyToRobots(rs: seq<Robot>, tasks: seq<Task>, g: Greedy, geo: Geo): (out: seq<Robot>)
    requires MatchesMatrix(g, rs, tasks, geo)
    ensures |out| == |rs|
    ensures forall j :: j in g.byTask ==>
      out[g.byTask[j].robot] == Allocate(rs[g.byTask[j].robot], tasks[j], geo(rs[g.byTask[j].robot].id, tasks[j].id).minutes)
    ensures forall i :: 0 <= i < |rs| && i !in g.byRobot ==> out[i] == rs[i]
  {
    seq(|rs|, i requires 0 <= i < |rs| =>
      if i in g.byRobot then
        var j := g.byRobot[i].task;
        Allocate(rs[i], tasks[j], geo(rs[i].id, tasks[j].id).minutes)
      else rs[i])
  }

  /** Every matched task is marked allocated to its robot; the others are left alone. */
  function ApplyToTasks(rs: seq<Robot>, tasks: seq<Task>, g: Greedy, geo: Geo): (out: seq<Task>)
    requires MatchesMatrix(g, rs, tasks, geo)
    ensures |out| == |tasks|
    ensures forall j :: j in g.byTask ==> out[j] == MarkAllocated(tasks[j], rs[g.byTask[j].robot].id)
    ensures forall j :: 0 <= j < |tasks| && j !in g.byTask ==> out[j] == tasks[j]
  {
    seq(|tasks|, j requires 0 <= j < |tasks| =>
      if j in g.byTask then MarkAllocated(tasks[j], rs[g.byTask[j].robot].id) else tasks[j])
  }

  function TaskIds(tasks: seq<Task>): (ids: seq<TaskId>)
    ensures |ids| == |tasks| && forall j :: 0 <= j < |tasks| ==> ids[j] == tasks[j].id
  {
    seq(|tasks|, j requires 0 <= j < |tasks| => tasks[j].id)
  }

  /** The reported assignment for the first n tasks: task id to the id of its
      robot, or None. */
  function AssignmentsById(rs: seq<Robot>, tasks: seq<Task>, g: Greedy, n: nat): (m: map<TaskId, Option<RobotId>>)
    requires forall j :: j in g.byTask ==> g.byTask[j].robot < |rs|
    requires TaskIdsDistinct(tasks) && n <= |tasks|
    ensures forall j :: 0 <= j < n ==> tasks[j].id in m
    ensures forall j :: j in g.byTask && j < n ==> m[tasks[j].id] == Some(rs[g.byTask[j].robot].id)
    ensures forall j :: 0 <= j < n && j !in g.byTask ==> m[tasks[j].id] == None
  {
    if n == 0 then map[]
    else
      var prev := AssignmentsById(rs, tasks, g, n - 1);
      var j := n - 1;
      assert forall k :: 0 <= k < j ==> tasks[k].id != tasks[j].id;
      prev[tasks[j].id := if j in g.byTask then Some(rs[g.byTask[j].robot].id) else None]
  }

  /** The reported assignment has no key besides the batch's task ids. */
  lemma {:induction false} AssignmentKeys(rs: seq<Robot>, tasks: seq<Task>, g: Greedy, n: nat)
    requires forall j :: j in g.byTask ==> g.byTask[j].robot < |rs|
    requires TaskIdsDistinct(tasks) && n <= |tasks|
    ensures forall id :: id in AssignmentsById(rs, tasks, g, n) ==> id in TaskIds(tasks)[..n]
  {
    if n > 0 {
      AssignmentKeys(rs, tasks, g, n - 1);
      assert TaskIds(tasks)[..n] == TaskIds(tasks)[..n - 1] + [tasks[n - 1].id];
    }
  }

  /** The greedy matcher run on the cost matrix of a fleet and a batch. */
  function MatchBatch(rs: seq<Robot>, tasks: seq<Task>, geo: Geo): Greedy {
    SimplifiedHungarian(CostMatrix(rs, tasks, geo), |rs|)
  }

  /** The matcher pairs each matched task with a robot that may bid for it. */
  lemma MatchBatchEligible(rs: seq<Robot>, tasks: seq<Task>, geo: Geo)
    ensures MatchesMatrix(MatchBatch(rs, tasks, geo), rs, tasks, geo)
    ensures var g := MatchBatch(rs, tasks, geo);
      forall j :: j in g.byTask ==> Eligible(rs[g.byTask[j].robot], tasks[j], geo)
  {
    var costs := CostMatrix(rs, tasks, geo);
    var g := SimplifiedHungarian(costs, |rs|);
    forall j | j in g.byTask ensures Eligible(rs[g.byTask[j].robot], tasks[j], geo) {
      CostReflectsBid(rs[g.byTask[j].robot], tasks[j], geo);
    }
  }

  /** Every eligible pair of the batch is covered by the matching. */
  lemma MatchBatchCovers(rs: seq<Robot>, tasks: seq<Task>, geo: Geo, j: nat, i: nat)
    requires j < |tasks| && i < |rs| && Cost(rs[i], tasks[j], geo) < Ineligible
    ensures Covered(MatchBatch(rs, tasks, geo), Matching.Candidate(j, i, Cost(rs[i], tasks[j], geo)))
  {
    var costs := CostMatrix(rs, tasks, geo);
    assert costs[j][i] == Cost(rs[i], tasks[j], geo);
  }

  /** The task-id to robot-id map a batch reports. */
  function BatchAssignments(rs: seq<Robot>, tasks: seq<Task>, geo: Geo): map<TaskId, Option<RobotId>>
    requires TaskIdsDistinct(tasks)
  {
    MatchBatchEligible(rs, tasks, geo);
    AssignmentsById(rs, tasks, MatchBatch(rs, tasks, geo), |tasks|)
  }

  /** Assigns a batch of tasks at once with the greedy matcher: every matched
      robot takes its task on, every matched task is marked allocated to its
      robot, and everything unmatched is left alone. */
  function HungarianAssignment(rs: seq<Robot>, tasks: seq<Task>, geo: Geo): (b: Batch)
    requires TaskIdsDistinct(tasks)
    ensures |b.robots| == |rs| && |b.tasks| == |tasks|
    ensures MatchesMatrix(b.matching, rs, tasks, geo)
    ensures forall id :: id in b.assignments <==> id in TaskIds(tasks)
    ensures forall j :: j in b.matching.byTask ==>
      var i := b.matching.byTask[j].robot;
      && Eligible(rs[i], tasks[j], geo)
      && b.assignments[tasks[j].id] == Some(rs[i].id)
      && b.tasks[j] == MarkAllocated(tasks[j], rs[i].id)
      && b.robots[i] == Allocate(rs[i], tasks[j], geo(rs[i].id, tasks[j].id).minutes)
    ensures forall j :: 0 <= j < |tasks| && j !in b.matching.byTask ==>
      b.assignments[tasks[j].id] == None && b.tasks[j] == tasks[j]
    ensures forall i :: 0 <= i < |rs| && i !in b.matching.byRobot ==> b.robots[i] == rs[i]
    ensures b.matching == MatchBatch(rs, tasks, geo) && b.assignments == BatchAssignments(rs, tasks, geo)
    ensures b.tasksAssigned == AssignedCount(b.matching, |tasks|)
    ensures b.totalCost == MatchedCost(b.matching, |tasks|)
  {
    var g := MatchBatch(rs, tasks, geo);
    MatchBatchEligible(rs, tasks, geo);
    AssignmentKeys(rs, tasks, g, |tasks|);
    assert TaskIds(tasks)[..|tasks|] == TaskIds(tasks);
    Batch(ApplyToRobots(rs, tasks, g, geo), ApplyToTasks(rs, tasks, g, geo), g,
          BatchAssignments(rs, tasks, geo), MatchedCost(g, |tasks|), AssignedCount(g, |tasks|))
  }

  /** Through a one-to-one matching, distinct task ids map to distinct robot ids. */
  lemma AssignmentsInjective(rs: seq<Robot>, tasks: seq<Task>, g: Greedy, j: nat, k: nat)
    requires Consistent(g) && forall t :: t in g.byTask ==> g.byTask[t].robot < |rs|
    requires TaskIdsDistinct(tasks) && UniqueIds(rs)
    requires j < |tasks| && k < |tasks| && j != k
    requires AssignmentsById(rs, tasks, g, |tasks|)[tasks[j].id].Some?
    ensures AssignmentsById(rs, tasks, g, |tasks|)[tasks[j].id]
         != AssignmentsById(rs, tasks, g, |tasks|)[tasks[k].id]
  {
    var m := AssignmentsById(rs, tasks, g, |tasks|);
    assert j in g.byTask;
    var rj := g.byTask[j].robot;
    assert m[tasks[j].id] == Some(rs[rj].id);
    if k in g.byTask {
      var rk := g.byTask[k].robot;
      assert m[tasks[k].id] == Some(rs[rk].id);
      assert g.byRobot[rj].task == j && g.byRobot[rk].task == k;
      assert rs[rj].id != rs[rk].id;
    } else {
      assert m[tasks[k].id] == None;
    }
  }

  /** No robot is given two tasks of a batch. */
  lemma HungarianOneTaskPerRobot(rs: seq<Robot>, tasks: seq<Task>, geo: Geo, j: nat, k: nat)
    requires TaskIdsDistinct(tasks) && UniqueIds(rs)
    requires j < |tasks| && k < |tasks| && j != k
    ensures var m := BatchAssignments(rs, tasks, geo);
      m[tasks[j].id].Some? ==> m[tasks[j].id] != m[tasks[k].id]
  {
    if BatchAssignments(rs, tasks, geo)[tasks[j].id].Some? {
      MatchBatchEligible(rs, tasks, geo);
      AssignmentsInjective(rs, tasks, MatchBatch(rs, tasks, geo), j, k);
    }
  }

  /** In matrix terms: a robot in range that may do an unmatched task serves
      another task, at a cost no higher. */
  lemma MatchBatchNoIdleBidder(rs: seq<Robot>, tasks: seq<Task>, geo: Geo, j: nat, i: nat)
    requires j < |tasks| && i < |rs| && InRange(rs[i]) && Eligible(rs[i], tasks[j], geo)
    ensures var g := MatchBatch(rs, tasks, geo);
      j !in g.byTask ==>
      && i in g.byRobot && g.byRobot[i].task in g.byTask && g.byRobot[i].task < |tasks|
      && g.byTask[g.byRobot[i].task].robot == i && g.byRobot[i].task != j
      && Eligible(rs[i], tasks[g.byRobot[i].task], geo)
      && BidOf(rs[i], tasks[j], geo).value.value <= BidOf(rs[i], tasks[g.byRobot[i].task], geo).value.value
  {
    var g := MatchBatch(rs, tasks, geo);
    if j !in g.byTask {
      MatchBatchEligible(rs, tasks, geo);
      CostReflectsBid(rs[i], tasks[j], geo);
      MatchBatchCovers(rs, tasks, geo, j, i);
      var k := g.byRobot[i].task;
      assert g.byTask[k] == g.byRobot[i];
      CostReflectsBid(rs[i], tasks[k], geo);
    }
  }

  /** The batch stops short only where robots ran out: when a robot in range
      could have done a task left unassigned, it was given another task of
      the batch, for which its bid is at least as high. */
  lemma HungarianLeavesNoIdleBidder(rs: seq<Robot>, tasks: seq<Task>, geo: Geo, j: nat, i: nat)
    requires TaskIdsDistinct(tasks)
    requires j < |tasks| && i < |rs| && InRange(rs[i]) && Eligible(rs[i], tasks[j], geo)
    ensures var m := BatchAssignments(rs, tasks, geo);
      m[tasks[j].id].None? ==>
        exists k :: && 0 <= k < |tasks| && k != j
                    && m[tasks[k].id] == Some(rs[i].id)
                    && Eligible(rs[i], tasks[k], geo)
                    && BidOf(rs[i], tasks[j], geo).value.value <= BidOf(rs[i], tasks[k], geo).value.value
  {
    var m := BatchAssignments(rs, tasks, geo);
    if m[tasks[j].id].None? {
      var g := MatchBatch(rs, tasks, geo);
      MatchBatchEligible(rs, tasks, geo);
      assert j !in g.byTask;
      MatchBatchNoIdleBidder(rs, tasks, geo, j, i);
      var k := g.byRobot[i].task;
      assert m[tasks[k].id] == Some(rs[i].id);
    }
  }

  /** Greedy stability: for any robot in range that may do a task, either the
      task went to a robot bidding at least as much for it, or the robot went
      to a task it bids at least as much for. */
  lemma HungarianNoBetterPair(rs: seq<Robot>, tasks: seq<Task>, geo: Geo, j: nat, i: nat)
    requires TaskIdsDistinct(tasks)
    requires j < |tasks| && i < |rs| && InRange(rs[i]) && Eligible(rs[i], tasks[j], geo)
    ensures var m := BatchAssignments(rs, tasks, geo);
      || (exists w :: && 0 <= w < |rs| && m[tasks[j].id] == Some(rs[w].id)
                      && Eligible(rs[w], tasks[j], geo)
                      && BidOf(rs[i], tasks[j], geo).value.value <= BidOf(rs[w], tasks[j], geo).value.value)
      || (exists k :: && 0 <= k < |tasks| && m[tasks[k].id] == Some(rs[i].id)
                      && Eligible(rs[i], tasks[k], geo)
                      && BidOf(rs[i], tasks[j], geo).value.value <= BidOf(rs[i], tasks[k], geo).value.value)
  {
    var g := MatchBatch(rs, tasks, geo);
    MatchBatchEligible(rs, tasks, geo);
    CostReflectsBid(rs[i], tasks[j], geo);
    MatchBatchCovers(rs, tasks, geo, j, i);
    if j in g.byTask && g.byTask[j].cost <= Cost(rs[i], tasks[j], geo) {
      var w := g.byTask[j].robot;
      CostReflectsBid(rs[w], tasks[j], geo);
    } else {
      var k := g.byRobot[i].task;
      assert g.byTask[k] == g.byRobot[i];
      CostReflectsBid(rs[i], tasks[k], geo);
    }
  }

  /** The matched rows number at most the rows; with every robot in range the
      reported total cost lies between zero and the number of tasks assigned. */
  lemma {:induction false} MatchedCostBounds(rs: seq<Robot>, tasks: seq<Task>, geo: Geo, g: Greedy, n: nat)
    requires MatchesMatrix(g, rs, tasks, geo)
    requires forall i :: 0 <= i < |rs| ==> InRange(rs[i])
    ensures 0.0 <= MatchedCost(g, n) <= AssignedCount(g, n) as real
  {
    if n > 0 {
      MatchedCostBounds(rs, tasks, geo, g, n - 1);
      if n - 1 in g.byTask {
        CostReflectsBid(rs[g.byTask[n - 1].robot], tasks[n - 1], geo);
      }
    }
  }

  lemma HungarianCostBounds(rs: seq<Robot>, tasks: seq<Task>, geo: Geo)
    requires TaskIdsDistinct(tasks)
    requires forall i :: 0 <= i < |rs| ==> InRange(rs[i])
    ensures var b := HungarianAssignment(rs, tasks, geo);
      0.0 <= b.totalCost <= b.tasksAssigned as real && b.tasksAssigned <= |tasks|
  {
    var b := HungarianAssignment(rs, tasks, geo);
    MatchedCostBounds(rs, tasks, geo, b.matching, |tasks|);
  }

  /** The open tasks of the pool, in pool order. */
  function OpenTasks(pool: seq<Task>): (open: seq<Task>)
    ensures |open| == Count(pool, IsOpen)
    ensures forall k :: 0 <= k < |open| ==> IsOpen(open[k])
  {
    if |pool| == 0 then []
    else OpenTasks(pool[..|pool| - 1]) + (if IsOpen(pool[|pool| - 1]) then [pool[|pool| - 1]] else [])
  }

  /** Puts the updated open tasks back in their places in the pool; the batch
      works on the pool's own task records, so this is where its changes land. */
  function WriteBack(pool: seq<Task>, upd: seq<Task>): (out: seq<Task>)
    requires |upd| == Count(pool, IsOpen)
    ensures |out| == |pool|
    ensures forall j :: 0 <= j < |pool| && !IsOpen(pool[j]) ==> out[j] == pool[j]
  {
    if |pool| == 0 then []
    else
      var n := |pool| - 1;
      if IsOpen(pool[n]) then WriteBack(pool[..n], upd[..|upd| - 1]) + [upd[|upd| - 1]]
      else WriteBack(pool[..n], upd) + [pool[n]]
  }

  /** Writing back trades the open tasks' contribution to any count for the
      updated tasks'. */
  lemma {:induction false} WriteBackCounts(pool: seq<Task>, upd: seq<Task>, p: Task -> bool)
    requires |upd| == Count(pool, IsOpen)
    ensures Count(WriteBack(pool, upd), p) + Count(OpenTasks(pool), p)
         == Count(pool, p) + Count(upd, p)
  {
    if |pool| > 0 {
      var n := |pool| - 1;
      var prefix, last := pool[..n], pool[n];
      OpenCountSplit(pool, upd, prefix, last);
      if IsOpen(last) {
        var u, x := upd[..|upd| - 1], upd[|upd| - 1];
        WriteBackCounts(prefix, u, p);
        WriteBackStepOpen(pool, upd, prefix, last, u, x, p);
      } else {
        WriteBackCounts(prefix, upd, p);
        WriteBackStepKept(pool, upd, prefix, last, p);
      }
    }
  }

  /** The updated tasks for a pool split into its prefix and last task. */
  lemma OpenCountSplit(pool: seq<Task>, upd: seq<Task>, prefix: seq<Task>, last: Task)
    requires |pool| > 0 && prefix == pool[..|pool| - 1] && last == pool[|pool| - 1]
    requires |upd| == Count(pool, IsOpen)
    ensures pool == prefix + [last]
    ensures IsOpen(last) ==>
      && |upd| > 0 && |upd[..|upd| - 1]| == Count(prefix, IsOpen)
      && upd == upd[..|upd| - 1] + [upd[|upd| - 1]]
    ensures !IsOpen(last) ==> |upd| == Count(prefix, IsOpen)
  {
  }

  /** The step of WriteBackCounts for a pool ending in an open task, which
      takes the last updated task. */
  lemma WriteBackStepOpen(pool: seq<Task>, upd: seq<Task>, prefix: seq<Task>, last: Task,
                          u: seq<Task>, x: Task, p: Task -> bool)
    requires pool == prefix + [last] && IsOpen(last) && upd == u + [x]
    requires |upd| == Count(pool, IsOpen) && |u| == Count(prefix, IsOpen)
    requires Count(WriteBack(prefix, u), p) + Count(OpenTasks(prefix), p) == Count(prefix, p) + Count(u, p)
    ensures Count(WriteBack(pool, upd), p) + Count(OpenTasks(pool), p)
         == Count(pool, p) + Count(upd, p)
  {
    assert pool[..|pool| - 1] == prefix && upd[..|upd| - 1] == u;
    assert WriteBack(pool, upd) == WriteBack(prefix, u) + [x];
    assert OpenTasks(pool) == OpenTasks(prefix) + [last];
    CountSnoc(prefix, last, p);
    CountSnoc(u, x, p);
    CountSnoc(WriteBack(prefix, u), x, p);
    CountSnoc(OpenTasks(prefix), last, p);
  }

  /** The step of WriteBackCounts for a pool ending in a task that is not
      open, which stays as it is. */
  lemma WriteBackStepKept(pool: seq<Task>, upd: seq<Task>, prefix: seq<Task>, last: Task, p: Task -> bool)
    requires pool == prefix + [last] && !IsOpen(last)
    requires |upd| == Count(pool, IsOpen) && |upd| == Count(prefix, IsOpen)
    requires Count(WriteBack(prefix, upd), p) + Count(OpenTasks(prefix), p) == Count(prefix, p) + Count(upd, p)
    ensures Count(WriteBack(pool, upd), p) + Count(OpenTasks(pool), p)
         == Count(pool, p) + Count(upd, p)
  {
    assert pool[..|pool| - 1] == prefix;
    assert WriteBack(pool, upd) == WriteBack(prefix, upd) + [last];
    assert OpenTasks(pool) == OpenTasks(prefix);
    CountSnoc(prefix, last, p);
    CountSnoc(WriteBack(prefix, upd), last, p);
  }

  /** A list of open tasks whose matched entries became allocated: allocated
      ones number the matched rows, open ones the rest. */
  lemma {:induction false} BatchCountsUpTo(tasks: seq<Task>, out: seq<Task>, g: Greedy, k: nat)
    requires k <= |tasks| == |out|
    requires forall j :: 0 <= j < |tasks| ==> IsOpen(tasks[j])
    requires forall j :: 0 <= j < |tasks| && j in g.byTask ==> IsAllocated(out[j])
    requires forall j :: 0 <= j < |tasks| && j !in g.byTask ==> out[j] == tasks[j]
    ensures Count(out[..k], IsAllocated) == AssignedCount(g, k)
    ensures Count(out[..k], IsOpen) == k - AssignedCount(g, k)
  {
    if k > 0 {
      BatchCountsUpTo(tasks, out, g, k - 1);
      assert out[..k] == out[..k - 1] + [out[k - 1]];
      CountSnoc(out[..k - 1], out[k - 1], IsAllocated);
      CountSnoc(out[..k - 1], out[k - 1], IsOpen);
    }
  }

  lemma {:induction false} AllOpenCounts(ts: seq<Task>)
    requires forall j :: 0 <= j < |ts| ==> IsOpen(ts[j])
    ensures Count(ts, IsAllocated) == 0 && Count(ts, IsOpen) == |ts|
  {
    if |ts| > 0 {
      AllOpenCounts(ts[..|ts| - 1]);
    }
  }

  /** Applying a matching to a list of open tasks allocates exactly the
      matched ones. */
  lemma ApplyCounts(rs: seq<Robot>, tasks: seq<Task>, g: Greedy, geo: Geo)
    requires MatchesMatrix(g, rs, tasks, geo)
    requires forall j :: 0 <= j < |tasks| ==> IsOpen(tasks[j])
    ensures Count(ApplyToTasks(rs, tasks, g, geo), IsAllocated) == AssignedCount(g, |tasks|)
    ensures Count(ApplyToTasks(rs, tasks, g, geo), IsOpen) == |tasks| - AssignedCount(g, |tasks|)
  {
    var out := ApplyToTasks(rs, tasks, g, geo);
    BatchCountsUpTo(tasks, out, g, |tasks|);
    assert out[..|tasks|] == out;
  }

  /** A batch over the open tasks of the pool, written back, allocates as many
      pool tasks as it reports assigned. */
  lemma BatchPoolCounts(rs: seq<Robot>, pool: seq<Task>, geo: Geo)
    requires TaskIdsDistinct(OpenTasks(pool))
    ensures var b := HungarianAssignment(rs, OpenTasks(pool), geo);
      && Count(WriteBack(pool, b.tasks), IsAllocated) == Count(pool, IsAllocated) + b.tasksAssigned
      && Count(WriteBack(pool, b.tasks), IsOpen) == Count(pool, IsOpen) - b.tasksAssigned
  {
    var open := OpenTasks(pool);
    var g := MatchBatch(rs, open, geo);
    MatchBatchEligible(rs, open, geo);
    var upd := ApplyToTasks(rs, open, g, geo);
    ApplyCounts(rs, open, g, geo);
    AllOpenCounts(open);
    WriteBackCounts(pool, upd, IsAllocated);
    WriteBackCounts(pool, upd, IsOpen);
    assert HungarianAssignment(rs, open, geo).tasks == upd;
  }

  /** The allocation method named by the caller; any other name is invalid. */
  datatype Method = ByAuction | ByHungarian | Unknown(name: string)

  datatype AllocationReport =
    | NoOpenTasks
    | InvalidMethod
    | Allocation(via: Method, success: bool, tasksProcessed: nat, tasksAllocated: nat, tasksFailed: nat)

  /** Auction mode: one auction per open task; the report counts the won
      auctions as allocated and the unbid ones as failed, and the pool's
      statuses move by the won count. */
  function AllocateByAuction(d: Distributor, geo: Geo): (out: (Distributor, AllocationReport))
    ensures var x := AuctionPool(d.robots, d.pool, geo);
      && out.0 == Distributor(x.robots, x.pool, d.tasksAllocated + x.won)
      && out.1 == Allocation(ByAuction, x.won > 0, Count(d.pool, IsOpen), x.won, x.unbid)
      && Count(out.0.pool, IsAllocated) == Count(d.pool, IsAllocated) + x.won
      && Count(out.0.pool, IsOpen) == Count(d.pool, IsOpen) - x.won
  {
    var x := AuctionPool(d.robots, d.pool, geo);
    AuctionPoolCounts(d.robots, d.pool, geo);
    (Distributor(x.robots, x.pool, d.tasksAllocated + x.won),
     Allocation(ByAuction, x.won > 0, Count(d.pool, IsOpen), x.won, x.unbid))
  }

  /** Batch mode: one batch over the open tasks, written back into the pool;
      the report counts the tasks the batch assigned as allocated and the
      other open tasks as failed. */
  function AllocateByBatch(d: Distributor, geo: Geo): (out: (Distributor, AllocationReport))
    requires TaskIdsDistinct(OpenTasks(d.pool))
  {
    var k := Count(d.pool, IsOpen);
    var b := HungarianAssignment(d.robots, OpenTasks(d.pool), geo);
    BatchPoolCounts(d.robots, d.pool, geo);
    assert b.tasksAssigned <= k;
    (Distributor(b.robots, WriteBack(d.pool, b.tasks), d.tasksAllocated + b.tasksAssigned),
     Allocation(ByHungarian, b.tasksAssigned > 0, k, b.tasksAssigned, k - b.tasksAssigned))
  }

  /** Batch mode as written: the batch is one result and it always succeeds,
      so the report counts one allocation and no failure whatever the batch
      assigned. */
  function AllocateTasksAsWritten(d: Distributor, m: Method, geo: Geo): (out: (Distributor, AllocationReport))
    requires m.ByHungarian? ==> TaskIdsDistinct(OpenTasks(d.pool))
    ensures out.1.NoOpenTasks? <==> Count(d.pool, IsOpen) == 0
    ensures m.ByHungarian? && Count(d.pool, IsOpen) > 0 ==>
      out.1 == Allocation(ByHungarian, true, Count(d.pool, IsOpen), 1, 0)
    ensures m.ByAuction? && Count(d.pool, IsOpen) > 0 ==>
      var x := AuctionPool(d.robots, d.pool, geo);
      && out.0 == Distributor(x.robots, x.pool, d.tasksAllocated + x.won)
      && out.1 == Allocation(ByAuction, x.won > 0, Count(d.pool, IsOpen), x.won, x.unbid)
  {
    var open := OpenTasks(d.pool);
    if |open| == 0 then (d, NoOpenTasks)
    else match m
      case ByAuction => AllocateByAuction(d, geo)
      case ByHungarian =>
        var b := HungarianAssignment(d.robots, open, geo);
        (Distributor(b.robots, WriteBack(d.pool, b.tasks), d.tasksAllocated + b.tasksAssigned),
         Allocation(ByHungarian, true, |open|, 1, 0))
      case Unknown(_) => (d, InvalidMethod)
  }

  /** With no robots a batch over one open task assigns nothing, yet the
      report as written counts one task allocated and none failed. */
  lemma AsWrittenOvercounts(t: Task, geo: Geo)
    requires IsOpen(t)
    ensures var d := Distributor([], [t], 0);
      var out := AllocateTasksAsWritten(d, ByHungarian, geo);
      && out.1.Allocation? && out.1.tasksAllocated == 1 && out.1.tasksFailed == 0
      && out.0.tasksAllocated == 0
      && Count(out.0.pool, IsAllocated) == 0
  {
    var d := Distributor([], [t], 0);
    SingleOpenTask(t);
    assert OpenTasks(d.pool) == [t];
    EmptyBatchAssignsNothing([t], geo);
    AsWrittenBatchCounts(d, geo);
  }

  /** As written, a batch reports one task allocated and none failed, while the
      counter and the pool move by the number the batch really assigned. */
  lemma AsWrittenBatchCounts(d: Distributor, geo: Geo)
    requires TaskIdsDistinct(OpenTasks(d.pool)) && Count(d.pool, IsOpen) > 0
    ensures var out := AllocateTasksAsWritten(d, ByHungarian, geo);
      var b := HungarianAssignment(d.robots, OpenTasks(d.pool), geo);
      && out.1 == Allocation(ByHungarian, true, Count(d.pool, IsOpen), 1, 0)
      && out.0.tasksAllocated == d.tasksAllocated + b.tasksAssigned
      && Count(out.0.pool, IsAllocated) == Count(d.pool, IsAllocated) + b.tasksAssigned
  {
    AsWrittenBatchState(d, geo);
    BatchPoolCounts(d.robots, d.pool, geo);
  }

  /** A pool holding one open task has that task as its only open one. */
  lemma SingleOpenTask(t: Task)
    requires IsOpen(t)
    ensures OpenTasks([t]) == [t] && TaskIdsDistinct([t])
    ensures Count([t], IsAllocated) == 0
  {
    assert [t][..0] == [];
  }

  /** Without robots a batch assigns no task. */
  lemma EmptyBatchAssignsNothing(tasks: seq<Task>, geo: Geo)
    requires TaskIdsDistinct(tasks)
    ensures HungarianAssignment([], tasks, geo).tasksAssigned == 0
  {
    var g := MatchBatch([], tasks, geo);
    EmptyFleetMatchesNothing(tasks, geo);
    NothingAssigned(g, |tasks|);
  }

  lemma {:induction false} NothingAssigned(g: Greedy, n: nat)
    requires g.byTask == map[]
    ensures AssignedCount(g, n) == 0
  {
    if n > 0 {
      NothingAssigned(g, n - 1);
    }
  }

  /** In batch mode the state as written is the batch written back. */
  lemma AsWrittenBatchState(d: Distributor, geo: Geo)
    requires TaskIdsDistinct(OpenTasks(d.pool)) && Count(d.pool, IsOpen) > 0
    ensures var b := HungarianAssignment(d.robots, OpenTasks(d.pool), geo);
      AllocateTasksAsWritten(d, ByHungarian, geo).0
        == Distributor(b.robots, WriteBack(d.pool, b.tasks), d.tasksAllocated + b.tasksAssigned)
  {
  }

  /** Without robots the matcher pairs no task. */
  lemma EmptyFleetMatchesNothing(tasks: seq<Task>, geo: Geo)
    ensures MatchBatch([], tasks, geo).byTask == map[]
  {
    var g := MatchBatch([], tasks, geo);
    MatchBatchEligible([], tasks, geo);
    if j :| j in g.byTask {
      assert false;
    }
  }

  /** Allocates every open task of the pool with the chosen method.  Without
      open tasks nothing happens (whatever the method); an unknown method
      changes nothing.  The report counts the tasks actually allocated, which
      the running counter and the pool's statuses agree with. */
  function AllocateTasks(d: Distributor, m: Method, geo: Geo): (out: (Distributor, AllocationReport))
    requires m.ByHungarian? ==> TaskIdsDistinct(OpenTasks(d.pool))
    ensures out.1.NoOpenTasks? <==> Count(d.pool, IsOpen) == 0
    ensures out.1.InvalidMethod? <==> Count(d.pool, IsOpen) > 0 && m.Unknown?
    ensures out.1.NoOpenTasks? || out.1.InvalidMethod? ==> out.0 == d
    ensures out.1.Allocation? ==>
      var r := out.1;
      && r.via == m
      && r.tasksProcessed == Count(d.pool, IsOpen)
      && r.tasksAllocated + r.tasksFailed == r.tasksProcessed
      && (r.success <==> r.tasksAllocated > 0)
      && out.0.tasksAllocated == d.tasksAllocated + r.tasksAllocated
      && Count(out.0.pool, IsAllocated) == Count(d.pool, IsAllocated) + r.tasksAllocated
      && Count(out.0.pool, IsOpen) == Count(d.pool, IsOpen) - r.tasksAllocated
      && |out.0.robots| == |d.robots| && |out.0.pool| == |d.pool|
      && (forall j :: 0 <= j < |d.pool| && !IsOpen(d.pool[j]) ==> out.0.pool[j] == d.pool[j])
  {
    var open := OpenTasks(d.pool);
    if |open| == 0 then (d, NoOpenTasks)
    else match m
      case ByAuction => AllocateByAuction(d, geo)
      case ByHungarian =>
        BatchPoolCounts(d.robots, d.pool, geo);
        AllocateByBatch(d, geo)
      case Unknown(_) => (d, InvalidMethod)
  }

  /** Each mode hands the pool to its allocator: auction mode leaves the fleet
      and pool the auctions of the open tasks leave, counting the won ones;
      batch mode leaves the batch's fleet and the pool with the batch's tasks
      written back, counting the tasks the batch assigned. */
  lemma AllocateTasksRunsAllocator(d: Distributor, m: Method, geo: Geo)
    requires m.ByHungarian? ==> TaskIdsDistinct(OpenTasks(d.pool))
    ensures m.ByAuction? && Count(d.pool, IsOpen) > 0 ==>
      var out := AllocateTasks(d, m, geo);
      var x := AuctionPool(d.robots, d.pool, geo);
      && out.0 == Distributor(x.robots, x.pool, d.tasksAllocated + x.won)
      && out.1.tasksAllocated == x.won && out.1.tasksFailed == x.unbid
    ensures m.ByHungarian? && Count(d.pool, IsOpen) > 0 ==>
      var out := AllocateTasks(d, m, geo);
      var b := HungarianAssignment(d.robots, OpenTasks(d.pool), geo);
      && out.0 == Distributor(b.robots, WriteBack(d.pool, b.tasks), d.tasksAllocated + b.tasksAssigned)
      && out.1.tasksAllocated == b.tasksAssigned
  {
  }

  /** An idle robot has no task; a busy one has done less than 80 percent of
      it; an overloaded one has done 80 percent or more. */
  predicate IdleRobot(r: Robot) { r.assignment.None? }
  predicate BusyRobot(r: Robot) { r.assignment.Some? && r.assignment.value.progress < 80.0 }
  predicate OverloadedRobot(r: Robot) { r.assignment.Some? && r.assignment.value.progress >= 80.0 }

  datatype Workload = Workload(idle: nat, working: nat, overloaded: nat)

  /** The fleet split by workload: every robot falls in exactly one class. */
  function CountWorkload(rs: seq<Robot>): (w: Workload)
    ensures w.idle == Count(rs, IdleRobot)
    ensures w.working == Count(rs, BusyRobot)
    ensures w.overloaded == Count(rs, OverloadedRobot)
    ensures w.idle + w.working + w.overloaded == |rs|
  {
    if |rs| == 0 then Workload(0, 0, 0)
    else
      var w := CountWorkload(rs[..|rs| - 1]);
      var r := rs[|rs| - 1];
      if IdleRobot(r) then w.(idle := w.idle + 1)
      else if BusyRobot(r) then w.(working := w.working + 1)
      else w.(overloaded := w.overloaded + 1)
  }

  datatype UtilizationLevel = Optimal | Good | Underutilized

  /** Priority weights for the average: low 1, medium 2, high 3, anything else 1. */
  function PriorityWeight(p: Priority): real {
    match p
    case Low => 1.0
    case Medium => 2.0
    case High => 3.0
    case OtherPriority(_) => 1.0
  }

  function PriorityWeights(pool: seq<Task>): (ws: seq<real>)
    ensures |ws| == |pool| && forall j :: 0 <= j < |pool| ==> ws[j] == PriorityWeight(pool[j].priority)
  {
    seq(|pool|, j requires 0 <= j < |pool| => PriorityWeight(pool[j].priority))
  }

  /** Number of tasks of the pool in the given status. */
  function StatusCount(pool: seq<Task>, status: string): nat {
    if |pool| == 0 then 0
    else StatusCount(pool[..|pool| - 1], status) + (if pool[|pool| - 1].status == status then 1 else 0)
  }

  /** A status nobody has counts zero. */
  lemma {:induction false} StatusAbsent(pool: seq<Task>, status: string)
    requires status !in Statuses(pool)
    ensures StatusCount(pool, status) == 0
  {
    if |pool| > 0 {
      var n := |pool| - 1;
      assert Statuses(pool[..n]) == Statuses(pool)[..n];
      StatusAbsent(pool[..n], status);
    }
  }

  function Statuses(pool: seq<Task>): (ss: seq<string>)
    ensures |ss| == |pool| && forall j :: 0 <= j < |pool| ==> ss[j] == pool[j].status
  {
    seq(|pool|, j requires 0 <= j < |pool| => pool[j].status)
  }

  /** The status histogram, built one task at a time: one entry per status
      present in the pool, holding how many tasks are in it. */
  function StatusDistribution(pool: seq<Task>): (m: map<string, nat>)
    ensures forall s :: s in m <==> s in Statuses(pool)
    ensures forall s :: s in m ==> m[s] == StatusCount(pool, s) && m[s] >= 1
  {
    if |pool| == 0 then map[]
    else
      var n := |pool| - 1;
      var prev := StatusDistribution(pool[..n]);
      var s := pool[n].status;
      assert Statuses(pool) == Statuses(pool[..n]) + [s];
      if s in prev then prev[s := prev[s] + 1]
      else
        StatusAbsent(pool[..n], s);
        prev[s := 1]
  }

  /** Dividing a total that lies between n·lo and n·hi by n lands in [lo, hi]. */
  lemma MeanBounds(total: real, n: nat, lo: real, hi: real)
    requires n as real * lo <= total <= n as real * hi
    ensures n > 0 ==> lo <= total / n as real <= hi && (total / n as real) * n as real == total
  {
    if n > 0 {
      var q := total / n as real;
      assert total == q * n as real;
    }
  }

  /** Share of the fleet with a task; zero for an empty fleet. */
  function Utilization(w: Workload, n: nat): (u: real)
    requires w.idle + w.working + w.overloaded == n
    ensures 0.0 <= u <= 1.0
    ensures u * n as real + w.idle as real == n as real || n == 0
    ensures n == 0 ==> u == 0.0
  {
    MeanBounds((w.working + w.overloaded) as real, n, 0.0, 1.0);
    if n > 0 then (w.working + w.overloaded) as real / n as real else 0.0
  }

  /** Mean priority weight of the pool; zero for an empty pool. */
  function AveragePriority(pool: seq<Task>): (avg: real)
    ensures |pool| > 0 ==> 1.0 <= avg <= 3.0
    ensures avg * |pool| as real == Sum(PriorityWeights(pool))
    ensures |pool| == 0 ==> avg == 0.0
  {
    var ws := PriorityWeights(pool);
    SumBounds(ws, 1.0, 3.0);
    MeanBounds(Sum(ws), |pool|, 1.0, 3.0);
    if |pool| > 0 then Sum(ws) / |pool| as real else 0.0
  }

  datatype AllocationStatistics = AllocationStatistics(
    totalTasks: nat,
    statusDistribution: map<string, nat>,
    totalRobots: nat,
    workload: Workload,
    utilization: real,          // a fraction; reported in percent
    tasksAllocatedTotal: nat,
    averagePriority: real,
    level: UtilizationLevel)

  /** The allocation statistics: the share of robots with a task, graded
      optimal above 0.7 and good above 0.5, and the mean priority weight. */
  function GetAllocationStatistics(d: Distributor): (st: AllocationStatistics)
    ensures st.totalTasks == |d.pool| && st.totalRobots == |d.robots|
    ensures st.workload.idle + st.workload.working + st.workload.overloaded == |d.robots|
    ensures 0.0 <= st.utilization <= 1.0
    ensures |d.robots| == 0 ==> st.utilization == 0.0
    ensures st.level == Optimal <==> st.utilization > 0.7
    ensures st.level == Good <==> 0.5 < st.utilization <= 0.7
    ensures st.level == Underutilized <==> st.utilization <= 0.5
    ensures |d.pool| > 0 ==> 1.0 <= st.averagePriority <= 3.0
    ensures |d.pool| == 0 ==> st.averagePriority == 0.0
    ensures forall s :: s in st.statusDistribution <==> s in Statuses(d.pool)
    ensures st.statusDistribution == StatusDistribution(d.pool)
    ensures st.averagePriority == AveragePriority(d.pool)
    ensures st.tasksAllocatedTotal == d.tasksAllocated
    ensures st.workload == CountWorkload(d.robots) && st.utilization == Utilization(st.workload, |d.robots|)
  {
    var w := CountWorkload(d.robots);
    var u := Utilization(w, |d.robots|);
    var level := if u > 0.7 then Optimal else if u > 0.5 then Good else Underutilized;
    AllocationStatistics(|d.pool|, StatusDistribution(d.pool), |d.robots|, w, u, d.tasksAllocated,
                         AveragePriority(d.pool), level)
  }
}

=== FILE: flocking.dfy ===
/** One flocking update of a formation: each connected member with formation
    neighbours turns half-way towards its combined separation and cohesion
    force and half-way towards its neighbours' mean heading.  The forces and
    the two directions come from trigonometry outside the model and are
    supplied by a steering oracle. */
module Flocking {
  import opened Swarm
  import opened Angles
  import opened Formation
  import opened FormationQuality

  /** The Reynolds-rule outputs for one robot: separation and cohesion force
      components, the direction of their sum, and the circular mean of the
      neighbours' headings, all in degrees where they are angles. */
  datatype Forces = Forces(separationX: real, separationY: real,
                           cohesionX: real, cohesionY: real,
                           forceHeading: real, meanHeading: real)

  /** What the trigonometry makes of a robot and its formation neighbours. */
  type Steering = (Robot, seq<Neighbour>) -> Forces

  const AlignmentWeight: real := 1.0
  /** A force component must exceed this to steer the robot. */
  const ForceThreshold: real := 0.01

  function Abs(x: real): real {
    if x >= 0.0 then x else -x
  }

  /** The summed force is large enough, in either component, to steer by. */
  predicate Steers(f: Forces) {
    Abs(f.separationX + f.cohesionX) > ForceThreshold || Abs(f.separationY + f.cohesionY) > ForceThreshold
  }

  /** Half the shortest turn towards the force plus half the weighted shortest
      turn towards the neighbours' mean heading: never more than half a circle. */
  function Blend(h: real, f: Forces): (t: real)
    ensures -180.0 <= t <= 180.0
  {
    AngleDifference(h, f.forceHeading) * 0.5 + AngleDifference(h, f.meanHeading) * AlignmentWeight * 0.5
  }

  /** The heading after one update: turned by the blend and wrapped into
      [0, 360) when the force steers, and left exactly as it was otherwise. */
  function NewHeading(h: real, f: Forces): (h': real)
    ensures Steers(f) ==> 0.0 <= h' < 360.0
    ensures !Steers(f) ==> h' == h
  {
    if Steers(f) then Wrap360(h + Blend(h, f)) else h
  }

  /** A steered heading names the old heading turned by the blend. */
  lemma SteeredHeadingTurns(h: real, f: Forces)
    requires Steers(f)
    ensures SameDirection(NewHeading(h, f), h + Blend(h, f))
  {
    Wrap360Turns(h + Blend(h, f));
  }

  /** A robot already pointing along both the force and its neighbours' mean
      heading keeps its heading. */
  lemma SteadyWhenAligned(h: real, f: Forces)
    requires 0.0 <= h < 360.0
    requires SameDirection(f.forceHeading, h) && SameDirection(f.meanHeading, h)
    ensures NewHeading(h, f) == h
  {
    var k: int :| f.forceHeading == h + Turns(k);
    assert 0.0 == f.forceHeading - h + Turns(-k);
    AngleDifferenceUnique(h, f.forceHeading, 0.0);
    var j: int :| f.meanHeading == h + Turns(j);
    assert 0.0 == f.meanHeading - h + Turns(-j);
    AngleDifferenceUnique(h, f.meanHeading, 0.0);
    Wrap360Idempotent(h);
  }

  /** One entry of the update report. */
  datatype Update = Update(robotId: RobotId, neighboursCount: nat, newHeading: real)

  /** Updates the member at fleet position k against the current fleet: a
      member without formation neighbours is skipped; any other gets its new
      heading and an entry in the report. */
  function SteerMember(rs: seq<Robot>, k: nat, fid: string, dist: Distance, steer: Steering)
    : (out: (seq<Robot>, Option<Update>))
    requires k < |rs|
    ensures |out.0| == |rs|
    ensures forall i :: 0 <= i < |rs| && i != k ==> out.0[i] == rs[i]
    ensures SameButHeading(rs[k], out.0[k])
    ensures out.1.None? <==> |Flockmates(rs, rs[k], fid, dist)| == 0
    ensures out.1.None? ==> out.0 == rs
    ensures out.1.Some? ==> out.1.value.robotId == rs[k].id && out.0[k].heading == out.1.value.newHeading
    ensures out.1.Some? ==>
      var mates := Flockmates(rs, rs[k], fid, dist);
      && out.1.value.neighboursCount == |mates|
      && out.1.value.newHeading == NewHeading(rs[k].heading, steer(rs[k], mates))
    ensures out.0[k].heading == rs[k].heading || 0.0 <= out.0[k].heading < 360.0
  {
    var mates := Flockmates(rs, rs[k], fid, dist);
    if |mates| == 0 then (rs, None)
    else
      var h := NewHeading(rs[k].heading, steer(rs[k], mates));
      (rs[k := rs[k].(heading := h)], Some(Update(rs[k].id, |mates|, h)))
  }

  /** Members of ks that have a formation neighbour. */
  ghost function WithFlockmates(rs: seq<Robot>, ks: seq<nat>, fid: string, dist: Distance): (n: nat)
    requires forall i :: 0 <= i < |ks| ==> ks[i] < |rs|
    ensures n <= |ks|
  {
    if |ks| == 0 then 0
    else
      WithFlockmates(rs, ks[..|ks| - 1], fid, dist) +
      (if HasFlockmate(rs, rs[ks[|ks| - 1]], fid, dist) then 1 else 0)
  }

  /** The fold's invariant: every record of cur differs from the original at
      most in its heading, a robot without formation neighbours keeps its
      heading, and a changed heading lies in [0, 360). */
  ghost predicate Keeps(rs: seq<Robot>, cur: seq<Robot>, fid: string, dist: Distance) {
    && |cur| == |rs|
    && (forall i :: 0 <= i < |rs| ==> SameButHeading(rs[i], cur[i]))
    && (forall i :: 0 <= i < |rs| && !HasFlockmate(rs, rs[i], fid, dist) ==> cur[i] == rs[i])
    && (forall i :: 0 <= i < |rs| ==> cur[i].heading == rs[i].heading || 0.0 <= cur[i].heading < 360.0)
  }

  /** Steering the member at k against the original fleet's neighbourhood
      reports it exactly when it has a formation neighbour. */
  lemma StepReports(rs: seq<Robot>, cur: seq<Robot>, k: nat, fid: string, dist: Distance, steer: Steering)
    requires k < |rs| && Keeps(rs, cur, fid, dist)
    ensures SteerMember(cur, k, fid, dist, steer).1.Some? <==> HasFlockmate(rs, rs[k], fid, dist)
  {
    FlockmatesIff(cur, cur[k], fid, dist);
    HasFlockmateIgnoresHeadings(rs, cur, rs[k], cur[k], fid, dist);
  }

  /** One step of the fold keeps the fold's invariant. */
  lemma StepKeeps(rs: seq<Robot>, cur: seq<Robot>, k: nat, fid: string, dist: Distance, steer: Steering)
    requires k < |rs| && Keeps(rs, cur, fid, dist)
    ensures Keeps(rs, SteerMember(cur, k, fid, dist, steer).0, fid, dist)
  {
    var step := SteerMember(cur, k, fid, dist, steer);
    StepReports(rs, cur, k, fid, dist, steer);
    assert SameButHeading(rs[k], step.0[k]);
    assert forall i :: 0 <= i < |rs| && i != k ==> step.0[i] == cur[i];
  }

  datatype Flocked = Flocked(robots: seq<Robot>, updates: seq<Update>)

  /** Updates the members at fleet positions ks one after another, each
      against the fleet as the earlier updates left it. */
  function Flock(rs: seq<Robot>, ks: seq<nat>, fid: string, dist: Distance, steer: Steering)
    : (out: Flocked)
    requires forall i :: 0 <= i < |ks| ==> ks[i] < |rs|
    ensures |out.robots| == |rs|
    ensures Keeps(rs, out.robots, fid, dist)
  {
    if |ks| == 0 then Flocked(rs, [])
    else
      var prev := Flock(rs, ks[..|ks| - 1], fid, dist, steer);
      var k := ks[|ks| - 1];
      var step := SteerMember(prev.robots, k, fid, dist, steer);
      StepKeeps(rs, prev.robots, k, fid, dist, steer);
      Flocked(step.0, prev.updates + (if step.1.Some? then [step.1.value] else []))
  }

  /** Only the positions in ks are touched. */
  lemma {:induction false} FlockTouchesOnlyMembers(rs: seq<Robot>, ks: seq<nat>, fid: string,
                                                   dist: Distance, steer: Steering)
    requires forall i :: 0 <= i < |ks| ==> ks[i] < |rs|
    ensures forall i :: 0 <= i < |rs| && i !in ks ==> Flock(rs, ks, fid, dist, steer).robots[i] == rs[i]
  {
    if |ks| > 0 {
      var p := ks[..|ks| - 1];
      FlockTouchesOnlyMembers(rs, p, fid, dist, steer);
      assert forall i :: i !in ks ==> i !in p && i != ks[|ks| - 1];
    }
  }

  /** Steps after the m-th leave alone every position they do not name, and
      only add to the report. */
  lemma {:induction false} FlockLaterSteps(rs: seq<Robot>, ks: seq<nat>, fid: string, dist: Distance,
                                           steer: Steering, m: nat, i: nat)
    requires forall j :: 0 <= j < |ks| ==> ks[j] < |rs|
    requires m <= |ks| && i < |rs| && i !in ks[m..]
    ensures var before := Flock(rs, ks[..m], fid, dist, steer);
      var after := Flock(rs, ks, fid, dist, steer);
      after.robots[i] == before.robots[i] && before.updates <= after.updates
  {
    if m < |ks| {
      var p := ks[..|ks| - 1];
      assert p[..m] == ks[..m];
      assert forall x :: x in p[m..] ==> x in ks[m..];
      FlockLaterSteps(rs, p, fid, dist, steer, m, i);
      assert ks[|ks| - 1] in ks[m..];
    } else {
      assert ks[..m] == ks;
    }
  }

  /** The fold over the first n + 1 positions is one step after the fold over
      the first n. */
  lemma FlockStep(rs: seq<Robot>, ks: seq<nat>, fid: string, dist: Distance, steer: Steering, n: nat)
    requires forall j :: 0 <= j < |ks| ==> ks[j] < |rs|
    requires n < |ks|
    ensures var prev := Flock(rs, ks[..n], fid, dist, steer);
      var step := SteerMember(prev.robots, ks[n], fid, dist, steer);
      Flock(rs, ks[..n + 1], fid, dist, steer)
        == Flocked(step.0, prev.updates + (if step.1.Some? then [step.1.value] else []))
  {
    assert ks[..n + 1][..n] == ks[..n];
  }

  /** The n-th step's result survives the rest of the fold: the record it
      wrote stays, and its report entry is kept. */
  lemma StepSurvives(rs: seq<Robot>, ks: seq<nat>, fid: string, dist: Distance, steer: Steering, n: nat)
    requires forall j :: 0 <= j < |ks| ==> ks[j] < |rs|
    requires forall i, j :: 0 <= i < j < |ks| ==> ks[i] != ks[j]
    requires n < |ks|
    ensures var step := SteerMember(Flock(rs, ks[..n], fid, dist, steer).robots, ks[n], fid, dist, steer);
      var after := Flock(rs, ks, fid, dist, steer);
      && after.robots[ks[n]] == step.0[ks[n]]
      && (step.1.Some? ==> step.1.value in after.updates)
  {
    var prev := Flock(rs, ks[..n], fid, dist, steer);
    var step := SteerMember(prev.robots, ks[n], fid, dist, steer);
    var st := Flock(rs, ks[..n + 1], fid, dist, steer);
    var after := Flock(rs, ks, fid, dist, steer);
    FlockStep(rs, ks, fid, dist, steer, n);
    assert ks[n] !in ks[n + 1..];
    FlockLaterSteps(rs, ks, fid, dist, steer, n + 1, ks[n]);
    LastUpdateKept(prev.updates, step.1, after.updates);
  }

  /** An entry appended to a report survives into any extension of it. */
  lemma LastUpdateKept(before: seq<Update>, u: Option<Update>, after: seq<Update>)
    requires before + (if u.Some? then [u.value] else []) <= after
    ensures u.Some? ==> u.value in after
  {
    if u.Some? {
      assert after[|before|] == u.value;
    }
  }

  /** The member at ks[n] is steered while still as it was, and what that
      step writes and reports is what the fold ends with. */
  lemma FlockSteersMember(rs: seq<Robot>, ks: seq<nat>, fid: string, dist: Distance, steer: Steering, n: nat)
    requires forall j :: 0 <= j < |ks| ==> ks[j] < |rs|
    requires forall i, j :: 0 <= i < j < |ks| ==> ks[i] != ks[j]
    requires n < |ks|
    ensures var mid := Flock(rs, ks[..n], fid, dist, steer).robots;
      var step := SteerMember(mid, ks[n], fid, dist, steer);
      var after := Flock(rs, ks, fid, dist, steer);
      && mid[ks[n]] == rs[ks[n]]
      && after.robots[ks[n]] == step.0[ks[n]]
      && (step.1.Some? ==> step.1.value in after.updates)
  {
    assert ks[n] !in ks[..n];
    FlockTouchesOnlyMembers(rs, ks[..n], fid, dist, steer);
    StepSurvives(rs, ks, fid, dist, steer, n);
  }

  /** One report entry for every member with a formation neighbour. */
  lemma {:induction false} FlockReportsFlockmates(rs: seq<Robot>, ks: seq<nat>, fid: string,
                                                  dist: Distance, steer: Steering)
    requires forall i :: 0 <= i < |ks| ==> ks[i] < |rs|
    ensures |Flock(rs, ks, fid, dist, steer).updates| == WithFlockmates(rs, ks, fid, dist)
  {
    if |ks| > 0 {
      var p := ks[..|ks| - 1];
      FlockReportsFlockmates(rs, p, fid, dist, steer);
      var prev := Flock(rs, p, fid, dist, steer);
      StepReports(rs, prev.robots, ks[|ks| - 1], fid, dist, steer);
    }
  }

  datatype FlockReport =
    | InsufficientRobots(formationId: string, robotsCount: nat)
    | Updated(formationId: string, robotsUpdated: nat, updates: seq<Update>, metrics: Metrics)

  /** One flocking update of the formation `fid`.  With fewer than two
      connected members nothing changes and the update fails.  Otherwise the
      members are updated in fleet order, the formation's quality is measured
      on the updated members, and the update counter goes up by one. */
  function UpdateFlocking(c: Controller, fid: string, dist: Distance, steer: Steering)
    : (out: (FlockReport, Controller))
    ensures var n := Count(c.robots, r => Member(r, fid));
      && (out.0.InsufficientRobots? <==> n < 2)
      && (out.0.InsufficientRobots? ==> out.1 == c && out.0 == InsufficientRobots(fid, n))
      && (out.0.Updated? ==> out.0.formationId == fid && out.0.robotsUpdated <= n)
    ensures out.0.Updated? ==>
      && out.1.formationUpdates == c.formationUpdates + 1
      && out.1.collisionCount == c.collisionCount
      && |out.1.robots| == |c.robots|
      && out.0.robotsUpdated == |out.0.updates|
    ensures out.0.Updated? ==> forall i :: 0 <= i < |c.robots| ==>
      && SameButHeading(c.robots[i], out.1.robots[i])
      && (!Member(c.robots[i], fid) ==> out.1.robots[i] == c.robots[i])
      && (!HasFlockmate(c.robots, c.robots[i], fid, dist) ==> out.1.robots[i] == c.robots[i])
      && (out.1.robots[i].heading == c.robots[i].heading || 0.0 <= out.1.robots[i].heading < 360.0)
    ensures out.0.Updated? ==>
      out.0.robotsUpdated == WithFlockmates(c.robots, MemberIndices(c.robots, fid), fid, dist)
    ensures out.0.Updated? ==>
      out.0.metrics == Quality(Select(out.1.robots, MemberIndices(c.robots, fid)), dist)
  {
    var ks := MemberIndices(c.robots, fid);
    if |ks| < 2 then (InsufficientRobots(fid, |ks|), c)
    else
      var res := Flock(c.robots, ks, fid, dist, steer);
      FlockedRecords(c.robots, fid, dist, steer);
      FlockReportsFlockmates(c.robots, ks, fid, dist, steer);
      var metrics := Quality(Select(res.robots, ks), dist);
      (Updated(fid, |res.updates|, res.updates, metrics),
       c.(robots := res.robots, formationUpdates := c.formationUpdates + 1))
  }

  /** An update that goes ahead is the fold over the members in fleet order,
      so each member is steered by the rule FlockSteersMember states. */
  lemma UpdateIsFlock(c: Controller, fid: string, dist: Distance, steer: Steering)
    ensures var out := UpdateFlocking(c, fid, dist, steer);
      var res := Flock(c.robots, MemberIndices(c.robots, fid), fid, dist, steer);
      out.0.Updated? ==> out.1.robots == res.robots && out.0.updates == res.updates
  {
  }

  /** What the fold over a formation's members does to each record. */
  lemma FlockedRecords(rs: seq<Robot>, fid: string, dist: Distance, steer: Steering)
    ensures var out := Flock(rs, MemberIndices(rs, fid), fid, dist, steer).robots;
      && |out| == |rs|
      && forall i :: 0 <= i < |rs| ==>
        && SameButHeading(rs[i], out[i])
        && (!Member(rs[i], fid) ==> out[i] == rs[i])
        && (!HasFlockmate(rs, rs[i], fid, dist) ==> out[i] == rs[i])
        && (out[i].heading == rs[i].heading || 0.0 <= out[i].heading < 360.0)
  {
    FlockTouchesOnlyMembers(rs, MemberIndices(rs, fid), fid, dist, steer);
  }

  /** Flocking changes no formation: the members after an update are the
      members before it. */
  lemma FlockingKeepsMembers(c: Controller, fid: string, dist: Distance, steer: Steering)
    ensures var out := UpdateFlocking(c, fid, dist, steer);
      MemberIndices(out.1.robots, fid) == MemberIndices(c.robots, fid)
  {
    var out := UpdateFlocking(c, fid, dist, steer);
    MembersIgnoreHeadings(c.robots, out.1.robots, fid);
  }

  lemma {:induction false} MembersIgnoreHeadings(rs: seq<Robot>, cur: seq<Robot>, fid: string)
    requires |cur| == |rs| && forall i :: 0 <= i < |rs| ==> SameButHeading(rs[i], cur[i])
    ensures MemberIndices(cur, fid) == MemberIndices(rs, fid)
  {
    if |rs| > 0 {
      MembersIgnoreHeadings(rs[..|rs| - 1], cur[..|cur| - 1], fid);
      assert Member(rs[|rs| - 1], fid) == Member(cur[|cur| - 1], fid);
    }
  }
}

=== FILE: formation.dfy ===
/** The formation controller's view of the fleet: which robots belong to a
    formation, and which robots a given robot perceives as neighbours.
    Great-circle distance is computed outside the model and supplied as an
    oracle over positions. */
module Formation {
  import opened Swarm

  /** Great-circle distance in metres between two positions. */
  type Distance = (Coord, Coord) -> NonNeg

  /** Neighbours are detected within this many metres. */
  const PerceptionRadius: real := 50.0
  /** Two robots closer than this many metres count as a collision. */
  const CollisionRadius: real := 2.0

  /** The controller's state: the fleet, keyed by id, and two counters. */
  datatype Controller = Controller(robots: seq<Robot>, formationUpdates: nat, collisionCount: nat)

  /** The robot carries the given formation id. */
  predicate InFormation(r: Robot, fid: string) {
    r.formation.Some? && r.formation.value.formationId == fid
  }

  /** A robot taking part in a flocking update: in the formation and connected. */
  predicate Member(r: Robot, fid: string) {
    InFormation(r, fid) && r.connected
  }

  /** Another robot, as perceived by some robot. */
  datatype Neighbour = Neighbour(robot: Robot, distance: NonNeg)

  /** `other` is a neighbour of `self`: a different, connected robot within the
      perception radius. */
  predicate Sees(self: Robot, other: Robot, dist: Distance) {
    && other.id != self.id
    && other.connected
    && dist(self.position, other.position) <= PerceptionRadius
  }

  /** The robots of the fleet that `self` sees, in fleet order. */
  function Neighbours(rs: seq<Robot>, self: Robot, dist: Distance): (ns: seq<Neighbour>)
    ensures |ns| <= |rs|
    ensures forall n :: n in ns ==>
      n.robot in rs && Sees(self, n.robot, dist) && n.distance == dist(self.position, n.robot.position)
    ensures forall o :: o in rs && Sees(self, o, dist) ==>
      Neighbour(o, dist(self.position, o.position)) in ns
  {
    if |rs| == 0 then []
    else
      var o := rs[|rs| - 1];
      Neighbours(rs[..|rs| - 1], self, dist) +
      (if Sees(self, o, dist) then [Neighbour(o, dist(self.position, o.position))] else [])
  }

  /** The neighbours of the robot with the given id, or None when the fleet has
      no such robot (a failed lookup).  The robot looked up is the first
      record with the id; its neighbours are exactly the robots it sees, each
      with its distance from it. */
  function GetNeighbors(rs: seq<Robot>, id: RobotId, dist: Distance): (out: Option<seq<Neighbour>>)
    ensures out.None? <==> id !in Ids(rs)
    ensures out.Some? ==> forall n :: n in out.value ==>
      && n.robot in rs
      && n.robot.id != id
      && n.robot.connected
      && n.distance <= PerceptionRadius
    ensures out.Some? ==> exists k :: NeighboursOfFirst(rs, id, k, out.value, dist)
  {
    match Find(rs, id)
    case None => None
    case Some(k) =>
      var ns := Neighbours(rs, rs[k], dist);
      FirstLookup(rs, id, k, dist);
      Some(ns)
  }

  /** rs[k] is the first robot with the given id, and ns holds exactly the
      robots it sees, each with its distance from it. */
  predicate NeighboursOfFirst(rs: seq<Robot>, id: RobotId, k: nat, ns: seq<Neighbour>, dist: Distance) {
    && k < |rs| && rs[k].id == id
    && (forall i :: 0 <= i < k ==> rs[i].id != id)
    && (forall n :: n in ns ==>
          Sees(rs[k], n.robot, dist) && n.distance == dist(rs[k].position, n.robot.position))
    && (forall o :: o in rs && Sees(rs[k], o, dist) ==>
          Neighbour(o, dist(rs[k].position, o.position)) in ns)
  }

  lemma FirstLookup(rs: seq<Robot>, id: RobotId, k: nat, dist: Distance)
    requires Find(rs, id) == Some(k)
    ensures NeighboursOfFirst(rs, id, k, Neighbours(rs, rs[k], dist), dist)
  {
  }

  /** The neighbours that belong to the formation, in order. */
  function InFormationOnly(ns: seq<Neighbour>, fid: string): (out: seq<Neighbour>)
    ensures forall n :: n in out <==> n in ns && InFormation(n.robot, fid)
  {
    if |ns| == 0 then []
    else
      InFormationOnly(ns[..|ns| - 1], fid) +
      (if InFormation(ns[|ns| - 1].robot, fid) then [ns[|ns| - 1]] else [])
  }

  /** The formation neighbours of `self`. */
  function Flockmates(rs: seq<Robot>, self: Robot, fid: string, dist: Distance): seq<Neighbour> {
    InFormationOnly(Neighbours(rs, self, dist), fid)
  }

  /** Some robot of the fleet is a formation neighbour of `self`. */
  ghost predicate HasFlockmate(rs: seq<Robot>, self: Robot, fid: string, dist: Distance) {
    exists j :: 0 <= j < |rs| && Sees(self, rs[j], dist) && InFormation(rs[j], fid)
  }

  /** `self` has formation neighbours exactly when some robot of the fleet is a
      different, connected robot of the same formation within range. */
  lemma FlockmatesIff(rs: seq<Robot>, self: Robot, fid: string, dist: Distance)
    ensures |Flockmates(rs, self, fid, dist)| > 0 <==> HasFlockmate(rs, self, fid, dist)
  {
    var ms := Flockmates(rs, self, fid, dist);
    if |ms| > 0 {
      assert ms[0] in ms;
      var j :| 0 <= j < |rs| && rs[j] == ms[0].robot;
      assert Sees(self, rs[j], dist) && InFormation(rs[j], fid);
    }
    if HasFlockmate(rs, self, fid, dist) {
      var j :| 0 <= j < |rs| && Sees(self, rs[j], dist) && InFormation(rs[j], fid);
      assert rs[j] in rs;
      assert Neighbour(rs[j], dist(self.position, rs[j].position)) in ms;
    }
  }

  /** r2 is r1 with at most its heading changed. */
  predicate SameButHeading(r1: Robot, r2: Robot) {
    r2 == r1.(heading := r2.heading)
  }

  /** Changing headings does not change who flocks with whom. */
  lemma HasFlockmateIgnoresHeadings(rs: seq<Robot>, cur: seq<Robot>, self: Robot, me: Robot,
                                    fid: string, dist: Distance)
    requires |cur| == |rs| && forall i :: 0 <= i < |rs| ==> SameButHeading(rs[i], cur[i])
    requires SameButHeading(self, me)
    ensures HasFlockmate(cur, me, fid, dist) <==> HasFlockmate(rs, self, fid, dist)
  {
    if HasFlockmate(rs, self, fid, dist) {
      var j :| 0 <= j < |rs| && Sees(self, rs[j], dist) && InFormation(rs[j], fid);
      assert SameButHeading(rs[j], cur[j]);
      assert Sees(me, cur[j], dist) && InFormation(cur[j], fid);
    }
    if HasFlockmate(cur, me, fid, dist) {
      var j :| 0 <= j < |cur| && Sees(me, cur[j], dist) && InFormation(cur[j], fid);
      assert SameButHeading(rs[j], cur[j]);
      assert Sees(self, rs[j], dist) && InFormation(rs[j], fid);
    }
  }

  /** Fleet positions of the formation's members, in fleet order. */
  function MemberIndices(rs: seq<Robot>, fid: string): (ks: seq<nat>)
    ensures forall i :: 0 <= i < |ks| ==> ks[i] < |rs|
    ensures forall i, j :: 0 <= i < j < |ks| ==> ks[i] < ks[j]
    ensures forall k :: 0 <= k < |rs| ==> (k in ks <==> Member(rs[k], fid))
    ensures |ks| == Count(rs, r => Member(r, fid))
  {
    if |rs| == 0 then []
    else
      var prev := MemberIndices(rs[..|rs| - 1], fid);
      assert forall k :: 0 <= k < |rs| - 1 ==> rs[..|rs| - 1][k] == rs[k];
      prev + (if Member(rs[|rs| - 1], fid) then [|rs| - 1] else [])
  }

  /** The records at the given fleet positions, in that order. */
  function Select(rs: seq<Robot>, ks: seq<nat>): (out: seq<Robot>)
    requires forall i :: 0 <= i < |ks| ==> ks[i] < |rs|
    ensures |out| == |ks|
    ensures forall i :: 0 <= i < |ks| ==> out[i] == rs[ks[i]]
  {
    seq(|ks|, i requires 0 <= i < |ks| => rs[ks[i]])
  }
}

=== FILE: matching.dfy ===
/** The distributor's "simplified Hungarian" matcher: a greedy approximation of
    the minimum-cost assignment.  Every eligible (task, robot) pair of the cost
    matrix becomes a candidate; candidates are sorted by cost with a stable
    sort, then taken in that order whenever both the task and the robot are
    still free.  Tasks and robots are named here by their row and column in the
    matrix. */
module Matching {

  /** Entries at or above this cost mark a robot that cannot do the task. */
  const Ineligible: real := 999.0

  datatype Candidate = Candidate(task: nat, robot: nat, cost: real)

  /** Every row of the matrix has one entry per robot. */
  predicate Rectangular(costs: seq<seq<real>>, width: nat) {
    forall i :: 0 <= i < |costs| ==> |costs[i]| == width
  }

  /** Row-major order: by task, then by robot. */
  predicate Earlier(a: Candidate, b: Candidate) {
    a.task < b.task || (a.task == b.task && a.robot < b.robot)
  }

  predicate RowMajor(cs: seq<Candidate>) {
    forall i, j :: 0 <= i < j < |cs| ==> Earlier(cs[i], cs[j])
  }

  /** Non-decreasing cost, ties in row-major order: the order a stable sort by
      cost leaves a row-major list in. */
  predicate SortedByCost(cs: seq<Candidate>) {
    forall i, j :: 0 <= i < j < |cs| ==>
      cs[i].cost < cs[j].cost || (cs[i].cost == cs[j].cost && Earlier(cs[i], cs[j]))
  }

  /** The eligible entries of row t, left to right. */
  function RowCandidates(row: seq<real>, t: nat): (cs: seq<Candidate>)
    ensures forall c :: c in cs <==>
      c.task == t && c.robot < |row| && c.cost == row[c.robot] && c.cost < Ineligible
    ensures RowMajor(cs)
  {
    if |row| == 0 then []
    else
      var prev := RowCandidates(row[..|row| - 1], t);
      var r := |row| - 1;
      assert forall c :: c in prev ==> c.robot < r;
      assert forall c :: c in prev ==> c.cost == row[c.robot] by {
        forall c | c in prev ensures c.cost == row[c.robot] {
          assert row[..|row| - 1][c.robot] == row[c.robot];
        }
      }
      var out := prev + (if row[r] < Ineligible then [Candidate(t, r, row[r])] else []);
      assert forall c :: c in out && c.robot < r ==> c in prev by {
        forall c | c in out && c.robot < r ensures c in prev {
        }
      }
      assert forall c: Candidate ::
        (c.task == t && c.robot < r && c.cost == row[c.robot] && c.cost < Ineligible) ==> c in prev by {
        forall c: Candidate | c.task == t && c.robot < r && c.cost == row[c.robot] && c.cost < Ineligible
          ensures c in prev
        {
          assert row[..|row| - 1][c.robot] == row[c.robot];
        }
      }
      assert RowMajor(out) by {
        forall i, j | 0 <= i < j < |out| ensures Earlier(out[i], out[j]) {
          if j < |prev| {
          } else {
            assert out[i] in prev;
          }
        }
      }
      out
  }

  /** The eligible entries of the whole matrix, row by row. */
  function AllCandidates(costs: seq<seq<real>>): (cs: seq<Candidate>)
    ensures forall c :: c in cs <==>
      c.task < |costs| && c.robot < |costs[c.task]| && c.cost == costs[c.task][c.robot] && c.cost < Ineligible
    ensures RowMajor(cs)
  {
    if |costs| == 0 then []
    else
      var t := |costs| - 1;
      var prev := AllCandidates(costs[..t]);
      var row := RowCandidates(costs[t], t);
      var out := prev + row;
      assert forall c :: c in prev ==> c.task < t && costs[c.task] == costs[..t][c.task];
      assert forall c: Candidate :: c.task < t ==> (c in out <==> c in prev) by {
        forall c: Candidate | c.task < t ensures c in out <==> c in prev {
          if c.robot < |costs[c.task]| {
            assert costs[..t][c.task] == costs[c.task];
          }
        }
      }
      assert RowMajor(out) by {
        forall i, j | 0 <= i < j < |out| ensures Earlier(out[i], out[j]) {
          if j < |prev| {
          } else if i >= |prev| {
            assert out[i] == row[i - |prev|] && out[j] == row[j - |prev|];
          } else {
            assert out[i] in prev && out[j] in row;
          }
        }
      }
      out
  }

  /** Puts x after every element that costs no more than it. */
  function Insert(x: Candidate, s: seq<Candidate>): (out: seq<Candidate>)
    ensures multiset(out) == multiset(s) + multiset{x}
  {
    if |s| == 0 then [x]
    else if s[0].cost <= x.cost then
      assert s == [s[0]] + s[1..];
      [s[0]] + Insert(x, s[1..])
    else
      [x] + s
  }

  /** Inserting the latest element of a row-major list into the sorted
      earlier ones keeps equal costs in row-major order. */
  lemma {:induction false} InsertKeepsOrder(x: Candidate, s: seq<Candidate>)
    requires SortedByCost(s)
    requires forall y :: y in s ==> Earlier(y, x)
    ensures SortedByCost(Insert(x, s))
  {
    if |s| > 0 && s[0].cost <= x.cost {
      var rest := Insert(x, s[1..]);
      InsertKeepsOrder(x, s[1..]);
      var out := [s[0]] + rest;
      forall i, j | 0 <= i < j < |out|
        ensures out[i].cost < out[j].cost || (out[i].cost == out[j].cost && Earlier(out[i], out[j]))
      {
        if i == 0 {
          var y := rest[j - 1];
          assert y in multiset(rest);
          if y != x {
            assert y in s[1..];
            var k :| 0 <= k < |s[1..]| && s[1..][k] == y;
            assert s[k + 1] == y;
          }
        } else {
          assert out[i] == rest[i - 1] && out[j] == rest[j - 1];
        }
      }
    }
  }

  /** The stable sort of a row-major candidate list by cost. */
  function SortByCost(cs: seq<Candidate>): (out: seq<Candidate>)
    requires RowMajor(cs)
    ensures multiset(out) == multiset(cs)
    ensures SortedByCost(out)
  {
    if |cs| == 0 then []
    else
      var prefix := cs[..|cs| - 1];
      var x := cs[|cs| - 1];
      assert RowMajor(prefix) by {
        forall i, j | 0 <= i < j < |prefix| ensures Earlier(prefix[i], prefix[j]) {
          assert prefix[i] == cs[i] && prefix[j] == cs[j];
        }
      }
      var sorted := SortByCost(prefix);
      assert forall y :: y in sorted ==> Earlier(y, x) by {
        forall y | y in sorted ensures Earlier(y, x) {
          assert y in multiset(prefix);
          var i :| 0 <= i < |prefix| && prefix[i] == y;
          assert cs[i] == y;
        }
      }
      assert cs == prefix + [x];
      InsertKeepsOrder(x, sorted);
      Insert(x, sorted)
  }

  /** The greedy state: the candidate taken for each task, and the same
      candidates keyed by robot. */
  datatype Greedy = Greedy(byTask: map<nat, Candidate>, byRobot: map<nat, Candidate>)

  /** The two maps describe the same set of pairs, so no robot serves two tasks. */
  predicate Consistent(g: Greedy) {
    && (forall t :: t in g.byTask ==>
          g.byTask[t].task == t && g.byTask[t].robot in g.byRobot
          && g.byRobot[g.byTask[t].robot] == g.byTask[t])
    && (forall r :: r in g.byRobot ==>
          g.byRobot[r].robot == r && g.byRobot[r].task in g.byTask
          && g.byTask[g.byRobot[r].task] == g.byRobot[r])
  }

  /** Candidate c is served no worse by the current choice: its task already
      has a pair costing at most c's, or its robot does. */
  predicate Covered(g: Greedy, c: Candidate) {
    || (c.task in g.byTask && g.byTask[c.task].cost <= c.cost)
    || (c.robot in g.byRobot && g.byRobot[c.robot].cost <= c.cost)
  }

  /** One candidate of the sorted list: take it when its task is unassigned
      and its robot unused. */
  function Take(g: Greedy, c: Candidate): Greedy {
    if c.task !in g.byTask && c.robot !in g.byRobot then
      Greedy(g.byTask[c.task := c], g.byRobot[c.robot := c])
    else g
  }

  /** The greedy pass over the candidates in list order. */
  function Scan(cs: seq<Candidate>): (g: Greedy)
    ensures Consistent(g)
    ensures forall t :: t in g.byTask ==> g.byTask[t] in cs
  {
    if |cs| == 0 then Greedy(map[], map[])
    else
      var g := Scan(cs[..|cs| - 1]);
      assert forall d :: d in cs[..|cs| - 1] ==> d in cs;
      Take(g, cs[|cs| - 1])
  }

  /** Over a list sorted by cost, every candidate ends up covered: its task or
      its robot was taken at no higher cost. */
  lemma {:induction false} ScanCovers(cs: seq<Candidate>)
    requires SortedByCost(cs)
    ensures forall c :: c in cs ==> Covered(Scan(cs), c)
  {
    if |cs| > 0 {
      var prefix := cs[..|cs| - 1];
      var c := cs[|cs| - 1];
      SortedSplit(cs);
      ScanCovers(prefix);
      var g := Scan(prefix);
      TakeCoversLast(g, c, prefix);
      TakeKeepsCovered(g, c, prefix);
      var h := Take(g, c);
      assert Scan(cs) == h;
      forall d | d in cs ensures Covered(h, d) {
        var i :| 0 <= i < |cs| && cs[i] == d;
        if i < |cs| - 1 {
          assert prefix[i] == d;
        }
      }
    }
  }

  /** Dropping the last candidate of a sorted list leaves it sorted, and the
      last costs no less than any other. */
  lemma SortedSplit(cs: seq<Candidate>)
    requires |cs| > 0 && SortedByCost(cs)
    ensures SortedByCost(cs[..|cs| - 1])
    ensures forall d :: d in cs[..|cs| - 1] ==> d.cost <= cs[|cs| - 1].cost
  {
    var prefix := cs[..|cs| - 1];
    forall d | d in prefix ensures d.cost <= cs[|cs| - 1].cost {
      var i :| 0 <= i < |prefix| && prefix[i] == d;
      assert cs[i] == d;
    }
  }

  /** A candidate costing no less than every choice made so far is covered
      once it has been considered. */
  lemma TakeCoversLast(g: Greedy, c: Candidate, earlier: seq<Candidate>)
    requires Consistent(g)
    requires forall t :: t in g.byTask ==> g.byTask[t] in earlier
    requires forall d :: d in earlier ==> d.cost <= c.cost
    ensures Covered(Take(g, c), c)
  {
    if c.robot in g.byRobot {
      assert g.byRobot[c.robot] == g.byTask[g.byRobot[c.robot].task];
    }
  }

  /** Taking a candidate keeps every candidate covered that was. */
  lemma TakeKeepsCovered(g: Greedy, c: Candidate, ds: seq<Candidate>)
    requires forall d :: d in ds ==> Covered(g, d)
    ensures forall d :: d in ds ==> Covered(Take(g, c), d)
  {
  }

  /** Sorting keeps exactly the eligible entries of the matrix. */
  lemma SortedCandidates(costs: seq<seq<real>>)
    ensures forall c :: c in SortByCost(AllCandidates(costs)) <==> c in AllCandidates(costs)
  {
    var all := AllCandidates(costs);
    forall c ensures c in SortByCost(all) <==> c in all {
      assert c in SortByCost(all) <==> c in multiset(SortByCost(all));
    }
  }

  /** The greedy pass takes only eligible entries of the matrix. */
  lemma GreedyTakesEligible(costs: seq<seq<real>>, width: nat, t: nat)
    requires Rectangular(costs, width)
    ensures var g := Scan(SortByCost(AllCandidates(costs)));
      t in g.byTask ==>
        && t < |costs| && g.byTask[t].robot < width
        && g.byTask[t].cost == costs[t][g.byTask[t].robot] && g.byTask[t].cost < Ineligible
  {
    var all := AllCandidates(costs);
    var g := Scan(SortByCost(all));
    if t in g.byTask {
      var c := g.byTask[t];
      assert c in SortByCost(all);
      assert c in multiset(SortByCost(all));
      assert c in all;
    }
  }

  /** The greedy pass covers every eligible entry of the matrix. */
  lemma GreedyCoversMatrix(costs: seq<seq<real>>, width: nat, t: nat, r: nat)
    requires Rectangular(costs, width)
    requires t < |costs| && r < width && costs[t][r] < Ineligible
    ensures Covered(Scan(SortByCost(AllCandidates(costs))), Candidate(t, r, costs[t][r]))
  {
    var all := AllCandidates(costs);
    var c := Candidate(t, r, costs[t][r]);
    assert c in all;
    var sorted := SortByCost(all);
    assert c in multiset(sorted);
    ScanCovers(sorted);
  }

  /** The greedy approximation of the assignment problem over a tasks-by-robots
      cost matrix: a one-to-one choice of eligible entries, in which every
      eligible entry's task was matched at no higher cost, or its robot was. */
  function SimplifiedHungarian(costs: seq<seq<real>>, width: nat): (g: Greedy)
    requires Rectangular(costs, width)
    ensures Consistent(g)
    ensures forall t :: t in g.byTask ==>
      && t < |costs| && g.byTask[t].robot < width
      && g.byTask[t].cost == costs[t][g.byTask[t].robot] && g.byTask[t].cost < Ineligible
    ensures forall t, r :: 0 <= t < |costs| && 0 <= r < width && costs[t][r] < Ineligible ==>
      Covered(g, Candidate(t, r, costs[t][r]))
  {
    var g := Scan(SortByCost(AllCandidates(costs)));
    assert forall t :: t in g.byTask ==>
      && t < |costs| && g.byTask[t].robot < width
      && g.byTask[t].cost == costs[t][g.byTask[t].robot] && g.byTask[t].cost < Ineligible by {
      forall t | t in g.byTask
        ensures && t < |costs| && g.byTask[t].robot < width
                && g.byTask[t].cost == costs[t][g.byTask[t].robot] && g.byTask[t].cost < Ineligible
      {
        GreedyTakesEligible(costs, width, t);
      }
    }
    assert forall t, r :: 0 <= t < |costs| && 0 <= r < width && costs[t][r] < Ineligible ==>
      Covered(g, Candidate(t, r, costs[t][r])) by {
      forall t, r | 0 <= t < |costs| && 0 <= r < width && costs[t][r] < Ineligible
        ensures Covered(g, Candidate(t, r, costs[t][r]))
      {
        GreedyCoversMatrix(costs, width, t, r);
      }
    }
    g
  }

  /** No robot serves two tasks. */
  lemma MatchingIsInjective(costs: seq<seq<real>>, width: nat, t1: nat, t2: nat)
    requires Rectangular(costs, width) && t1 != t2
    ensures var g := SimplifiedHungarian(costs, width);
      t1 in g.byTask && t2 in g.byTask ==> g.byTask[t1].robot != g.byTask[t2].robot
  {
    var g := SimplifiedHungarian(costs, width);
    if t1 in g.byTask && t2 in g.byTask {
      assert g.byRobot[g.byTask[t1].robot].task == t1;
    }
  }

  /** Nothing is left on the table: a task with an eligible robot stays
      unmatched only when that robot serves another task. */
  lemma MatchingIsMaximal(costs: seq<seq<real>>, width: nat, t: nat, r: nat)
    requires Rectangular(costs, width)
    requires t < |costs| && r < width && costs[t][r] < Ineligible
    ensures var g := SimplifiedHungarian(costs, width);
      t !in g.byTask ==> r in g.byRobot && g.byRobot[r].task != t
  {
    assert Covered(SimplifiedHungarian(costs, width), Candidate(t, r, costs[t][r]));
  }
}

=== FILE: quality.dfy ===
/** Formation quality: how tightly the robots cluster around their centre,
    how closely their headings agree, and how few pairs come within collision
    range, each scored in [0, 1], and a weighted overall score. */
module FormationQuality {
  import opened Swarm
  import opened Formation

  /** The raw figures behind the scores, reported only for two robots or more. */
  datatype Detail = Detail(avgDistance: real, collisions: nat, pairs: nat)

  datatype Metrics = Metrics(cohesion: real, alignment: real, separation: real, overall: real,
                             detail: Option<Detail>)

  /** Headings lie in a range 360 degrees wide, and values in such a range
      have a variance of at most 180 squared: alignment is scored against it. */
  const MaxVariance: real := 180.0 * 180.0

  predicate InUnit(x: real) {
    0.0 <= x <= 1.0
  }

  function Lats(ms: seq<Robot>): seq<real> {
    seq(|ms|, i requires 0 <= i < |ms| => ms[i].position.lat)
  }

  function Lons(ms: seq<Robot>): seq<real> {
    seq(|ms|, i requires 0 <= i < |ms| => ms[i].position.lon)
  }

  function Headings(ms: seq<Robot>): (hs: seq<real>)
    ensures |hs| == |ms| && forall i :: 0 <= i < |ms| ==> hs[i] == ms[i].heading
  {
    seq(|ms|, i requires 0 <= i < |ms| => ms[i].heading)
  }

  function Mean(xs: seq<real>): real
    requires |xs| > 0
  {
    Sum(xs) / |xs| as real
  }

  /** The centre of mass: the mean latitude and the mean longitude. */
  function Centre(ms: seq<Robot>): Coord
    requires |ms| > 0
  {
    Coord(Mean(Lats(ms)), Mean(Lons(ms)))
  }

  /** Each robot's distance to a point. */
  function DistancesTo(ms: seq<Robot>, c: Coord, dist: Distance): (ds: seq<real>)
    ensures |ds| == |ms| && forall i :: 0 <= i < |ms| ==> ds[i] == dist(ms[i].position, c) >= 0.0
  {
    seq(|ms|, i requires 0 <= i < |ms| => dist(ms[i].position, c) as real)
  }

  function Square(x: real): (y: real)
    ensures y >= 0.0
  {
    x * x
  }

  /** The squared deviations of the values from m. */
  function Squares(xs: seq<real>, m: real): (sq: seq<real>)
    ensures |sq| == |xs| && forall i :: 0 <= i < |xs| ==> sq[i] == Square(xs[i] - m)
  {
    seq(|xs|, i requires 0 <= i < |xs| => Square(xs[i] - m))
  }

  /** Population variance. */
  function Variance(xs: seq<real>): real
    requires |xs| > 0
  {
    Mean(Squares(xs, Mean(xs)))
  }

  /** A sum of non-negative terms is non-negative, and zero only when every
      term is. */
  lemma {:induction false} SumNonNeg(xs: seq<real>)
    requires forall i :: 0 <= i < |xs| ==> xs[i] >= 0.0
    ensures Sum(xs) >= 0.0
    ensures Sum(xs) == 0.0 ==> forall i :: 0 <= i < |xs| ==> xs[i] == 0.0
  {
    if |xs| > 0 {
      var p := xs[..|xs| - 1];
      assert forall i :: 0 <= i < |p| ==> p[i] == xs[i];
      SumNonNeg(p);
    }
  }

  lemma {:induction false} SumConst(xs: seq<real>, c: real)
    requires forall i :: 0 <= i < |xs| ==> xs[i] == c
    ensures Sum(xs) == |xs| as real * c
  {
    if |xs| > 0 {
      var p := xs[..|xs| - 1];
      assert forall i :: 0 <= i < |p| ==> p[i] == xs[i];
      SumConst(p, c);
    }
  }

  lemma VarianceNonNeg(xs: seq<real>)
    requires |xs| > 0
    ensures Variance(xs) >= 0.0
  {
    SumNonNeg(Squares(xs, Mean(xs)));
  }

  lemma MeanOfConst(xs: seq<real>, c: real)
    requires |xs| > 0 && forall i :: 0 <= i < |xs| ==> xs[i] == c
    ensures Mean(xs) == c
  {
    SumConst(xs, c);
    var n := |xs| as real;
    assert Sum(xs) == n * c;
    assert Mean(xs) * n == c * n;
  }

  /** Equal values have zero variance. */
  lemma VarianceOfEqual(xs: seq<real>)
    requires |xs| > 0 && forall i :: 0 <= i < |xs| ==> xs[i] == xs[0]
    ensures Variance(xs) == 0.0
  {
    MeanOfConst(xs, xs[0]);
    var sq := Squares(xs, Mean(xs));
    assert forall i :: 0 <= i < |xs| ==> sq[i] == Square(0.0) == 0.0;
    MeanOfConst(sq, 0.0);
  }

  /** How many of `earlier` are closer to r than the collision radius. */
  function CloseCount(earlier: seq<Robot>, r: Robot, dist: Distance): (n: nat)
    ensures n <= |earlier|
    ensures n == 0 <==> forall i :: 0 <= i < |earlier| ==>
      dist(earlier[i].position, r.position) >= CollisionRadius
  {
    if |earlier| == 0 then 0
    else
      var p := earlier[..|earlier| - 1];
      assert forall i :: 0 <= i < |p| ==> p[i] == earlier[i];
      CloseCount(p, r, dist) +
      (if dist(earlier[|earlier| - 1].position, r.position) < CollisionRadius then 1 else 0)
  }

  /** Unordered pairs of n robots, counted one at a time as the double loop does. */
  function PairCount(n: nat): nat {
    if n == 0 then 0 else PairCount(n - 1) + (n - 1)
  }

  lemma {:induction false} PairCountFormula(n: nat)
    ensures 2 * PairCount(n) == n * (n - 1)
  {
    if n > 0 {
      PairCountFormula(n - 1);
    }
  }

  /** Pairs i < j of robots closer than the collision radius; never more than
      there are pairs. */
  function Collisions(ms: seq<Robot>, dist: Distance): (n: nat)
    ensures n <= PairCount(|ms|)
  {
    if |ms| == 0 then 0
    else Collisions(ms[..|ms| - 1], dist) + CloseCount(ms[..|ms| - 1], ms[|ms| - 1], dist)
  }

  /** No collision is counted exactly when every pair keeps the collision radius. */
  lemma {:induction false} CollisionFreeIff(ms: seq<Robot>, dist: Distance)
    ensures Collisions(ms, dist) == 0 <==>
      forall i, j :: 0 <= i < j < |ms| ==> dist(ms[i].position, ms[j].position) >= CollisionRadius
  {
    if |ms| > 0 {
      var p := ms[..|ms| - 1];
      CollisionFreeIff(p, dist);
      assert forall i :: 0 <= i < |p| ==> p[i] == ms[i];
    }
  }

  lemma RatioInUnit(a: nat, b: nat)
    requires a <= b && b > 0
    ensures InUnit(a as real / b as real)
    ensures a as real / b as real == 0.0 <==> a == 0
  {
    var q := a as real / b as real;
    assert q * b as real == a as real;
  }

  /** The quality of a group of robots.  Fewer than two robots score zero on
      everything.  Otherwise cohesion falls linearly from 1, when every robot
      stands on the centre of mass, to 0 at a mean distance of one perception
      radius; alignment falls from 1, for equal headings, to 0 at the largest
      variance; separation is the share of pairs not in collision range; and
      overall weighs them 0.35, 0.30 and 0.35. */
  function Quality(ms: seq<Robot>, dist: Distance): (q: Metrics)
    ensures |ms| < 2 ==> q == Metrics(0.0, 0.0, 0.0, 0.0, None)
    ensures |ms| >= 2 ==> q.detail.Some?
    ensures q.detail.Some? ==>
      && 2 * q.detail.value.pairs == |ms| * (|ms| - 1)
      && q.detail.value.collisions <= q.detail.value.pairs
      && q.detail.value.avgDistance >= 0.0
    ensures q.detail.Some? ==>
      && q.detail.value.avgDistance == Mean(DistancesTo(ms, Centre(ms), dist))
      && q.cohesion == Max(0.0, 1.0 - q.detail.value.avgDistance / PerceptionRadius)
      && q.alignment == Max(0.0, 1.0 - Variance(Headings(ms)) / MaxVariance)
      && q.detail.value.collisions == Collisions(ms, dist)
    ensures q.detail.Some? ==> var d := q.detail.value;
      d.pairs > 0 && q.separation == (d.pairs - d.collisions) as real / d.pairs as real
    ensures InUnit(q.cohesion) && InUnit(q.alignment) && InUnit(q.separation) && InUnit(q.overall)
    ensures q.overall == q.cohesion * 0.35 + q.alignment * 0.30 + q.separation * 0.35
  {
    if |ms| < 2 then Metrics(0.0, 0.0, 0.0, 0.0, None)
    else
      var n := |ms| as real;
      var center := Centre(ms);
      var ds := DistancesTo(ms, center, dist);
      SumNonNeg(ds);
      var avg := Mean(ds);
      var cohesion := Max(0.0, 1.0 - avg / PerceptionRadius);
      VarianceNonNeg(Headings(ms));
      var alignment := Max(0.0, 1.0 - Variance(Headings(ms)) / MaxVariance);
      var pairs := PairCount(|ms|);
      PairCountFormula(|ms|);
      PairsExist(|ms|);
      var collisions := Collisions(ms, dist);
      var separation := Separation(collisions, pairs);
      Metrics(cohesion, alignment, separation,
              cohesion * 0.35 + alignment * 0.30 + separation * 0.35,
              Some(Detail(avg, collisions, pairs)))
  }

  /** Separation is perfect exactly when no two robots are within collision range. */
  lemma SeparationPerfectIff(ms: seq<Robot>, dist: Distance)
    requires |ms| >= 2
    ensures Quality(ms, dist).separation == 1.0 <==>
      forall i, j :: 0 <= i < j < |ms| ==> dist(ms[i].position, ms[j].position) >= CollisionRadius
  {
    PairCountFormula(|ms|);
    RatioInUnit(Collisions(ms, dist), PairCount(|ms|));
    CollisionFreeIff(ms, dist);
  }

  /** The separation score of a formation with the given numbers of close
      and of all pairs: the share of pairs not in collision range, and 1
      when there are no pairs. */
  function Separation(collisions: nat, pairs: nat): (s: real)
    requires collisions <= pairs
    ensures InUnit(s)
    ensures s == 1.0 <==> collisions == 0
    ensures pairs > 0 ==> s == (pairs - collisions) as real / pairs as real
  {
    if pairs > 0 then
      var s := 1.0 - collisions as real / pairs as real;
      RatioInUnit(collisions, pairs);
      ShareOfRest(s, collisions, pairs);
      s
    else 1.0
  }

  /** Two or more robots make at least one pair. */
  lemma PairsExist(n: nat)
    requires n >= 2
    ensures PairCount(n) > 0
  {
    assert PairCount(n) == PairCount(n - 1) + (n - 1);
  }

  /** One minus the share c / p is the share of the other p - c. */
  lemma ShareOfRest(sep: real, c: nat, p: nat)
    requires p > 0 && sep == 1.0 - c as real / p as real
    ensures sep == (p - c) as real / p as real
  {
    QuotientTimesDivisor(c as real, p as real);
    QuotientTimesDivisor((p - c) as real, p as real);
  }

  /** A quotient times its divisor gives back the dividend. */
  lemma QuotientTimesDivisor(x: real, n: real)
    requires n > 0.0
    ensures (x / n) * n == x
  {
  }

  /** Cohesion is perfect exactly when every robot stands on the centre of
      mass, and lost entirely once the mean distance reaches the perception
      radius. */
  lemma CohesionPerfectIff(ms: seq<Robot>, dist: Distance)
    requires |ms| >= 2
    ensures var q := Quality(ms, dist);
      && (q.cohesion == 1.0 <==> forall i :: 0 <= i < |ms| ==> dist(ms[i].position, Centre(ms)) == 0.0)
      && (q.detail.value.avgDistance >= PerceptionRadius ==> q.cohesion == 0.0)
  {
    var ds := DistancesTo(ms, Centre(ms), dist);
    SumNonNeg(ds);
    if forall i :: 0 <= i < |ms| ==> dist(ms[i].position, Centre(ms)) == 0.0 {
      MeanOfConst(ds, 0.0);
    }
  }

  /** Robots that all share one heading are perfectly aligned. */
  lemma AlignedWhenHeadingsAgree(ms: seq<Robot>, dist: Distance)
    requires |ms| >= 2
    requires forall i :: 0 <= i < |ms| ==> ms[i].heading == ms[0].heading
    ensures Quality(ms, dist).alignment == 1.0
  {
    VarianceOfEqual(Headings(ms));
  }
}

=== FILE: statistics.dfy ===
/** Formation statistics: the fleet grouped by formation id, the quality of
    every group, and the quality averaged over the groups. */
module FormationStatistics {
  import opened Swarm
  import opened Formation
  import opened FormationQuality

  /** A robot counts towards a formation when it carries a non-empty
      formation id. */
  predicate Grouped(r: Robot) {
    r.formation.Some? && r.formation.value.formationId != ""
  }

  /** Some robot of the fleet carries the id f. */
  ghost predicate Carried(rs: seq<Robot>, f: string) {
    exists i :: 0 <= i < |rs| && InFormation(rs[i], f)
  }

  /** The non-empty formation ids of the fleet, each once, in order of first
      appearance. */
  function FormationIds(rs: seq<Robot>): (fs: seq<string>)
    ensures Distinct(fs)
    ensures forall f :: f in fs <==> f != "" && Carried(rs, f)
  {
    if |rs| == 0 then []
    else
      var p := rs[..|rs| - 1];
      var x := rs[|rs| - 1];
      var prev := FormationIds(p);
      assert forall f :: Carried(rs, f) <==> Carried(p, f) || InFormation(x, f) by {
        forall f ensures Carried(rs, f) <==> Carried(p, f) || InFormation(x, f) {
          if Carried(p, f) {
            var i :| 0 <= i < |p| && InFormation(p[i], f);
            assert rs[i] == p[i];
          }
          if Carried(rs, f) {
            var i :| 0 <= i < |rs| && InFormation(rs[i], f);
            if i < |p| {
              assert p[i] == rs[i];
            }
          }
          if InFormation(x, f) {
            assert InFormation(rs[|rs| - 1], f);
          }
        }
      }
      if Grouped(x) && x.formation.value.formationId !in prev then prev + [x.formation.value.formationId]
      else prev
  }

  /** The robots carrying the formation id f, in fleet order. */
  function Group(rs: seq<Robot>, f: string): (g: seq<Robot>)
    ensures |g| <= |rs|
    ensures forall r :: r in g <==> r in rs && InFormation(r, f)
  {
    if |rs| == 0 then []
    else
      var p := rs[..|rs| - 1];
      assert forall r :: r in rs <==> r in p || r == rs[|rs| - 1];
      Group(p, f) + (if InFormation(rs[|rs| - 1], f) then [rs[|rs| - 1]] else [])
  }

  /** A group is empty exactly when no robot carries its id. */
  lemma GroupEmptyIff(rs: seq<Robot>, f: string)
    ensures |Group(rs, f)| == 0 <==> !Carried(rs, f)
  {
    var g := Group(rs, f);
    if |g| > 0 {
      assert g[0] in g;
      var i :| 0 <= i < |rs| && rs[i] == g[0];
    }
    if Carried(rs, f) {
      var i :| 0 <= i < |rs| && InFormation(rs[i], f);
      assert rs[i] in g;
    }
  }

  /** The sizes of the groups named by fs, added up. */
  function SumSizes(rs: seq<Robot>, fs: seq<string>): nat {
    if |fs| == 0 then 0 else SumSizes(rs, fs[..|fs| - 1]) + |Group(rs, fs[|fs| - 1])|
  }

  /** How often f occurs in fs. */
  function Occurrences(fs: seq<string>, f: string): (n: nat)
    ensures f !in fs ==> n == 0
  {
    if |fs| == 0 then 0
    else Occurrences(fs[..|fs| - 1], f) + (if fs[|fs| - 1] == f then 1 else 0)
  }

  lemma {:induction false} OccursOnce(fs: seq<string>, f: string)
    requires Distinct(fs) && f in fs
    ensures Occurrences(fs, f) == 1
  {
    var p := fs[..|fs| - 1];
    assert Distinct(p) by {
      assert forall i :: 0 <= i < |p| ==> p[i] == fs[i];
    }
    if fs[|fs| - 1] != f {
      assert f in p by {
        var k :| 0 <= k < |fs| && fs[k] == f;
        assert p[k] == f;
      }
      OccursOnce(p, f);
    } else {
      assert f !in p by {
        forall k | 0 <= k < |p| ensures p[k] != f {
          assert p[k] == fs[k];
        }
      }
    }
  }

  /** One more robot adds one to the size of each listing of its formation. */
  lemma {:induction false} SumSizesSnoc(rs: seq<Robot>, fs: seq<string>)
    requires |rs| > 0
    ensures var x := rs[|rs| - 1];
      SumSizes(rs, fs) == SumSizes(rs[..|rs| - 1], fs) +
        (if x.formation.Some? then Occurrences(fs, x.formation.value.formationId) else 0)
  {
    if |fs| > 0 {
      SumSizesSnoc(rs, fs[..|fs| - 1]);
    }
  }

  /** Robots carrying a non-empty formation id. */
  function GroupedCount(rs: seq<Robot>): (n: nat)
    ensures n <= |rs|
  {
    if |rs| == 0 then 0 else GroupedCount(rs[..|rs| - 1]) + (if Grouped(rs[|rs| - 1]) then 1 else 0)
  }

  /** The groups partition the robots that carry a formation id: their sizes
      add up to the number of such robots. */
  lemma {:induction false} GroupsPartition(rs: seq<Robot>)
    ensures SumSizes(rs, FormationIds(rs)) == GroupedCount(rs)
  {
    if |rs| > 0 {
      var p := rs[..|rs| - 1];
      var x := rs[|rs| - 1];
      var prev := FormationIds(p);
      GroupsPartition(p);
      SumSizesSnoc(rs, prev);
      if Grouped(x) {
        var f := x.formation.value.formationId;
        if f in prev {
          OccursOnce(prev, f);
        } else {
          assert !Carried(p, f);
          GroupEmptyIff(p, f);
          assert SumSizes(rs, prev + [f]) == SumSizes(rs, prev) + |Group(rs, f)|;
        }
      } else if x.formation.Some? {
        assert x.formation.value.formationId !in prev;
      }
    }
  }

  datatype Averages = Averages(cohesion: real, alignment: real, separation: real, overall: real)

  function Cohesions(qs: seq<Metrics>): seq<real> {
    seq(|qs|, i requires 0 <= i < |qs| => qs[i].cohesion)
  }

  function Alignments(qs: seq<Metrics>): seq<real> {
    seq(|qs|, i requires 0 <= i < |qs| => qs[i].alignment)
  }

  function Separations(qs: seq<Metrics>): seq<real> {
    seq(|qs|, i requires 0 <= i < |qs| => qs[i].separation)
  }

  function Overalls(qs: seq<Metrics>): seq<real> {
    seq(|qs|, i requires 0 <= i < |qs| => qs[i].overall)
  }

  /** Every score of every group lies in [0, 1] and the overall score is the
      weighted sum of the other three. */
  predicate WellFormed(qs: seq<Metrics>) {
    forall i :: 0 <= i < |qs| ==>
      && InUnit(qs[i].cohesion) && InUnit(qs[i].alignment) && InUnit(qs[i].separation)
      && qs[i].overall == qs[i].cohesion * 0.35 + qs[i].alignment * 0.30 + qs[i].separation * 0.35
  }

  /** Summing commutes with the weighting of the overall score. */
  lemma {:induction false} SumOverall(qs: seq<Metrics>)
    requires WellFormed(qs)
    ensures Sum(Overalls(qs)) ==
      Sum(Cohesions(qs)) * 0.35 + Sum(Alignments(qs)) * 0.30 + Sum(Separations(qs)) * 0.35
  {
    if |qs| > 0 {
      var p := qs[..|qs| - 1];
      assert WellFormed(p) by {
        assert forall i :: 0 <= i < |p| ==> p[i] == qs[i];
      }
      SumOverall(p);
      assert Overalls(qs)[..|qs| - 1] == Overalls(p);
      assert Cohesions(qs)[..|qs| - 1] == Cohesions(p);
      assert Alignments(qs)[..|qs| - 1] == Alignments(p);
      assert Separations(qs)[..|qs| - 1] == Separations(p);
    }
  }

  /** The mean of values in [0, 1] lies in [0, 1]. */
  lemma MeanInUnit(xs: seq<real>)
    requires |xs| > 0 && forall i :: 0 <= i < |xs| ==> InUnit(xs[i])
    ensures InUnit(Sum(xs) / |xs| as real)
    ensures (Sum(xs) / |xs| as real) * |xs| as real == Sum(xs)
  {
    SumBounds(xs, 0.0, 1.0);
    var n := |xs| as real;
    var m := Sum(xs) / n;
    assert m * n == Sum(xs);
  }

  /** The scores averaged over the groups; all zero when there is none. */
  function Average(qs: seq<Metrics>): (a: Averages)
    requires WellFormed(qs)
    ensures |qs| == 0 ==> a == Averages(0.0, 0.0, 0.0, 0.0)
    ensures InUnit(a.cohesion) && InUnit(a.alignment) && InUnit(a.separation)
    ensures a.overall == a.cohesion * 0.35 + a.alignment * 0.30 + a.separation * 0.35
  {
    if |qs| == 0 then Averages(0.0, 0.0, 0.0, 0.0)
    else
      var n := |qs| as real;
      MeanInUnit(Cohesions(qs));
      MeanInUnit(Alignments(qs));
      MeanInUnit(Separations(qs));
      SumOverall(qs);
      var c := Sum(Cohesions(qs)) / n;
      var a := Sum(Alignments(qs)) / n;
      var s := Sum(Separations(qs)) / n;
      var o := Sum(Overalls(qs)) / n;
      WeightedMean(Sum(Cohesions(qs)), Sum(Alignments(qs)), Sum(Separations(qs)), n);
      Averages(c, a, s, o)
  }

  /** Each averaged score is the mean of that score over the groups: times
      the number of groups it gives back their sum. */
  lemma AverageIsMean(qs: seq<Metrics>)
    requires WellFormed(qs) && |qs| > 0
    ensures var a := Average(qs); var n := |qs| as real;
      && a.cohesion * n == Sum(Cohesions(qs))
      && a.alignment * n == Sum(Alignments(qs))
      && a.separation * n == Sum(Separations(qs))
      && a.overall * n == Sum(Overalls(qs))
  {
    var n := |qs| as real;
    QuotientTimesDivisor(Sum(Cohesions(qs)), n);
    QuotientTimesDivisor(Sum(Alignments(qs)), n);
    QuotientTimesDivisor(Sum(Separations(qs)), n);
    QuotientTimesDivisor(Sum(Overalls(qs)), n);
  }

  /** Dividing a weighted sum divides each of its terms. */
  lemma WeightedMean(x: real, y: real, z: real, n: real)
    requires n > 0.0
    ensures (x * 0.35 + y * 0.30 + z * 0.35) / n == (x / n) * 0.35 + (y / n) * 0.30 + (z / n) * 0.35
  {
    var l := (x * 0.35 + y * 0.30 + z * 0.35) / n;
    var r := (x / n) * 0.35 + (y / n) * 0.30 + (z / n) * 0.35;
    assert (x / n) * n == x && (y / n) * n == y && (z / n) * n == z;
    assert r * n == x * 0.35 + y * 0.30 + z * 0.35;
    assert l * n == r * n;
  }

  datatype Statistics = Statistics(
    totalFormations: nat,
    totalRobotsInFormation: nat,
    formationIds: seq<string>,          // in order of first appearance
    sizes: map<string, nat>,
    quality: map<string, Metrics>,
    average: Averages,
    formationUpdates: nat,
    collisionCount: nat)

  function Qualities(rs: seq<Robot>, fs: seq<string>, dist: Distance): (qs: seq<Metrics>)
    ensures |qs| == |fs| && WellFormed(qs)
    ensures forall i :: 0 <= i < |fs| ==> qs[i] == Quality(Group(rs, fs[i]), dist)
  {
    seq(|fs|, i requires 0 <= i < |fs| => Quality(Group(rs, fs[i]), dist))
  }

  /** Each listed formation's size. */
  function SizeMap(rs: seq<Robot>, fs: seq<string>): (m: map<string, nat>)
    requires Distinct(fs)
    ensures |m| == |fs|
    ensures forall f :: f in m <==> f in fs
    ensures forall f :: f in m ==> m[f] == |Group(rs, f)|
  {
    var m := map f | f in fs :: |Group(rs, f)|;
    DistinctCard(fs);
    assert m.Keys == set f | f in fs;
    m
  }

  /** Each listed formation's quality. */
  function QualityMap(rs: seq<Robot>, fs: seq<string>, dist: Distance): (m: map<string, Metrics>)
    requires Distinct(fs)
    ensures |m| == |fs|
    ensures forall f :: f in m <==> f in fs
    ensures forall f :: f in m ==> m[f] == Quality(Group(rs, f), dist)
  {
    var m := map f | f in fs :: Quality(Group(rs, f), dist);
    DistinctCard(fs);
    assert m.Keys == set f | f in fs;
    m
  }

  /** Every formation carried by some robot has at least one robot. */
  lemma GroupsNonEmpty(rs: seq<Robot>)
    ensures forall f :: f in FormationIds(rs) ==> |Group(rs, f)| >= 1
  {
    forall f | f in FormationIds(rs) ensures |Group(rs, f)| >= 1 {
      GroupEmptyIff(rs, f);
    }
  }

  /** The statistics of the fleet's formations: one group per formation id
      carried, its size and quality, the number of robots in some formation,
      the scores averaged over the groups, and the controller's counters. */
  function GetFormationStatistics(c: Controller, dist: Distance): (st: Statistics)
    ensures Distinct(st.formationIds)
    ensures forall f :: f in st.formationIds <==> f != "" && Carried(c.robots, f)
    ensures st.totalFormations == |st.formationIds| == |st.sizes| == |st.quality|
    ensures forall f :: f in st.sizes <==> f in st.formationIds
    ensures forall f :: f in st.quality <==> f in st.formationIds
    ensures forall f :: f in st.sizes ==> st.sizes[f] == |Group(c.robots, f)| >= 1
    ensures forall f :: f in st.quality ==> st.quality[f] == Quality(Group(c.robots, f), dist)
    ensures st.totalRobotsInFormation == GroupedCount(c.robots)
    ensures InUnit(st.average.cohesion) && InUnit(st.average.alignment) && InUnit(st.average.separation)
    ensures st.average.overall ==
      st.average.cohesion * 0.35 + st.average.alignment * 0.30 + st.average.separation * 0.35
    ensures st.totalFormations == 0 ==> st.average == Averages(0.0, 0.0, 0.0, 0.0)
    ensures st.average == Average(Qualities(c.robots, st.formationIds, dist))
    ensures st.formationUpdates == c.formationUpdates && st.collisionCount == c.collisionCount
  {
    var rs := c.robots;
    var fs := FormationIds(rs);
    GroupsNonEmpty(rs);
    GroupsPartition(rs);
    Statistics(|fs|, SumSizes(rs, fs), fs, SizeMap(rs, fs), QualityMap(rs, fs, dist),
               Average(Qualities(rs, fs, dist)), c.formationUpdates, c.collisionCount)
  }

  /** A list without repeats has as many distinct elements as entries. */
  lemma {:induction false} DistinctCard(fs: seq<string>)
    requires Distinct(fs)
    ensures |set f | f in fs| == |fs|
  {
    if |fs| > 0 {
      var p := fs[..|fs| - 1];
      assert Distinct(p) by {
        assert forall i :: 0 <= i < |p| ==> p[i] == fs[i];
      }
      DistinctCard(p);
      assert fs[|fs| - 1] !in p;
      assert (set f | f in fs) == (set f | f in p) + {fs[|fs| - 1]};
    }
  }
}

=== FILE: structures.dfy ===
/** Creating a formation: the chosen robots that the fleet knows are given a
    place in a new formation, laid out as a line, a square-ish grid, a line
    behind a leader, or left free to flock.  The four-digit suffix of the
    formation id is drawn at random outside the model and passed in. */
module Structures {
  import opened Swarm
  import opened Formation

  /** The layout named by the formation type; every unrecognised name flocks. */
  datatype Kind = LeaderFollower | Line | Grid | Free

  /** Which leader-follower layout is used: the controller's own, where a
      follower's place is its position in the list, or the corrected one,
      where the followers fill the places behind the leader. */
  datatype Layout = AsWritten | Corrected

  function KindOf(ftype: string): Kind {
    if ftype == "leader_follower" then LeaderFollower
    else if ftype == "line" then Line
    else if ftype == "grid" then Grid
    else Free
  }

  /** Upper-casing of ASCII letters; every other character is kept. */
  function UpperChar(ch: char): char {
    if 'a' <= ch <= 'z' then (ch as int - 'a' as int + 'A' as int) as char else ch
  }

  function Upper(s: string): (u: string)
    ensures |u| == |s|
    ensures forall i :: 0 <= i < |s| ==> u[i] == UpperChar(s[i])
  {
    seq(|s|, i requires 0 <= i < |s| => UpperChar(s[i]))
  }

  /** An upper-cased name holds no lower-case ASCII letter, and upper-casing
      it again changes nothing. */
  lemma UpperIdempotent(s: string)
    ensures forall i :: 0 <= i < |s| ==> !('a' <= Upper(s)[i] <= 'z')
    ensures Upper(Upper(s)) == Upper(s)
  {
  }

  predicate IsDigit(ch: char) {
    '0' <= ch <= '9'
  }

  function DigitChar(d: nat): (ch: char)
    requires d < 10
    ensures IsDigit(ch)
  {
    ('0' as int + d) as char
  }

  /** The decimal numeral of n, without leading zeros. */
  function Decimal(n: nat): (s: string)
    ensures |s| >= 1 && forall i :: 0 <= i < |s| ==> IsDigit(s[i])
  {
    if n < 10 then [DigitChar(n)] else Decimal(n / 10) + [DigitChar(n % 10)]
  }

  /** The value of a numeral. */
  function ParseDecimal(s: string): nat
    requires forall i :: 0 <= i < |s| ==> IsDigit(s[i])
  {
    if |s| == 0 then 0
    else
      assert IsDigit(s[|s| - 1]);
      ParseDecimal(s[..|s| - 1]) * 10 + (s[|s| - 1] as int - '0' as int)
  }

  lemma {:induction false} DecimalRoundTrip(n: nat)
    ensures ParseDecimal(Decimal(n)) == n
  {
    if n >= 10 {
      DecimalRoundTrip(n / 10);
      var s := Decimal(n);
      assert s[..|s| - 1] == Decimal(n / 10);
    }
  }

  /** Numbers drawn from 1000 to 9999 have four digits. */
  lemma DecimalFourDigits(n: nat)
    requires 1000 <= n <= 9999
    ensures |Decimal(n)| == 4
  {
    var m := n / 10;
    var k := m / 10;
    var j := k / 10;
    assert 1 <= j < 10 && k >= 10 && m >= 10;
    assert |Decimal(j)| == 1;
    assert |Decimal(k)| == 2;
    assert |Decimal(m)| == 3;
  }

  const IdPrefix: string := "FORMATION-"

  /** "FORMATION-", the upper-cased type, "-" and the random suffix. */
  function FormationId(ftype: string, suffix: nat): string {
    IdPrefix + Upper(ftype) + "-" + Decimal(suffix)
  }

  /** The formation id names its type and gives back its suffix: the last
      four characters read as the number drawn. */
  lemma FormationIdParts(ftype: string, suffix: nat)
    requires 1000 <= suffix <= 9999
    ensures var id := FormationId(ftype, suffix);
      && |id| == |IdPrefix| + |ftype| + 5
      && id[..|IdPrefix|] == IdPrefix
      && id[|IdPrefix|..|IdPrefix| + |ftype|] == Upper(ftype)
      && ParseDecimal(id[|id| - 4..]) == suffix
  {
    DecimalFourDigits(suffix);
    DecimalRoundTrip(suffix);
    var id := FormationId(ftype, suffix);
    assert id[|id| - 4..] == Decimal(suffix);
    assert id[..|IdPrefix|] == IdPrefix;
    assert id[|IdPrefix|..|IdPrefix| + |ftype|] == Upper(ftype);
  }

  /** Two formations of one type get the same id only when the same suffix
      was drawn. */
  lemma FormationIdInjective(ftype: string, s1: nat, s2: nat)
    requires 1000 <= s1 <= 9999 && 1000 <= s2 <= 9999
    requires FormationId(ftype, s1) == FormationId(ftype, s2)
    ensures s1 == s2
  {
    FormationIdParts(ftype, s1);
    FormationIdParts(ftype, s2);
  }

  /** The requested ids the fleet knows, in request order, repeats kept. */
  function ValidIds(rs: seq<Robot>, ids: seq<RobotId>): (v: seq<RobotId>)
    ensures |v| <= |ids|
    ensures forall x :: x in v <==> x in ids && x in Ids(rs)
    ensures ids == [] ==> v == []
  {
    if |ids| == 0 then []
    else
      var p := ids[..|ids| - 1];
      assert forall x :: x in ids <==> x in p || x == ids[|ids| - 1];
      ValidIds(rs, p) + (if ids[|ids| - 1] in Ids(rs) then [ids[|ids| - 1]] else [])
  }

  /** When every requested id is known, all of them are valid, in order. */
  lemma {:induction false} ValidIdsAllKnown(rs: seq<Robot>, ids: seq<RobotId>)
    requires forall i :: 0 <= i < |ids| ==> ids[i] in Ids(rs)
    ensures ValidIds(rs, ids) == ids
  {
    if |ids| > 0 {
      var n := |ids| - 1;
      var p, last := ids[..n], ids[n];
      assert last in Ids(rs);
      assert ids == p + [last];
      ValidIdsAllKnown(rs, p);
      ValidIdsSnoc(rs, p, last);
    }
  }

  /** Filtering a concatenation filters each part and keeps them in order. */
  lemma {:induction false} ValidIdsAppend(rs: seq<Robot>, a: seq<RobotId>, b: seq<RobotId>)
    ensures ValidIds(rs, a + b) == ValidIds(rs, a) + ValidIds(rs, b)
    decreases |b|
  {
    if |b| == 0 {
      assert a + b == a;
    } else {
      var n := |b| - 1;
      var front, x := b[..n], b[n];
      assert a + b == (a + front) + [x];
      assert b == front + [x];
      ValidIdsSnoc(rs, a + front, x);
      ValidIdsSnoc(rs, front, x);
      ValidIdsAppend(rs, a, front);
    }
  }

  /** Appending one id to the request appends it to the valid ids when it is known. */
  lemma ValidIdsSnoc(rs: seq<Robot>, p: seq<RobotId>, x: RobotId)
    ensures ValidIds(rs, p + [x]) == ValidIds(rs, p) + (if x in Ids(rs) then [x] else [])
  {
    assert (p + [x])[..|p|] == p;
  }

  /** A single id is kept exactly when the fleet knows it. */
  lemma ValidIdsSingle(rs: seq<Robot>, x: RobotId)
    ensures ValidIds(rs, [x]) == if x in Ids(rs) then [x] else []
  {
    assert [x][..0] == [];
  }

  /** Fewer valid robots than this and no formation is created. */
  const MinimumRobots: nat := 2

  /** The leader of a leader-follower formation: the requested one when it is
      named and valid, the first valid robot otherwise. */
  function ChooseLeader(valid: seq<RobotId>, leader: Option<RobotId>): (l: RobotId)
    requires |valid| > 0
    ensures l in valid
    ensures leader.Some? && leader.value != "" && leader.value in valid ==> l == leader.value
    ensures !(leader.Some? && leader.value != "" && leader.value in valid) ==> l == valid[0]
  {
    if leader.Some? && leader.value != "" && leader.value in valid then leader.value else valid[0]
  }

  /** Position of the first occurrence of x. */
  function IndexOf(xs: seq<RobotId>, x: RobotId): (k: nat)
    requires x in xs
    ensures k < |xs| && xs[k] == x
    ensures forall i :: 0 <= i < k ==> xs[i] != x
  {
    if xs[0] == x then 0 else 1 + IndexOf(xs[1..], x)
  }

  /** Spacing between neighbouring places, in metres. */
  const Spacing: real := 5.0

  /** The i-th place on a line along x. */
  function LineSlot(i: nat, fid: string): Slot {
    Slot(i, fid, Some(Target(Spacing * i as real, 0.0)))
  }

  /** Number of grid columns for n robots: the ceiling of the square root of n. */
  function CeilSqrt(n: nat): (c: nat)
    ensures c * c >= n
    ensures c > 0 ==> (c - 1) * (c - 1) < n
  {
    CeilSqrtFrom(n, 0)
  }

  function CeilSqrtFrom(n: nat, c: nat): (r: nat)
    requires c == 0 || (c - 1) * (c - 1) < n
    ensures r * r >= n
    ensures r > 0 ==> (r - 1) * (r - 1) < n
    decreases n - c
  {
    if c * c >= n then c
    else
      assert c <= c * c;
      CeilSqrtFrom(n, c + 1)
  }

  /** The i-th place of a grid with the given number of columns, filled row
      by row. */
  function GridSlot(i: nat, cols: nat, fid: string): Slot
    requires cols > 0
  {
    Slot(i, fid, Some(Target(Spacing * (i % cols) as real, Spacing * (i / cols) as real)))
  }

  /** The leader's place: the origin of the formation. */
  function LeaderSlot(fid: string): Slot {
    Slot(0, fid, Some(Target(0.0, 0.0)))
  }

  /** The place in line behind the leader of the follower id: its position
      among the valid robots, moved up by one when it comes before the leader,
      so that the followers fill the places 1, 2, ... */
  function FollowerRank(valid: seq<RobotId>, leader: RobotId, id: RobotId): (r: nat)
    requires id in valid && leader in valid && id != leader
    ensures 1 <= r < |valid|
  {
    var i := IndexOf(valid, id);
    if i < IndexOf(valid, leader) then i + 1 else i
  }

  /** The places of a leader-follower formation, valid robot by valid robot. */
  function LeaderFollowerPlan(valid: seq<RobotId>, leader: RobotId, fid: string): (p: seq<Slot>)
    requires leader in valid
    ensures |p| == |valid|
    ensures forall i :: 0 <= i < |valid| && valid[i] == leader ==> p[i] == LeaderSlot(fid)
    ensures forall i :: 0 <= i < |valid| && valid[i] != leader ==>
      p[i] == LineSlot(FollowerRank(valid, leader, valid[i]), fid)
  {
    seq(|valid|, i requires 0 <= i < |valid| =>
      if valid[i] == leader then LeaderSlot(fid) else LineSlot(FollowerRank(valid, leader, valid[i]), fid))
  }

  /** The same places as the controller writes them: a follower's place is
      its position among the valid robots, whatever the leader's position. */
  function LeaderFollowerPlanAsWritten(valid: seq<RobotId>, leader: RobotId, fid: string): (p: seq<Slot>)
    requires leader in valid
    ensures |p| == |valid|
    ensures forall i :: 0 <= i < |valid| && valid[i] == leader ==> p[i] == LeaderSlot(fid)
    ensures forall i :: 0 <= i < |valid| && valid[i] != leader ==>
      p[i] == LineSlot(IndexOf(valid, valid[i]), fid)
  {
    seq(|valid|, i requires 0 <= i < |valid| =>
      if valid[i] == leader then LeaderSlot(fid) else LineSlot(IndexOf(valid, valid[i]), fid))
  }

  /** With the leader named second, the first robot is sent to the leader's
      own place at the origin. */
  lemma AsWrittenFollowerTakesLeaderTarget(fid: string)
    ensures var p := LeaderFollowerPlanAsWritten(["a", "b"], "b", fid);
      p[0].target == p[1].target == Some(Target(0.0, 0.0)) && p[0].index == p[1].index == 0
  {
    var valid: seq<RobotId> := ["a", "b"];
    assert valid[0] != valid[1];
    assert IndexOf(valid, "a") == 0;
  }

  /** When the leader is the first valid robot both plans agree. */
  lemma PlansAgreeWhenLeaderFirst(valid: seq<RobotId>, fid: string)
    requires |valid| > 0
    ensures LeaderFollowerPlan(valid, valid[0], fid) == LeaderFollowerPlanAsWritten(valid, valid[0], fid)
  {
    var p := LeaderFollowerPlan(valid, valid[0], fid);
    var q := LeaderFollowerPlanAsWritten(valid, valid[0], fid);
    assert IndexOf(valid, valid[0]) == 0;
    assert forall i :: 0 <= i < |valid| ==> p[i] == q[i];
  }

  /** The places for the valid robots, position by position, with the
      leader-follower layout chosen by layout. */
  function Plan(valid: seq<RobotId>, kind: Kind, leader: RobotId, fid: string, layout: Layout): (p: seq<Slot>)
    requires leader in valid
    ensures |p| == |valid|
    ensures forall i :: 0 <= i < |valid| ==> p[i].formationId == fid
    ensures kind == Free ==> forall i :: 0 <= i < |valid| ==> p[i].target.None?
    ensures kind != Free ==> forall i :: 0 <= i < |valid| ==> p[i].target.Some?
    ensures kind != LeaderFollower ==> forall i :: 0 <= i < |valid| ==> p[i].index == i
    ensures forall i :: 0 <= i < |valid| ==> p[i].index < |valid|
  {
    match kind
    case LeaderFollower =>
      if layout == Corrected then LeaderFollowerPlan(valid, leader, fid)
      else LeaderFollowerPlanAsWritten(valid, leader, fid)
    case Line => LinePlan(|valid|, fid)
    case Grid => GridPlan(|valid|, CeilSqrt(|valid|), fid)
    case Free => seq(|valid|, i requires 0 <= i < |valid| => Slot(i, fid, None))
  }

  /** n places in a line along x, one spacing apart. */
  function LinePlan(n: nat, fid: string): (p: seq<Slot>)
    ensures |p| == n
    ensures forall i :: 0 <= i < n ==>
      p[i].index == i && p[i].formationId == fid && p[i].target == Some(Target(Spacing * i as real, 0.0))
  {
    seq(n, i requires 0 <= i < n => LineSlot(i, fid))
  }

  /** n places filled row by row into cols columns, one spacing apart. */
  function GridPlan(n: nat, cols: nat, fid: string): (p: seq<Slot>)
    requires cols > 0
    ensures |p| == n
    ensures forall i :: 0 <= i < n ==>
      && p[i].index == i && p[i].formationId == fid
      && p[i].target == Some(Target(Spacing * (i % cols) as real, Spacing * (i / cols) as real))
  {
    seq(n, i requires 0 <= i < n => GridSlot(i, cols, fid))
  }

  /** A follower of a leader-follower formation is placed in the line along
      x behind the leader: with the corrected layout at its rank among the
      followers, with the controller's own at its position among the valid
      robots. */
  lemma PlanLeaderFollower(valid: seq<RobotId>, leader: RobotId, fid: string, layout: Layout, i: nat)
    requires leader in valid && i < |valid| && valid[i] != leader
    ensures var p := Plan(valid, LeaderFollower, leader, fid, layout);
      var r := if layout == Corrected then FollowerRank(valid, leader, valid[i]) else IndexOf(valid, valid[i]);
      p[i] == LineSlot(r, fid)
  {
  }

  /** A line puts the i-th robot i spacings along x; a leader-follower
      formation puts its leader at the origin. */
  lemma PlanLine(valid: seq<RobotId>, leader: RobotId, fid: string, layout: Layout, i: nat)
    requires leader in valid && i < |valid|
    ensures Plan(valid, Line, leader, fid, layout)[i].target == Some(Target(Spacing * i as real, 0.0))
    ensures valid[i] == leader ==>
      var q := Plan(valid, LeaderFollower, leader, fid, layout)[i];
      q.index == 0 && q.target == Some(Target(0.0, 0.0))
  {
  }

  /** A grid fills its ceil(sqrt n) columns row by row: the i-th robot goes
      to column i % cols and row i / cols. */
  lemma PlanGrid(valid: seq<RobotId>, leader: RobotId, fid: string, layout: Layout, i: nat)
    requires leader in valid && i < |valid|
    ensures var cols := CeilSqrt(|valid|);
      && cols > 0
      && Plan(valid, Grid, leader, fid, layout)[i].target
           == Some(Target(Spacing * (i % cols) as real, Spacing * (i / cols) as real))
  {
  }

  lemma LineTargetsInjective(i: nat, j: nat, fid: string)
    requires LineSlot(i, fid).target == LineSlot(j, fid).target
    ensures i == j
  {
  }

  /** Distinct grid positions get distinct places. */
  lemma GridTargetsInjective(i: nat, j: nat, cols: nat, fid: string)
    requires cols > 0
    requires GridSlot(i, cols, fid).target == GridSlot(j, cols, fid).target
    ensures i == j
  {
    assert i % cols == j % cols && i / cols == j / cols;
    assert i == cols * (i / cols) + i % cols;
    assert j == cols * (j / cols) + j % cols;
  }

  lemma {:induction false} MulMonotone(a: nat, b: nat, c: nat)
    requires a <= b
    ensures a * c <= b * c
  {
    if c > 0 {
      MulMonotone(a, b, c - 1);
    }
  }

  /** The grid is square-ish: its rows never outnumber its columns. */
  lemma GridFitsSquare(n: nat, i: nat)
    requires i < n
    ensures var cols := CeilSqrt(n);
      cols > 0 && i % cols < cols && i / cols < cols
  {
    var cols := CeilSqrt(n);
    assert cols > 0;
    if i / cols >= cols {
      MulMonotone(cols, i / cols, cols);
    }
  }

  /** Two different followers never share a place in line, and no follower
      takes the leader's. */
  lemma FollowerRanksDistinct(valid: seq<RobotId>, leader: RobotId, i: nat, j: nat)
    requires Distinct(valid) && leader in valid
    requires i < j < |valid| && valid[i] != leader && valid[j] != leader
    ensures FollowerRank(valid, leader, valid[i]) != FollowerRank(valid, leader, valid[j])
  {
    assert IndexOf(valid, valid[i]) == i;
    assert IndexOf(valid, valid[j]) == j;
  }

  /** For robots listed once each, every structured layout gives every robot
      a different place and a different position number; the controller's
      own leader-follower layout does so only when the leader is listed
      first. */
  lemma PlanPlacesDistinct(valid: seq<RobotId>, kind: Kind, leader: RobotId, fid: string, layout: Layout,
                           i: nat, j: nat)
    requires Distinct(valid) && leader in valid
    requires kind != Free && i < j < |valid|
    requires layout == Corrected || kind != LeaderFollower || leader == valid[0]
    ensures var p := Plan(valid, kind, leader, fid, layout);
      p[i].target != p[j].target && p[i].index != p[j].index
  {
    var p := Plan(valid, kind, leader, fid, layout);
    match kind
    case LeaderFollower =>
      if layout == AsWritten {
        PlansAgreeWhenLeaderFirst(valid, fid);
      }
      assert p == LeaderFollowerPlan(valid, leader, fid);
      if valid[i] != leader && valid[j] != leader {
        FollowerRanksDistinct(valid, leader, i, j);
        if p[i].target == p[j].target {
          LineTargetsInjective(FollowerRank(valid, leader, valid[i]), FollowerRank(valid, leader, valid[j]), fid);
        }
      }
    case Line =>
      if p[i].target == p[j].target {
        LineTargetsInjective(i, j, fid);
      }
    case Grid =>
      if p[i].target == p[j].target {
        GridTargetsInjective(i, j, CeilSqrt(|valid|), fid);
      }
  }

  /** Gives every record with the given id the place s. */
  function SetSlot(rs: seq<Robot>, id: RobotId, s: Slot): (out: seq<Robot>)
    ensures |out| == |rs|
    ensures forall i :: 0 <= i < |rs| ==>
      out[i] == if rs[i].id == id then rs[i].(formation := Some(s)) else rs[i]
  {
    seq(|rs|, i requires 0 <= i < |rs| => if rs[i].id == id then rs[i].(formation := Some(s)) else rs[i])
  }

  /** Position of the last occurrence of x. */
  function LastIndex(xs: seq<RobotId>, x: RobotId): (k: nat)
    requires x in xs
    ensures k < |xs| && xs[k] == x
    ensures forall j :: k < j < |xs| ==> xs[j] != x
  {
    if xs[|xs| - 1] == x then |xs| - 1
    else
      assert x in xs[..|xs| - 1] by {
        var k :| 0 <= k < |xs| && xs[k] == x;
        assert xs[..|xs| - 1][k] == x;
      }
      LastIndex(xs[..|xs| - 1], x)
  }

  /** Writes the places in valid-robot order; a robot listed twice keeps the
      place of its last listing. */
  function Assign(rs: seq<Robot>, valid: seq<RobotId>, plan: seq<Slot>): (out: seq<Robot>)
    requires |plan| == |valid|
    ensures |out| == |rs|
    ensures forall i :: 0 <= i < |rs| && rs[i].id !in valid ==> out[i] == rs[i]
    ensures forall i :: 0 <= i < |rs| && rs[i].id in valid ==>
      out[i] == rs[i].(formation := Some(plan[LastIndex(valid, rs[i].id)]))
  {
    if |valid| == 0 then rs
    else
      var n := |valid|;
      assert forall x :: x in valid <==> x in valid[..n - 1] || x == valid[n - 1];
      SetSlot(Assign(rs, valid[..n - 1], plan[..n - 1]), valid[n - 1], plan[n - 1])
  }

  datatype CreateReport =
    | TooFewRobots(minimumRequired: nat)
    | Created(formationId: string, formationType: string, robotsCount: nat,
              robots: seq<RobotId>, leader: Option<RobotId>)

  /** Creates a formation of type ftype from the robots ids.  With fewer than
      two of them known to the fleet nothing changes and creation fails.
      Otherwise each valid robot gets its place in the new formation, every
      other record and both counters are left alone, and the report names
      the formation, its robots and, for a leader-follower formation only,
      its leader. */
  function CreateFormation(c: Controller, ids: seq<RobotId>, ftype: string,
                           leader: Option<RobotId>, suffix: nat, layout: Layout): (out: (CreateReport, Controller))
    requires 1000 <= suffix <= 9999
    ensures var valid := ValidIds(c.robots, ids);
      && (out.0.TooFewRobots? <==> |valid| < MinimumRobots)
      && (out.0.TooFewRobots? ==> out == (TooFewRobots(MinimumRobots), c))
    ensures out.0.Created? ==>
      && out.0.formationId == FormationId(ftype, suffix)
      && out.0.formationType == ftype
      && out.0.robots == ValidIds(c.robots, ids)
      && out.0.robotsCount == |out.0.robots| >= MinimumRobots
      && (out.0.leader.Some? <==> ftype == "leader_follower")
      && (out.0.leader.Some? ==> out.0.leader.value in out.0.robots)
      && (out.0.leader.Some? && leader.Some? && leader.value != "" && leader.value in out.0.robots ==>
            out.0.leader == leader)
      && out.1.formationUpdates == c.formationUpdates
      && out.1.collisionCount == c.collisionCount
      && |out.1.robots| == |c.robots|
    ensures out.0.Created? ==> forall i :: 0 <= i < |c.robots| ==>
      && (c.robots[i].id !in ids ==> out.1.robots[i] == c.robots[i])
      && (c.robots[i].id in ids ==>
            && out.1.robots[i] == c.robots[i].(formation := out.1.robots[i].formation)
            && InFormation(out.1.robots[i], out.0.formationId))
  {
    var valid := ValidIds(c.robots, ids);
    if |valid| < MinimumRobots then (TooFewRobots(MinimumRobots), c)
    else
      var fid := FormationId(ftype, suffix);
      var kind := KindOf(ftype);
      var chief := ChooseLeader(valid, leader);
      var plan := Plan(valid, kind, chief, fid, layout);
      var rs := Assign(c.robots, valid, plan);
      assert forall i :: 0 <= i < |c.robots| ==> c.robots[i].id in Ids(c.robots);
      (Created(fid, ftype, |valid|, valid, if kind == LeaderFollower then Some(chief) else None),
       c.(robots := rs))
  }

  /** Each valid robot's new place is its planned place (its last listing's,
      should it be listed twice). */
  lemma CreatedPlaces(c: Controller, ids: seq<RobotId>, ftype: string, leader: Option<RobotId>,
                      suffix: nat, layout: Layout, i: nat)
    requires 1000 <= suffix <= 9999
    requires i < |c.robots|
    ensures var out := CreateFormation(c, ids, ftype, leader, suffix, layout);
      var valid := ValidIds(c.robots, ids);
      out.0.Created? && c.robots[i].id in ids ==>
        out.1.robots[i].formation ==
          Some(Plan(valid, KindOf(ftype), ChooseLeader(valid, leader), out.0.formationId, layout)
                 [LastIndex(valid, c.robots[i].id)])
  {
    assert c.robots[i].id in Ids(c.robots);
  }

  /** Two different robots listed once each keep different places after the
      places are written. */
  lemma PlanPlacesDistinctById(valid: seq<RobotId>, kind: Kind, leader: RobotId, fid: string, layout: Layout,
                               x: RobotId, y: RobotId)
    requires Distinct(valid) && leader in valid && kind != Free
    requires layout == Corrected || kind != LeaderFollower || leader == valid[0]
    requires x in valid && y in valid && x != y
    ensures var p := Plan(valid, kind, leader, fid, layout);
      p[LastIndex(valid, x)].target != p[LastIndex(valid, y)].target
  {
    var a := LastIndex(valid, x);
    var b := LastIndex(valid, y);
    if a < b {
      PlanPlacesDistinct(valid, kind, leader, fid, layout, a, b);
    } else {
      PlanPlacesDistinct(valid, kind, leader, fid, layout, b, a);
    }
  }

  /** In a structured formation of robots listed once each, no two robots of
      the fleet are sent to the same place: always with the corrected
      layout, and with the controller's own only when no leader is named, so
      that the first valid robot leads. */
  lemma CreatedPlacesDistinct(c: Controller, ids: seq<RobotId>, ftype: string, leader: Option<RobotId>,
                              suffix: nat, layout: Layout, i: nat, j: nat)
    requires 1000 <= suffix <= 9999
    requires UniqueIds(c.robots) && Distinct(ids)
    requires KindOf(ftype) != Free
    requires layout == Corrected || KindOf(ftype) != LeaderFollower || leader.None?
    requires i < j < |c.robots| && c.robots[i].id in ids && c.robots[j].id in ids
    ensures var out := CreateFormation(c, ids, ftype, leader, suffix, layout);
      out.0.Created? ==>
        out.1.robots[i].formation.value.target != out.1.robots[j].formation.value.target
  {
    var out := CreateFormation(c, ids, ftype, leader, suffix, layout);
    if out.0.Created? {
      var valid := ValidIds(c.robots, ids);
      ValidIdsDistinct(c.robots, ids);
      CreatedPlaces(c, ids, ftype, leader, suffix, layout, i);
      CreatedPlaces(c, ids, ftype, leader, suffix, layout, j);
      assert c.robots[i].id in Ids(c.robots) && c.robots[j].id in Ids(c.robots);
      PlanPlacesDistinctById(valid, KindOf(ftype), ChooseLeader(valid, leader), out.0.formationId, layout,
                             c.robots[i].id, c.robots[j].id);
    }
  }

  /** The controller's own layout at work: creating a leader-follower
      formation of robots "a" and "b" led by "b" sends both to the origin. */
  lemma AsWrittenCreateCollides(a: Robot, b: Robot)
    requires a.id == "a" && b.id == "b"
    ensures var out := CreateFormation(Controller([a, b], 0, 0), ["a", "b"], "leader_follower",
                                       Some("b"), 1000, AsWritten);
      && out.0.Created?
      && out.1.robots[0].formation == Some(Slot(0, out.0.formationId, Some(Target(0.0, 0.0))))
      && out.1.robots[1].formation == Some(Slot(0, out.0.formationId, Some(Target(0.0, 0.0))))
  {
    var c := Controller([a, b], 0, 0);
    var ids: seq<RobotId> := ["a", "b"];
    PairChoices(c.robots, ids);
    var out := CreateFormation(c, ids, "leader_follower", Some("b"), 1000, AsWritten);
    var fid := out.0.formationId;
    AsWrittenFollowerTakesLeaderTarget(fid);
    CreatedPlaces(c, ids, "leader_follower", Some("b"), 1000, AsWritten, 0);
    CreatedPlaces(c, ids, "leader_follower", Some("b"), 1000, AsWritten, 1);
  }

  /** The choices CreateFormation makes for robots "a" and "b" led by "b". */
  lemma PairChoices(rs: seq<Robot>, ids: seq<RobotId>)
    requires |rs| == 2 && rs[0].id == "a" && rs[1].id == "b" && ids == ["a", "b"]
    ensures ValidIds(rs, ids) == ids
    ensures KindOf("leader_follower") == LeaderFollower
    ensures ChooseLeader(ids, Some("b")) == "b"
    ensures LastIndex(ids, rs[0].id) == 0 && LastIndex(ids, rs[1].id) == 1
    ensures Plan(ids, LeaderFollower, "b", FormationId("leader_follower", 1000), AsWritten)
         == LeaderFollowerPlanAsWritten(ids, "b", FormationId("leader_follower", 1000))
  {
    ValidIdsAllKnown(rs, ids);
  }

  /** Filtering keeps a list free of repeats. */
  lemma {:induction false} ValidIdsDistinct(rs: seq<Robot>, ids: seq<RobotId>)
    requires Distinct(ids)
    ensures Distinct(ValidIds(rs, ids))
  {
    if |ids| > 0 {
      var p := ids[..|ids| - 1];
      assert Distinct(p) by {
        assert forall i :: 0 <= i < |p| ==> p[i] == ids[i];
      }
      ValidIdsDistinct(rs, p);
      assert ids[|ids| - 1] !in p;
    }
  }
}

=== FILE: swarm.dfy ===
/** The swarm snapshot shared by the three coordination engines: robot and task
    records, the id-keyed fleet, and a few generic helpers over sequences. */
module Swarm {

  datatype Option<+T> = None | Some(value: T)

  type RobotId = string
  type TaskId = string

  /** Distances, as produced by the great-circle formula, are never negative. */
  type NonNeg = x: real | x >= 0.0

  /** Operational status of a robot; any status string other than the three
      the engines test for is kept by name. */
  datatype Operational = Working | Idle | Charging | OtherStatus(name: string)

  /** Raft role of a robot. */
  datatype Role = Follower | Candidate | Leader

  datatype Coord = Coord(lat: real, lon: real)

  /** Task priority; unlisted priority strings are kept by name. */
  datatype Priority = Low | Medium | High | OtherPriority(name: string)

  /** The task a robot is currently working on. */
  datatype Assignment = Assignment(taskId: TaskId, taskType: string, priority: Priority,
                                   progress: real, etaMinutes: real)

  /** Target offset of a robot inside a virtual structure, in metres. */
  datatype Target = Target(x: real, y: real)

  /** A robot's place in a formation. */
  datatype Slot = Slot(index: nat, formationId: string, target: Option<Target>)

  datatype Robot = Robot(
    id: RobotId,
    kind: string,
    battery: real,              // state of charge, percent
    operational: Operational,
    uptimeHours: real,
    connected: bool,
    neighbors: seq<RobotId>,    // communication neighbours as listed in the record
    role: Role,
    votedFor: Option<RobotId>,
    term: int,
    position: Coord,
    heading: real,              // degrees
    assignment: Option<Assignment>,
    formation: Option<Slot>)

  datatype Task = Task(
    id: TaskId,
    taskType: string,
    priority: Priority,
    robotType: string,          // required robot type
    minBattery: real,           // required battery percent
    status: string,             // "open", "allocated", ...
    allocatedTo: Option<RobotId>)

  /** The ids of a fleet, in fleet order. */
  function Ids(rs: seq<Robot>): (ids: seq<RobotId>)
    ensures |ids| == |rs|
    ensures forall i :: 0 <= i < |rs| ==> ids[i] == rs[i].id
  {
    seq(|rs|, i requires 0 <= i < |rs| => rs[i].id)
  }

  predicate Distinct<T(==)>(s: seq<T>) {
    forall i, j :: 0 <= i < j < |s| ==> s[i] != s[j]
  }

  /** A fleet is keyed by id: no two records share an id. */
  predicate UniqueIds(rs: seq<Robot>) {
    forall i, j :: 0 <= i < j < |rs| ==> rs[i].id != rs[j].id
  }

  /** Position of the record with the given id, if there is one. */
  function Find(rs: seq<Robot>, id: RobotId): (k: Option<nat>)
    ensures k.Some? ==> k.value < |rs| && rs[k.value].id == id
    ensures k.None? <==> id !in Ids(rs)
    ensures k.Some? ==> forall i :: 0 <= i < k.value ==> rs[i].id != id
  {
    if |rs| == 0 then None
    else if rs[0].id == id then Some(0)
    else match Find(rs[1..], id)
      case None => None
      case Some(k) => Some(k + 1)
  }

  /** The first position holding a maximal value: the element a stable sort in
      descending order puts first. */
  function ArgMax(xs: seq<real>): (k: nat)
    requires |xs| > 0
    ensures k < |xs|
    ensures forall i :: 0 <= i < |xs| ==> xs[i] <= xs[k]
    ensures forall i :: 0 <= i < k ==> xs[i] < xs[k]
  {
    if |xs| == 1 then 0
    else
      var k := ArgMax(xs[..|xs| - 1]);
      if xs[|xs| - 1] > xs[k] then |xs| - 1 else k
  }

  /** Number of elements satisfying a predicate. */
  function Count<T>(xs: seq<T>, p: T -> bool): (n: nat)
    ensures n <= |xs|
  {
    if |xs| == 0 then 0
    else Count(xs[..|xs| - 1], p) + (if p(xs[|xs| - 1]) then 1 else 0)
  }

  lemma CountSnoc<T>(xs: seq<T>, x: T, p: T -> bool)
    ensures Count(xs + [x], p) == Count(xs, p) + (if p(x) then 1 else 0)
  {
    assert (xs + [x])[..|xs|] == xs;
  }

  /** Records satisfying a predicate, in fleet order. */
  function Filter(rs: seq<Robot>, p: Robot -> bool): (out: seq<Robot>)
    ensures |out| == Count(rs, p)
    ensures forall r :: r in out <==> r in rs && p(r)
  {
    if |rs| == 0 then []
    else Filter(rs[..|rs| - 1], p) + (if p(rs[|rs| - 1]) then [rs[|rs| - 1]] else [])
  }

  function Max(a: real, b: real): real {
    if a >= b then a else b
  }

  function Sum(xs: seq<real>): real {
    if |xs| == 0 then 0.0 else Sum(xs[..|xs| - 1]) + xs[|xs| - 1]
  }

  lemma {:induction false} SumBounds(xs: seq<real>, lo: real, hi: real)
    requires forall i :: 0 <= i < |xs| ==> lo <= xs[i] <= hi
    ensures |xs| as real * lo <= Sum(xs) <= |xs| as real * hi
  {
    if |xs| > 0 {
      SumBounds(xs[..|xs| - 1], lo, hi);
    }
  }
}

=== FILE: topology.dfy ===
/** The communication graph the consensus engine routes votes and log entries
    over: an adjacency list built from the snapshot's undirected edges, and a
    breadth-first reachability test over it. */
module Topology {
  import opened Swarm

  type Adjacency = map<RobotId, seq<RobotId>>

  datatype Edge = Edge(from: RobotId, to: RobotId)

  /** Records one undirected edge; an endpoint that is not a known robot gets
      no list of its own but still appears in the other endpoint's list. */
  function Connect(adj: Adjacency, e: Edge): Adjacency {
    var a := if e.from in adj then adj[e.from := adj[e.from] + [e.to]] else adj;
    if e.to in a then a[e.to := a[e.to] + [e.from]] else a
  }

  /** Some edge joins a and b, in either direction. */
  ghost predicate Linked(edges: seq<Edge>, a: RobotId, b: RobotId) {
    exists i :: 0 <= i < |edges| && (edges[i] == Edge(a, b) || edges[i] == Edge(b, a))
  }

  /** Adjacency lists for the known robots: one (possibly empty) list per id,
      and b is listed under a exactly when some edge joins them. */
  function BuildTopology(ids: seq<RobotId>, edges: seq<Edge>): (adj: Adjacency)
    ensures adj.Keys == set i | 0 <= i < |ids| :: ids[i]
    ensures forall a, b :: a in adj ==> (b in adj[a] <==> Linked(edges, a, b))
  {
    if |edges| == 0 then map i | 0 <= i < |ids| :: ids[i] := []
    else
      var prev := BuildTopology(ids, edges[..|edges| - 1]);
      var e := edges[|edges| - 1];
      LinkedSnoc(edges);
      ConnectLists(prev, e);
      Connect(prev, e)
  }

  /** The edges joining a and b are those of all but the last edge, plus the
      last one when it joins them. */
  lemma LinkedSnoc(edges: seq<Edge>)
    requires |edges| > 0
    ensures var p, e := edges[..|edges| - 1], edges[|edges| - 1];
      forall a, b :: Linked(edges, a, b) <==> Linked(p, a, b) || e == Edge(a, b) || e == Edge(b, a)
  {
    var p, e := edges[..|edges| - 1], edges[|edges| - 1];
    forall a, b | Linked(edges, a, b)
      ensures Linked(p, a, b) || e == Edge(a, b) || e == Edge(b, a)
    {
      var i :| 0 <= i < |edges| && (edges[i] == Edge(a, b) || edges[i] == Edge(b, a));
      if i < |edges| - 1 {
        assert p[i] == edges[i];
      }
    }
    forall a, b | Linked(p, a, b)
      ensures Linked(edges, a, b)
    {
      var i :| 0 <= i < |p| && (p[i] == Edge(a, b) || p[i] == Edge(b, a));
      assert edges[i] == p[i];
    }
  }

  /** Connecting e keeps the keys and adds each endpoint to the other's list. */
  lemma ConnectLists(adj: Adjacency, e: Edge)
    ensures Connect(adj, e).Keys == adj.Keys
    ensures forall a, b :: a in adj ==>
      (b in Connect(adj, e)[a] <==> b in adj[a] || e == Edge(a, b) || e == Edge(b, a))
  {
  }

  /** The adjacency built from undirected edges is symmetric over known ids. */
  lemma TopologySymmetric(ids: seq<RobotId>, edges: seq<Edge>, a: RobotId, b: RobotId)
    requires a in BuildTopology(ids, edges) && b in BuildTopology(ids, edges)
    requires b in BuildTopology(ids, edges)[a]
    ensures a in BuildTopology(ids, edges)[b]
  {
    var i :| 0 <= i < |edges| && (edges[i] == Edge(a, b) || edges[i] == Edge(b, a));
    assert Linked(edges, b, a);
  }

  /** One hop: v is listed under u. */
  ghost predicate Step(adj: Adjacency, u: RobotId, v: RobotId) {
    u in adj && v in adj[u]
  }

  ghost predicate IsPath(adj: Adjacency, p: seq<RobotId>) {
    |p| > 0 && forall i :: 0 <= i < |p| - 1 ==> Step(adj, p[i], p[i + 1])
  }

  /** b can be reached from a by following adjacency lists. */
  ghost predicate Reachable(adj: Adjacency, a: RobotId, b: RobotId) {
    exists p :: IsPath(adj, p) && p[0] == a && p[|p| - 1] == b
  }

  /** Every id that occurs in the graph, as a key or inside a list. */
  function Nodes(adj: Adjacency): set<RobotId> {
    adj.Keys + set u, v | u in adj && v in adj[u] :: v
  }

  function Successors(adj: Adjacency, u: RobotId): seq<RobotId> {
    if u in adj then adj[u] else []
  }

  /** The entries of ns outside seen, in order. */
  function Unseen(ns: seq<RobotId>, seen: set<RobotId>): (out: seq<RobotId>)
    ensures forall v :: v in out <==> v in ns && v !in seen
  {
    if |ns| == 0 then []
    else Unseen(ns[..|ns| - 1], seen) + (if ns[|ns| - 1] in seen then [] else [ns[|ns| - 1]])
  }

  /** Visiting the head of the queue shrinks the unvisited part of the graph,
      and everything it enqueues is a node of the graph. */
  lemma VisitShrinks(adj: Adjacency, queue: seq<RobotId>, visited: set<RobotId>)
    requires |queue| > 0 && queue[0] !in visited
    requires forall x :: x in queue ==> x in Nodes(adj)
    ensures |Nodes(adj) - (visited + {queue[0]})| < |Nodes(adj) - visited|
    ensures forall x :: x in queue[1..] + Unseen(Successors(adj, queue[0]), visited + {queue[0]}) ==>
      x in Nodes(adj)
  {
    var cur := queue[0];
    assert cur in queue;
    assert Nodes(adj) - (visited + {cur}) == (Nodes(adj) - visited) - {cur};
    forall x | x in queue[1..] + Unseen(Successors(adj, cur), visited + {cur})
      ensures x in Nodes(adj)
    {
      if x !in queue[1..] {
        assert cur in adj && x in adj[cur];
      }
    }
  }

  /** The breadth-first search loop: pop the head of the queue, stop on the
      target, skip visited nodes, otherwise mark it and enqueue its unvisited
      successors. */
  function Bfs(adj: Adjacency, target: RobotId, queue: seq<RobotId>, visited: set<RobotId>): bool
    requires forall x :: x in queue ==> x in Nodes(adj)
    decreases |Nodes(adj) - visited|, |queue|
  {
    if |queue| == 0 then false
    else
      var cur := queue[0];
      if cur == target then true
      else if cur in visited then Bfs(adj, target, queue[1..], visited)
      else
        var seen := visited + {cur};
        var next := queue[1..] + Unseen(Successors(adj, cur), seen);
        VisitShrinks(adj, queue, visited);
        Bfs(adj, target, next, seen)
  }

  /** Whether a robot can talk to another, directly or over several hops. */
  function IsReachable(adj: Adjacency, from: RobotId, to: RobotId): bool {
    from in adj && to in adj && Bfs(adj, to, [from], {})
  }

  lemma ExtendPath(adj: Adjacency, a: RobotId, u: RobotId, v: RobotId)
    requires Reachable(adj, a, u) && Step(adj, u, v)
    ensures Reachable(adj, a, v)
  {
    var p :| IsPath(adj, p) && p[0] == a && p[|p| - 1] == u;
    var q := p + [v];
    assert forall i :: 0 <= i < |q| - 1 ==> Step(adj, q[i], q[i + 1]) by {
      forall i | 0 <= i < |q| - 1 ensures Step(adj, q[i], q[i + 1]) {
        if i < |p| - 1 {
          assert q[i] == p[i] && q[i + 1] == p[i + 1];
        }
      }
    }
    assert IsPath(adj, q) && q[0] == a && q[|q| - 1] == v;
  }

  /** A set closed under successors that holds the start of a path holds its end. */
  lemma {:induction false} ClosedHoldsPathEnd(adj: Adjacency, s: set<RobotId>, p: seq<RobotId>)
    requires IsPath(adj, p) && p[0] in s
    requires forall u, v :: u in s && Step(adj, u, v) ==> v in s
    ensures p[|p| - 1] in s
  {
    if |p| > 1 {
      var q := p[..|p| - 1];
      assert IsPath(adj, q) by {
        forall i | 0 <= i < |q| - 1 ensures Step(adj, q[i], q[i + 1]) {
          assert q[i] == p[i] && q[i + 1] == p[i + 1];
        }
      }
      ClosedHoldsPathEnd(adj, s, q);
      assert Step(adj, p[|p| - 2], p[|p| - 1]);
    }
  }

  /** If the search answers true, the target is reachable from the source,
      as long as everything queued so far is. */
  lemma {:induction false} BfsSound(adj: Adjacency, src: RobotId, target: RobotId,
                                    queue: seq<RobotId>, visited: set<RobotId>)
    requires forall x :: x in queue ==> x in Nodes(adj)
    requires forall x :: x in queue ==> Reachable(adj, src, x)
    requires Bfs(adj, target, queue, visited)
    ensures Reachable(adj, src, target)
    decreases |Nodes(adj) - visited|, |queue|
  {
    var cur := queue[0];
    if cur == target {
    } else if cur in visited {
      BfsSound(adj, src, target, queue[1..], visited);
    } else {
      var seen := visited + {cur};
      var next := queue[1..] + Unseen(Successors(adj, cur), seen);
      VisitShrinks(adj, queue, visited);
      assert cur in queue;
      forall x | x in next ensures Reachable(adj, src, x) {
        if x !in queue[1..] {
          assert Step(adj, cur, x);
          ExtendPath(adj, src, cur, x);
        }
      }
      BfsSound(adj, src, target, next, seen);
    }
  }

  /** If the search answers false, the target is not reachable: the visited set
      ends up closed under successors, holds the source and misses the target. */
  lemma {:induction false} BfsComplete(adj: Adjacency, src: RobotId, target: RobotId,
                                       queue: seq<RobotId>, visited: set<RobotId>)
    requires forall x :: x in queue ==> x in Nodes(adj)
    requires src in visited || src in queue
    requires target !in visited
    requires forall u, v :: u in visited && Step(adj, u, v) ==> v in visited || v in queue
    requires !Bfs(adj, target, queue, visited)
    ensures !Reachable(adj, src, target)
    decreases |Nodes(adj) - visited|, |queue|
  {
    if |queue| == 0 {
      if Reachable(adj, src, target) {
        var p :| IsPath(adj, p) && p[0] == src && p[|p| - 1] == target;
        ClosedHoldsPathEnd(adj, visited, p);
      }
    } else {
      var cur := queue[0];
      assert cur != target;
      if cur in visited {
        forall u, v | u in visited && Step(adj, u, v) ensures v in visited || v in queue[1..] {
          assert v in visited || v in queue;
        }
        BfsComplete(adj, src, target, queue[1..], visited);
      } else {
        var seen := visited + {cur};
        var next := queue[1..] + Unseen(Successors(adj, cur), seen);
        VisitShrinks(adj, queue, visited);
        forall u, v | u in seen && Step(adj, u, v) ensures v in seen || v in next {
          if u == cur {
            assert v in Successors(adj, cur);
          } else {
            assert v in visited || v in queue;
          }
        }
        BfsComplete(adj, src, target, next, seen);
      }
    }
  }

  /** The reachability test answers true exactly when both robots are in the
      topology and a path joins them; in particular a present robot reaches itself. */
  lemma ReachableIff(adj: Adjacency, from: RobotId, to: RobotId)
    ensures IsReachable(adj, from, to) <==> from in adj && to in adj && Reachable(adj, from, to)
  {
    if from in adj && to in adj {
      assert from in Nodes(adj);
      if Bfs(adj, to, [from], {}) {
        assert IsPath(adj, [from]);
        BfsSound(adj, from, to, [from], {});
      } else {
        BfsComplete(adj, from, to, [from], {});
      }
    }
  }

  /** A robot in the topology reaches itself; one outside it reaches nothing. */
  lemma ReachableEndpoints(adj: Adjacency, from: RobotId, to: RobotId)
    ensures from in adj ==> IsReachable(adj, from, from)
    ensures from !in adj || to !in adj ==> !IsReachable(adj, from, to)
  {
    if from in adj {
      assert from in Nodes(adj);
    }
  }
}
